=== FILE: README.md ===
# A verified model of a personal tools repository

This project models the pure logic at the core of a personal scripts
repository and proves properties of that model in Dafny.

The main part is the music splicer. It reads a line-oriented job file and
produces a list of jobs. The parser takes the lines as iterating over the
file yields them, so every line but possibly the last ends in its newline.
Each job has a url, chunks (begin time, end time,
name) and tag operations, which are scoped with `X`, `^` or `S`. Two resolver
passes then run on the jobs:

- the first resolves `NEXTCHUNK` end times;
- the second adds chapter chunks and computes output names from the
  `{index}` / `{index_roman}` prefix and suffix patterns.

After the passes come two decisions for each chunk:

- whether it is copied whole or trimmed;
- which tag values the macros `$INDEX`, `$FILENAME` and `$CHUNK_NAME`
  resolve to.

The repository has two iterations of this script: the dataclass one in
`process_music/process_music.py` and the dict one in `process_music.py`. Their
parsers are identical line for line, and the model has one parser for both.
Where the passes differ, the dict version has its own member.

The repository's small pure transformers are modelled as well:

- **`my_util.py`**:
  - H:M:S parsing and formatting;
  - ASCII and Unicode Roman numerals;
  - YouTube id extraction;
  - the two filename sanitisers.
- **`id3tools/my_utils.py`**: the extension stripper.
- **`my_vipe.py`**: the tab-table writer and reader.
- **`music/split_audio_by_timestamps.py`**: the time-listing line parser.
- **`cite/ris2bib.py`**: the RIS-to-BibTeX converter.
- **`dstds/dst_setup_server.rb` and `dst_setup_server.rb`**, the Don't Starve
  Together server set-up scripts:
  - `dump_as_lua`, together with Ruby's `String#dump`, which it uses for
    strings;
  - the mod-list and user-list validation;
  - the `cluster.ini`, `server.ini`, `modoverrides.lua` and
    `dedicated_server_mods_setup.lua` contents.
- **`minecraft_server/mcsetup.py` and `mcsetup.py`**:
  - version ordinals;
  - the Java and Log4j threshold rules;
  - the patch and on-exist decisions of `do_setup` / `do_grab`.
- **`math/lu_factorization.cpp`**:
  - Stein's binary GCD over 32-bit integers;
  - the normalised `Real` rational type;
  - Gaussian elimination without row swaps, which the source calls
    reduction to row echelon form (a zero diagonal entry is skipped, not
    swapped), and the `simplifyLU` normalisation.

Modules follow the source files:

| module | models |
|---|---|
| `MusicJob` | the job-file parser |
| `MusicPasses` | the passes after parsing |
| `MyUtil` | H:M:S, filenames, YouTube ids |
| `Roman` | Roman numerals |
| `ExtStripper` | extension stripper |
| `Vipe` | tab tables |
| `SplitAudio` | time listings |
| `Ris2Bib` | RIS to BibTeX |
| `DstConfig` | DST set-up, without the Lua dumper |
| `LuaDump` | `dump_as_lua` |
| `RubyDump` | `String#dump` |
| `McSetup` | Minecraft set-up rules |
| `BinaryGcd` | `trailingZeros`, `calcGcd` |
| `Rational` | `Real` |
| `LuFactorization` | elimination and `simplifyLU` |

`Text`, `Numbers` and `Wrappers` are shared helpers:

- `Text`: Python-style strip, split, find and join.
- `Numbers`: decimal digits, and integer and decimal literals.
- `Wrappers`: `Option` and `Result`.

The effects of the scripts become parameters or values:

- Video chapters, the video length and the downloaded file's extension are
  parameters of the passes.
- The tag store is a map from names to values.
- The trim is an abstract `Copy | Trim(ss, t)` result.
- A generated file is its list of lines.
- A Python or Ruby exception is an `Err` result.

## Model

| member | source | states |
|---|---|---|
| MusicJob.ParseValue | process_music/process_music.py:260-268 | Empty text gives `""`. Text that strips to nothing fails, because `s[0]` raises on it. Otherwise one layer of matching `"` or `'` quotes is removed from the stripped text. Mixed or absent quotes leave the stripped text as it is. |
| MusicJob.ParseValueQuoted | process_music/process_music.py:264-267 | A value written in one pair of matching quotes reads back as exactly its inner text. |
| MusicJob.ParseValueBare | process_music/process_music.py:263-268 | Unquoted text with no surrounding whitespace reads back unchanged. |
| MusicJob.ParseUnresolvedTime | process_music/process_music.py:255-258 | `NEXTCHUNK` and `VIDEOLENGTH` stay sentinels. Any other text is an H:M:S time, and it fails exactly when the H:M:S parser fails. |
| MusicJob.ScopeOf | process_music/process_music.py:270-274 | Only `X`, `^` and `S` are scope indicators. |
| MusicJob.Matched | process_music/process_music.py:249-253 | A prefix matches, in the walrus sense, only when the line starts with it and something non-empty follows. The result is the rest of the line. |
| MusicJob.Classify | process_music/process_music.py:297-344 | A line is a url, chunk or tag directive only when that prefix matches with a non-empty rest. A matching `url: ` wins over every later branch. |
| MusicJob.EmptyDirectiveFallsThrough | process_music/process_music.py:297 | A `url: ` or `tag(` with nothing after it is not taken as that directive and changes nothing. Since lines keep their terminator, only an unterminated last line can be that bare. |
| MusicJob.TerminatedUrlLine | process_music/process_music.py:297-298 | A `url: ` line with any rest, a newline included, is a url directive and sets the url to the stripped rest. When the rest is only whitespace, the url is cleared. |
| MusicJob.ChunkOf | process_music/process_music.py:299-307 | A chunk line must split into exactly three fields, otherwise it is an error. The fields give the begin time, the end time or sentinel, and the name. The new chunk has no tag operations. |
| MusicJob.ChunkOfFields | process_music/process_music.py:299-307 | A written `BEGIN END "NAME"` line reads back to those fields. The name keeps its inner spaces. |
| MusicJob.Ops | process_music/process_music.py:335-339 | Each comma-separated name gives one operation, all with the same value. |
| MusicJob.AddTagOps | process_music/process_music.py:323-339 | Each scope appends the operations to exactly its lists: `X` to the job's list, `^` to the last chunk's (it fails when there is no chunk), `S` to every chunk from the section start on. No scope is an error. Every other list and field is unchanged. |
| MusicJob.Step | process_music/process_music.py:283-344 | One line preserves the parser invariant. It either leaves the committed jobs alone or commits the current job, which must have a url, and then restarts with an empty job and a section start of 0. |
| MusicJob.StepEffects | process_music/process_music.py:283-344 | Empty and comment lines change nothing. A `url: ` line sets the url to its stripped text. A chunk line appends its chunk, failing when the chunk does not parse. The chapter flag sets chunking by chapter, and `prefix: ` and `suffix: ` set their patterns. A section break moves the section start to the current number of chunks. `use_file_extension: ` and unknown lines change nothing. A tag line is the tag step for the line's scope. Each line changes nothing else. |
| MusicJob.ScopeStrippedFromAnyLine | process_music/process_music.py:291-295 | A scope character in front of a line that is not a tag line has no effect: the line acts as if it had no scope character. |
| MusicJob.ParseFrom | process_music/process_music.py:283-344 | Folding over the lines keeps the invariant and only ever extends the committed jobs. |
| MusicJob.ParseInputFile | process_music/process_music.py:276-350 | The lines are the file's lines as iteration yields them, each keeping its newline. Every job in the result has a non-empty url. |
| MusicJob.FinalJobCommitted | process_music/process_music.py:346-348 | The file parses exactly when the fold over its lines succeeds. The job still open at the end is added after the committed jobs when it has a url, and dropped otherwise. |
| MusicJob.SeparatorCommits | process_music/process_music.py:340-344 | A `---` line commits a job that has a url and resets the section start. Without a url, the line does nothing. |
| MusicJob.ParseFromAppend | process_music/process_music.py:283-348 | Parsing `a + b` parses `b` from the state that `a` ends in, so jobs come out in file order. |
| MusicPasses.ResolveNextChunk | process_music/process_music.py:61-73 | The chunk count is unchanged and no `NEXTCHUNK` remains. A `NEXTCHUNK` becomes the next chunk's begin time, or `VIDEOLENGTH` on the last chunk. Every other chunk is unchanged. |
| MusicPasses.ResolveNextChunkIdempotent | process_music.py:23-35 | Running the pass a second time changes nothing. |
| MusicPasses.PostprocessInfo | process_music/process_music.py:61-73 | Only the chunk ends of each job change. |
| MusicPasses.FormatExpands | process_music/process_music.py:52-55 | A pattern built from literal text, `{{`, `}}`, `{index}` and `{index_roman}` formats to its expansion. |
| MusicPasses.UsePattern | process_music/process_music.py:52-55 | It fails from the thirteenth chunk on, because the Unicode numeral is computed eagerly. Below that, `{index}` is the 1-based position and `{index_roman}` is its Unicode numeral. |
| MusicPasses.Affix | process_music/process_music.py:124-128 | A missing or empty prefix or suffix contributes nothing. |
| MusicPasses.Basename | process_music/process_music.py:123-129 | The name is the formatted prefix, then the chunk name, then the formatted suffix. It fails when either pattern fails. |
| MusicPasses.BasenamePlain | process_music/process_music.py:123-129 | Prefix and suffix patterns without braces are used literally. |
| MusicPasses.BasenameNumbers | process_music/process_music.py:123-129 | A `{index}. ` prefix numbers the chunks from 1. |
| MusicPasses.WithChapters | process_music/process_music.py:111-118 | Chapter chunks are appended after the explicit chunks, one per chapter in order. This happens only when chunking by chapter is on and there are chapters. |
| MusicPasses.NameChunks | process_music/process_music.py:120-129 | Each chunk gets the name computed for its position. Nothing else in the chunk changes. |
| MusicPasses.VideoDependentInfo | process_music/process_music.py:105-129 | Only the job's chunks change. They are the explicit chunks plus any chapter chunks, each given the base name for its position. |
| MusicPasses.VideoDependentInfoDict | process_music.py:67-96 | In the dict version, chapter chunks have no `chunk_name`, so naming fails whenever chapters are added. Otherwise the result is the dataclass version's. |
| MusicPasses.SplitAction | process_music/process_music.py:208-218 | A chunk from 0 to `VIDEOLENGTH` is copied whole. Any other chunk is trimmed from its begin time to its end, where `VIDEOLENGTH` means the video's length. An unresolved `NEXTCHUNK` fails. |
| MusicPasses.OutFile | process_music/process_music.py:204 | The output file is the base name plus the extension. A chunk without a base name fails. |
| MusicPasses.SplitAfterResolve | process_music/process_music.py:61-73 | After resolution every chunk can be split. A chunk that ran to the next one is cut exactly where the next one begins. |
| MusicPasses.Resolve | process_music/process_music.py:236-244 | `$INDEX` gives the 1-based index as a number. `$FILENAME` gives the output file name. `$CHUNK_NAME` and `$FILENAME_ORIG` give the chunk name. Any other value is literal. |
| MusicPasses.LastOp | process_music/process_music.py:233-245 | The operation found is one of the list's operations on that name, and no later operation names it. None is found exactly when no operation names it. |
| MusicPasses.ApplyOps | process_music/process_music.py:233-245 | Applying the operations succeeds exactly when every value resolves. |
| MusicPasses.ApplyOpsLastWins | process_music/process_music.py:233-245 | A name gets the resolved value of its last operation. A name no operation writes keeps its stored value, or stays absent. |
| MusicPasses.ChunkOpsWin | process_music/process_music.py:233 | In the job-then-chunk chain, the chunk's last operation on a name comes last. The job's last operation counts only when the chunk has none. |
| MusicPasses.ChunkTagsOverride | process_music/process_music.py:229-245 | A chunk's tags: its own last operation on a name decides the value, else the job's last operation, else the stored value stays. |
| MyUtil.SecondsOnly | my_util.py:80-81 | A time without `:` is a plain decimal number of seconds. |
| MyUtil.StrParseHms | my_util.py:74-83 | Only one to three `:`-separated fields can succeed. |
| MyUtil.ParseHmsTwo | my_util.py:78-79 | `M:S` is `M*60 + S`, where S may be fractional. |
| MyUtil.ParseHmsThree | my_util.py:76-77 | `H:M:S` is `H*3600 + M*60 + S`, where S may be fractional. |
| MyUtil.StrFormatSeconds | my_util.py:85-91 | As written: three zero-padded fields, which are the hours, the *total* minutes and the seconds. |
| MyUtil.FormatAsWrittenAt3661 | my_util.py:85-91 | As written, 3661 seconds renders as `01:61:01`. |
| MyUtil.FormatAsWrittenBreaksRoundTrip | my_util.py:74-91 | Parsing the as-written rendering of 3661 gives 7261, so the round trip breaks at one hour and more. |
| MyUtil.FormatRoundTripBelowHour | my_util.py:74-91 | Below one hour the as-written format is the corrected one, and it reads back exactly. |
| MyUtil.StrFormatSecondsFixed | my_util.py:85-91 | Corrected: the minutes field is reduced mod 60. |
| MyUtil.FormatFixedRoundTrip | my_util.py:74-91 | The corrected format reads back as the same number of seconds, for every whole number of seconds. |
| MyUtil.KeepFilenameChars | my_util.py:48-49 | The result is a subsequence of the input made only of whitelist characters. An input of whitelist characters only is kept whole. |
| MyUtil.FormatFilename | my_util.py:37-52 | The output has only whitelist characters. With `keep_spaces` it is the whitelisted subsequence of the input. Without it, it is that subsequence with each space replaced by `_`, so it has no spaces. A clean input is unchanged. |
| MyUtil.ReplaceThenFilter | my_util.py:48-51 | Without `keep_spaces`, filtering and then replacing spaces gives the same name as replacing spaces and then filtering. |
| MyUtil.FormatFilenameIdempotent | my_util.py:37-52 | Sanitising twice is the same as sanitising once. |
| MyUtil.FormatFilenameLean | my_util.py:54-57 | The length is preserved, no `/` remains, and every other character is unchanged. |
| MyUtil.FormatFilenameLeanInvertible | my_util.py:54-57 | When the input has no U+2044, mapping U+2044 back to `/` restores the input. |
| MyUtil.GetIdFromYtbUrl | my_util.py:60-72 | It fails exactly when `v=` is absent. Otherwise the id is the text after the first `v=`, up to the first `&` or the end. |
| MyUtil.GetIdOfBuiltUrl | my_util.py:60-72 | An id without `&`, placed after the first `v=` and followed by nothing or by `&...`, is extracted back exactly. |
| Roman.IntToRomanAscii | my_util.py:109-114 | For n ≥ 0 the symbol values of the output (subtractive pairs included) add up to n. |
| Roman.ZeroIsEmpty | my_util.py:109-114 | Zero gives the empty string. |
| Roman.NegativeEncodesModulo | my_util.py:109-114 | A negative input encodes `n mod 1000`, because Python's `divmod` floors. |
| Roman.IntToRomanUnicode | my_util.py:117-119 | The lookup succeeds exactly for -11..12, because negative indexes wrap around the 12-entry table. 1..12 give the numerals Ⅰ..Ⅻ. |
| Roman.UnicodeRoundTrip | my_util.py:117-119 | For 1..12 the numeral reads back as the number. |
| ExtStripper.Strip | id3tools/my_utils.py:3-13 | The result is a prefix of the input. At most the last `.` and its suffix are removed, and only when that suffix is in the set. A string without `.`, or whose suffix is not in the set, is unchanged. |
| ExtStripper.StripAppended | id3tools/my_utils.py:8-10 | `base + "." + ext`, with `ext` in the set and without dots, strips to `base`. |
| ExtStripper.StripRemovesOne | id3tools/my_utils.py:5-12 | The input is the result, or the result followed by one `.` and the removed suffix. |
| Vipe.TableLines | my_vipe.py:49-53 | The first line is `# ` followed by the tab-joined headers, then one tab-joined line per row. |
| Vipe.FormatTableData | my_vipe.py:43-54 | The text starts with the header line. |
| Vipe.SplitLines | my_vipe.py:58 | No piece contains a line break. |
| Vipe.SplitTabRuns | my_vipe.py:57-58 | Cells contain no tab, and only the first and last cells can be empty, since runs of tabs are one separator. |
| Vipe.DataLines | my_vipe.py:58 | A line is kept exactly when it is neither empty nor starts with `#`. At most all lines are kept. |
| Vipe.ParseTableData | my_vipe.py:56-58 | Every non-empty line not starting with `#` gives a row, its cells split at runs of tabs. Every row has a cell, no cell contains a tab, and no row's first cell starts with `#`. |
| Vipe.DataLinesAppend | my_vipe.py:58 | The kept lines of a concatenation are the kept lines of each part, in order. |
| Vipe.DataLinesSnoc | my_vipe.py:58 | One more line adds exactly its own row when it is neither empty nor a comment, and nothing otherwise. |
| Vipe.ParseTableDataRows | my_vipe.py:56-58 | The rows are the kept lines in file order, each split at runs of tabs. |
| Vipe.SplitTabRunsJoin | my_vipe.py:52-58 | Non-empty cells without tabs, joined by tabs, split back into the same cells. |
| Vipe.SplitLinesJoin | my_vipe.py:54-58 | Non-empty lines without line breaks, joined by `\n`, split back into the same lines. |
| Vipe.ParseFormatRoundTrip | my_vipe.py:43-58 | Parsing the formatted table gives back the rows. This holds when every cell is non-empty and free of tabs and line breaks, and no row's first cell starts with `#`. |
| SplitAudio.MakeTime | music/split_audio_by_timestamps.py:17-27 | More than three fields fail. A two-field time is a whole number of seconds. |
| SplitAudio.MakeTimeTwo | music/split_audio_by_timestamps.py:22-23 | `M:S` with whole seconds is `M*60 + S`, and the H:M:S parser of `my_util.py` gives the same. |
| SplitAudio.MakeTimeRefinesHms | music/split_audio_by_timestamps.py:17-27 | Wherever this parser succeeds, the H:M:S parser of `my_util.py` gives the same value. The two parsers agree on every input that does not have two fields. |
| SplitAudio.TwoFieldReaders | music/split_audio_by_timestamps.py:22-23 | With two fields and fractional seconds, this parser fails while the H:M:S parser of `my_util.py` accepts them. |
| SplitAudio.FractionalMinuteSecondsRejected | music/split_audio_by_timestamps.py:22-23 | `0:1.5` is rejected here and read as 1.5 by the H:M:S parser of `my_util.py`. |
| SplitAudio.Fields | music/split_audio_by_timestamps.py:36 | A stripped line gives one to three fields, and the first two of these contain no space. |
| SplitAudio.LineRecord | music/split_audio_by_timestamps.py:36-48 | A line with fewer than two fields fails. The record's begin time comes from the first field and its duration is end minus begin. The name is the third field or, when that is missing, `<line number>.wav`. |
| SplitAudio.CollectFromFile | music/split_audio_by_timestamps.py:29-49 | One record per line, each the record of that line. The first bad line makes the whole file fail. |
| SplitAudio.LineRecordOfFields | music/split_audio_by_timestamps.py:36-48 | A written `BEGIN END NAME` line reads back to those times and that name, spaces in the name included. |
| Ris2Bib.TagValue | cite/ris2bib.py:34-39 | A line without `-` is ignored. Otherwise the field and the value are the text before and after the first `-`, each stripped as the script strips them. |
| Ris2Bib.BeforeSlash | cite/ris2bib.py:48-49 | The year is the longest prefix of the `PY` value that has no `/`. |
| Ris2Bib.Apply | cite/ris2bib.py:40-60 | `AU` appends an author. Every other recognised tag overwrites exactly its own slot. Unknown tags change nothing. |
| Ris2Bib.ParseRis | cite/ris2bib.py:32-60 | The authors are every `AU` value in order. Every other slot holds its last tag's value. |
| Ris2Bib.PrintedFields | cite/ris2bib.py:70-85 | Exactly the set fields are printed, each once, in the script's fixed order. `pages` is printed only when both `SP` and `EP` are set. |
| Ris2Bib.BibLines | cite/ris2bib.py:63-86 | It fails without an author or a year. Otherwise it gives the key line, the author line joined by ` and `, one line per printed field, and the closing `}` line. |
| Ris2Bib.RisToBib | cite/ris2bib.py:63-94 | The conversion succeeds exactly when the input has an `AU` and a `PY`. |
| DstConfig.ForPrefix | dstds/dst_setup_server.rb:8-12 | It yields only when the string starts with the prefix, and then what it yields is the rest. |
| DstConfig.Index | dstds/dst_setup_server.rb:77 | A hash gives the value under the key, or `nil`. Indexing other values is modelled as an error, except for strings. |
| DstConfig.CollectUserList | dstds/dst_setup_server.rb:97-108 | `nil` gives `[]`. A list of strings is returned as is. Anything else fails. |
| DstConfig.ModOf | dstds/dst_setup_server.rb:82-92 | A mod entry is valid when its name is a non-empty string and its options are a hash. `nil` options count as `{}` only where that script normalises them. |
| DstConfig.ModEntries | dstds/dst_setup_server.rb:81-90 | A shard's mods are accepted exactly when every entry is valid. The result keeps each entry's name and options in order. |
| DstConfig.ShardMods | dstds/dst_setup_server.rb:77-90 | A shard without mods is skipped. Mods that are not a hash, or that contain an invalid entry, fail. |
| DstConfig.Add | dstds/dst_setup_server.rb:92 | Set insertion: the element is present afterwards, nothing else is added, and the list stays duplicate-free. |
| DstConfig.AddWorkshopIds | dstds/dst_setup_server.rb:92 | Exactly the ids behind `workshop-` names are added, without duplicates. |
| DstConfig.CollectMods | dstds/dst_setup_server.rb:75-94 | Every shard is validated. The mod list is duplicate-free and holds exactly the Workshop ids of the mod names across all shards. |
| DstConfig.AllShardMods | dst_setup_server.rb:60-71 | One validated mod list per shard, and the result fails when any shard's mods fail. |
| DstConfig.ModsSetupLines | dstds/dst_setup_server.rb:184-188 | One `ServerModSetup("id")` line per id, in order. |
| DstConfig.ModOverrides | dstds/dst_setup_server.rb:233-242 | The file opens with `return {` and closes with `}`. |
| DstConfig.ModOverridesRoundTrip | dst_setup_server.rb:185-195 | Reading the written `modoverrides.lua` back gives every mod's name and options, in order, whether or not empty options are left out. |
| DstConfig.BlocksRoundTrip | dstds/dst_setup_server.rb:235-240 | The mod blocks read back as the mods. |
| DstConfig.WriteDefaulted | dstds/dst_setup_server.rb:113-119 | A present key writes its value. An absent key writes the default if there is one, and nothing otherwise. |
| DstConfig.WriteRequired | dstds/dst_setup_server.rb:121-127 | A present key writes its value, and a missing key raises. |
| DstConfig.Emit | dstds/dst_setup_server.rb:129-172 | A writer succeeds exactly when every step can be carried out. |
| DstConfig.EmitLines | dstds/dst_setup_server.rb:129-172 | The lines written are exactly the lines the steps call for. |
| DstConfig.ClusterIni | dstds/dst_setup_server.rb:129-172 | Zero shards fail, and a missing `cluster_name` fails. The file starts with `[GAMEPLAY]`. `[SHARD]` appears exactly when there are several shards, and `whitelist_slots = n` exactly when the whitelist is non-empty. |
| DstConfig.ShardSection | dstds/dst_setup_server.rb:164-171 | The `[SHARD]` section is present exactly for a multi-shard cluster. |
| DstConfig.WhitelistSetting | dstds/dst_setup_server.rb:155 | The file has a `whitelist_slots` line exactly when a whitelist size was given, and the line carries that size. |
| DstConfig.ServerIni | dstds/dst_setup_server.rb:246-270 | `is_master` appears exactly in shard 0's file. The id defaults to `i + 1`. The ports are 10998 + i, 28900 + i and 28700 + i. |
| DstConfig.ServerFile | dst_setup_server.rb:199-221 | The file carries the master flag exactly for the master, the id default when there is no `id` key, and the three ports. |
| DstConfig.ServerMaster | dstds/dst_setup_server.rb:253 | Only the master's file says `is_master = true`. |
| DstConfig.ServerId | dstds/dst_setup_server.rb:255-259 | Without an `id` key the file has the default id. |
| DstConfig.ServerPorts | dstds/dst_setup_server.rb:262-266 | The file has the three port lines. |
| LuaDump.RoundTrip | dstds/dst_setup_server.rb:14-31 | The dumped text reads back as the value, up to key types: keys become their `to_s` text. This holds when no key text contains `"`. |
| LuaDump.DumpInjective | dstds/dst_setup_server.rb:14-31 | Two values with the same dump are equal, up to key types. |
| LuaDump.DumpParses | dst_setup_server.rb:14-31 | A dumped value followed by a delimiter reads back as the value and leaves exactly the rest. |
| RubyDump.DumpRoundTrip | dstds/dst_setup_server.rb:22-23 | `String#dump` output followed by anything reads back as the original string and leaves exactly the rest. |
| RubyDump.DumpInjective | dstds/dst_setup_server.rb:22-23 | Different strings have different dumps. |
| RubyDump.HexFixedValue | dstds/dst_setup_server.rb:22-23 | A fixed-width upper-case hex escape reads back as its number. |
| RubyDump.EscapeCharReads | dstds/dst_setup_server.rb:22-23 | Each character's escape reads back as that character. |
| McSetup.SortByTime | minecraft_server/mcsetup.py:49 | The sort is by release time. It is a permutation, and it is stable: versions with the same release time keep their order. |
| McSetup.VersionIndex | minecraft_server/mcsetup.py:48-58 | The index is keyed by exactly the ids of the version list. |
| McSetup.AddEntries | minecraft_server/mcsetup.py:52-58 | Each version gets its position in the sorted list as its ordinal, keyed by its id. |
| McSetup.OrdinalsFollowRelease | mcsetup.py:35-45 | A smaller ordinal never belongs to a later release. |
| McSetup.ContextThresholds | minecraft_server/mcsetup.py:142-148 | The thresholds are the ordinals of the named versions. It fails when one of those versions is missing. |
| McSetup.Get | minecraft_server/mcsetup.py:176-177 | A version's ordinal. It fails for an unknown version. |
| McSetup.JavaFor | minecraft_server/mcsetup.py:257-265 | At or after 1.21 gives Java 21, at or after 1.17.1 gives 17, at or after 1.16.5 gives 16, and anything earlier gives 8. |
| McSetup.JavaMonotone | minecraft_server/mcsetup.py:257-265 | With the thresholds in release order, a later version never gets an older Java. |
| McSetup.JavaForRoot | mcsetup.py:266-272 | The older script never picks Java 21, and below 1.21 it agrees with the newer one. |
| McSetup.JavaRootMonotone | mcsetup.py:266-272 | In the older script, too, a later version never gets an older Java. This holds for any thresholds up to 1.18.1 in release order, which is all that script's context has. |
| McSetup.Log4jFor | minecraft_server/mcsetup.py:268-277 | No patch from 1.18.1 on. `MSG_NO_LOOKUPS` for [1.17, 1.18.1), `112_116` for [1.12, 1.17) and `17_111` for [1.7, 1.12). No patch before 1.7. |
| McSetup.ComputeTraits | minecraft_server/mcsetup.py:254-279 | It succeeds exactly for known versions, and then gives that version's Java and Log4j choices. |
| McSetup.Log4jForRootAsWritten | mcsetup.py:275-284 | As written, the older script succeeds only from 1.17 on, where it agrees with the threshold rule. |
| McSetup.RootLog4jFailsBeforeV117 | mcsetup.py:279-282 | As written, a version in [1.12, 1.17) that should get the `112_116` patch instead fails. This holds for the older script's own thresholds, which stop at 1.18.1. |
| McSetup.ComputeTraitsRootAsWritten | mcsetup.py:263-286 | As written, the older script's traits exist only from 1.17 on. |
| McSetup.ComputeTraitsRoot | mcsetup.py:263-286 | Corrected: it succeeds for every known version. The Log4j choice is the threshold rule's. The traits are the newer script's on a context whose 1.21 threshold lies beyond the version. |
| McSetup.RootTraitsCover | mcsetup.py:275-284 | Corrected: with the older script's thresholds in release order, every version in [1.7, 1.18.1) gets a Log4j mitigation. |
| McSetup.PatchFlag | minecraft_server/mcsetup.py:244-248 | Only "no patch" has an empty JVM flag. |
| McSetup.PatchFile | minecraft_server/mcsetup.py:303-309 | Only the `17_111` and `112_116` patches link a configuration file, and their flag names that file. |
| McSetup.OnExistMode | minecraft_server/mcsetup.py:286-290 | `bail` with an existing target fails, and nothing else fails. `overwrite` gives overwrite mode, and anything else gives ignore. |
| McSetup.DoSetup | minecraft_server/mcsetup.py:281-309 | It succeeds exactly for a known version that is not bailing on an existing file. The Java executable follows the threshold rule. The JVM flag is the one for the version's Log4j patch, for example `-Dlog4j2.formatMsgNoLookups=true` from 1.17 up to 1.18.1, and the file linked is that patch's configuration, if it has one. |
| McSetup.DoGrab | minecraft_server/mcsetup.py:200-207 | `bail` fails exactly when the instance exists. Otherwise the mode is overwrite or ignore. |
| McSetup.DoSetupRoot | mcsetup.py:288-297 | As written: with thresholds in release order, it succeeds exactly for a known version from 1.17 on. When it succeeds it never links a patch file. |
| McSetup.DoSetupRootFixed | mcsetup.py:288-297 | Corrected: a known version links the patch file its Log4j rule calls for, which happens exactly for versions in [1.7, 1.17). |
| McSetup.RootSetupLinksNothing | mcsetup.py:288-297 | For a version in [1.7, 1.17), the script as written fails, and the corrected one links a patch file. |
| BinaryGcd.TrailingZeros | math/lu_factorization.cpp:18-26 | For n ≠ 0, the result is the index of the lowest set bit of the 32-bit value. Zero gives 32. |
| BinaryGcd.OddPart | math/lu_factorization.cpp:38-39 | Shifting out the trailing zeros leaves an odd factor m with n = m·2^t. |
| BinaryGcd.OddGcd | math/lu_factorization.cpp:42-52 | The subtract-and-shift loop on two odd positives computes their gcd. |
| BinaryGcd.CalcGcd | math/lu_factorization.cpp:30-53 | The result is gcd(\|x\|, \|y\|), and gcd(0, y) = \|y\|. |
| BinaryGcd.GcdSplit | math/lu_factorization.cpp:38-53 | gcd(a·2^i, b·2^j) = 2^min(i,j) · gcd(a, b) for odd a and b. This is why the common power of two is shifted back in. |
| BinaryGcd.GcdOddPow2 | math/lu_factorization.cpp:51 | Powers of two can be removed from one side of a gcd whose other side is odd. |
| Rational.Simplify | math/lu_factorization.cpp:68-78 | With a non-zero denominator, the result has a positive denominator and coprime parts. |
| Rational.SimplifyValue | math/lu_factorization.cpp:68-78 | Simplifying keeps the rational value. |
| Rational.AddExact | math/lu_factorization.cpp:81-90 | `+` gives the exact sum. |
| Rational.SubExact | math/lu_factorization.cpp:92-101 | `-` gives the exact difference. |
| Rational.MulExact | math/lu_factorization.cpp:103-109 | `*` gives the exact product. |
| Rational.DivExact | math/lu_factorization.cpp:111-119 | `/` by a non-zero value gives the exact quotient. |
| Rational.Canonical | math/lu_factorization.cpp:121-124 | Two simplified values that are equal as rationals are the same pair. This is why the component-wise `==` is sound. |
| Rational.Eq | math/lu_factorization.cpp:121-124 | On simplified operands, `==` holds exactly when the values are equal. |
| Rational.EqInt | math/lu_factorization.cpp:125-127 | On a simplified operand, `== n` holds exactly when the value is n. |
| Rational.ZeroForm | math/lu_factorization.cpp:125-127 | A simplified value is zero exactly when it is `0/1`. |
| Rational.Show | math/lu_factorization.cpp:129-135 | A `/` is printed exactly when the denominator is not 1. |
| Rational.ShowParse | math/lu_factorization.cpp:129-135 | The printed text reads back as the same pair. |
| LuFactorization.CopyColumn | math/lu_factorization.cpp:240-244 | Rows n and below of the pivot column are copied into the current L column. Nothing else changes. |
| LuFactorization.ScaleVec | math/lu_factorization.cpp:248-249 | Entries from the pivot column on are multiplied by the factor. Earlier entries are unchanged. |
| LuFactorization.ReduceVec | math/lu_factorization.cpp:252-256 | Entries from the pivot column on have the scaled pivot row subtracted. Earlier entries are unchanged. |
| LuFactorization.Pivot | math/lu_factorization.cpp:247-256 | After the step, the pivot is 1 and every entry below it is 0. The rows above and the columns to the left are unchanged. |
| LuFactorization.SkipZero | math/lu_factorization.cpp:234-237 | A zero diagonal entry is skipped, and the pivot invariant still holds: each pivot is one with zeros below it, and each skipped diagonal entry is zero. |
| LuFactorization.GaussianEliminationToRef | math/lu_factorization.cpp:221-258 | Every non-zero pivot ends as 1 with zeros below it, and every skipped diagonal entry is 0. L holds a non-zero entry at each used pivot, and the rest of L is unchanged. All entries stay simplified. |
| LuFactorization.TimesInverse | math/lu_factorization.cpp:247 | `p * (1/p) == 1` for a simplified non-zero p. |
| LuFactorization.TimesBack | math/lu_factorization.cpp:264-268 | Multiplying by an inverse of a value and then by the value restores the first factor. |
| LuFactorization.DividedBack | math/lu_factorization.cpp:264-266 | An entry times `1/p`, times `p` again, is exactly the entry. |
| LuFactorization.TermKept | math/lu_factorization.cpp:263-268 | Dividing an L entry by the pivot and multiplying a U entry by it leaves their product unchanged. |
| LuFactorization.ColumnValues | math/lu_factorization.cpp:263-266 | After the loop, every divided L entry times its column's old diagonal entry is the old entry. |
| LuFactorization.ProductTerms | math/lu_factorization.cpp:261-270 | After the loop, every term `L[r,c] * U[c,k]` of the product L·U equals the term of the matrices before. |
| LuFactorization.DivideColumn | math/lu_factorization.cpp:264-266 | Column i of L, from the diagonal down, is divided by the old diagonal entry. |
| LuFactorization.MultiplyRow | math/lu_factorization.cpp:267-268 | Row i of U, from the diagonal on, is multiplied by the old diagonal entry of L. |
| LuFactorization.SimplifyLu | math/lu_factorization.cpp:261-270 | With a non-zero L diagonal, L ends with 1s on its diagonal. The entries below are divided and the matching U rows are multiplied by the old diagonal. Everything else is unchanged. Each new L entry times the old diagonal gives the old entry back, and every term `L[r,c] * U[c,k]` of the product keeps its value, so the rescaling does not change L·U. |
| LuFactorization.SimplifyColumns | math/lu_factorization.cpp:262-269 | After the loop, every column of L is divided and every matching row of U is multiplied. |
| LuFactorization.Identity | math/lu_factorization.cpp:160-165 | A square identity matrix, whose entries are simplified. |
| LuFactorization.DiagonalNonZero | math/lu_factorization.cpp:280-289 | Starting from the identity, the L that elimination produces has a non-zero diagonal, so `simplifyLU` never divides by zero on it. |
| LuFactorization.Factorize | math/lu_factorization.cpp:272-289 | In the `main` pipeline, L's diagonal is non-zero and the simplified L has 1s on its diagonal. Each pivot's diagonal moves into U, and skipped diagonals stay 0. |
| LuFactorization.ClosedMul | math/lu_factorization.cpp:103-109 | Products of simplified values are defined and simplified. |
| LuFactorization.ClosedSub | math/lu_factorization.cpp:92-101 | Differences of simplified values are defined and simplified. |
| LuFactorization.ClosedDiv | math/lu_factorization.cpp:111-119 | Quotients by a simplified non-zero value are defined and simplified. |

## Left out

- The network and external tools are outside the model: yt-dlp (`pass_prepare_yt_dlp`, `obtain_video*`, `pass_download_yt_dlp`), `ffmpeg.run`, `requests` downloads, and the `music_tag` load and save. These are side effects. The model takes their results as parameters, or returns an abstract `Copy | Trim` decision.
- The filesystem is outside the model. This covers directory creation, `chdir`, globbing, the `dirty` marker, `clean_outputs`, the symlink and write-file retry helpers in `minecraft_server/my_util.py`, and every `File.open`. A generated file is modelled as its list of lines.
- `calc_workspace_id` (MD5) is not modelled. No modelled property depends on the workspace id.
- Interaction and the command line are not modelled: `query_yes_no`, `prompt_continuation`, `vipe`, `get_preferred_editor`, argparse and Slop, and the `__main__` blocks.
- Number syntax is simplified. `int()` and `float()` are modelled as optionally signed plain decimal literals, with no whitespace, underscores, exponents, `inf` or `nan`. Seconds are exact reals, so IEEE rounding is not modelled.
- MusicPasses.UsePattern supports only `{index}`, `{index_roman}`, `{{` and `}}`, and makes any other brace use an error. Python's `str.format`, called with the two keyword arguments only, also raises on positional fields such as `{0}` or `{}` and on unknown names. It does accept format specs (`{index:03}`), conversions (`{index!r}`) and attribute or index access on the two names, which the model rejects.
- MyUtil.StrFormatSeconds is modelled for whole seconds only. Fractional seconds and `float` input are not modelled.
- MyUtil.StrParseHms: its own contract states only the field count. Its values are stated by MyUtil.SecondsOnly, MyUtil.ParseHmsTwo and MyUtil.ParseHmsThree.
- `parseMatrix` is not modelled. It uses stringstream doubles and NaN row markers.
- Rational.Add: like every `Real` operation, it uses unbounded integers, so the 32-bit overflow of `int` arithmetic in `Real` is not modelled.
- Rational.Simplify uses the mathematical gcd instead of `calcGcd`. BinaryGcd.CalcGcd proves the two equal on every 32-bit input except `INT_MIN`. Rational.Simplify also requires that the value is not 0/0: `calcGcd(0, 0)` is 0, and the C++ then divides by zero, which is undefined behaviour.
- BinaryGcd.CalcGcd requires neither argument to be `INT_MIN`. Negating `INT_MIN` overflows in C++, which is undefined behaviour.
- LuFactorization.Identity is for square matrices only. On a non-square matrix, `Matrix::identity` writes out of bounds.
- LuFactorization.SimplifyLu requires a non-zero L diagonal. With a zero diagonal entry, `1/L[i,i]` is the fraction 1/0, which simplifies harmlessly because `calcGcd(1, 0)` is 1. The fault comes at `L[i,i] *= fl`: 0 times 1/0 is 0/0, `calcGcd(0, 0)` is 0, and simplifying divides by zero, which is undefined behaviour. It also requires `L.cols <= L.rows` and `L.cols <= U.rows`, since the loops index out of bounds otherwise.
- LuFactorization.GaussianEliminationToRef states the L columns only at their pivot rows and above them. The entries below a pivot are stated by LuFactorization.CopyColumn for each step. It requires `rows <= cols`, which the source asserts.
- LuaDump.DumpAsLua has no contract of its own. What it promises is stated by LuaDump.RoundTrip, LuaDump.DumpInjective and LuaDump.DumpParses. Floats and non-scalar hash keys are not modelled among the YAML values.
- DstConfig.WriteDefaulted and DstConfig.WriteRequired reject an array or hash value. Ruby would interpolate one through `inspect`, which is not modelled.
- Ris2Bib.BibLines: the cite key is lower-cased one character at a time, for the Basic Latin, Latin-1, Latin Extended-A and basic Cyrillic capitals. The context rules of Python's `str.lower()` are not modelled, such as the Greek final sigma, nor is U+0130, which lowers to two characters. Other scripts are kept unchanged.
- The start-script templates, `worldgenoverride.lua`, `leveldataoverride.lua` and the whitelist, blocklist and adminlist text files are not modelled. They are fixed text or a plain copy of a list.
- McSetup: `releaseTime` is an integer timestamp, so ISO date parsing is not modelled.
- Not modelled: music/id3_autotag.py and id3_autotag.py. Their core is Python `re` group semantics, globbing and the tag store.
- Not modelled: id3_batchedit.py and id3tools/id3_batchedit.py. They are glue around the editor and the tag store.
- Not modelled: mcman.py, which only sets up argparse.
- Not modelled: `parse_input_file_yaml` (a stub) and `dump_input_struct` (printing).

## Findings

| source | as written | input that shows it | evidently intended | confidence | as-written member | corrected member |
|---|---|---|---|---|---|---|
| my_util.py:85-91 | The minutes field is `time // 60`, the total number of minutes, not reduced mod 60. | 3661 seconds renders as `01:61:01`, which `strparse_hms_to_seconds` reads back as 7261. | The minutes field is `time // 60 % 60`, so that `01:01:01` reads back as 3661. | not executed | MyUtil.FormatAsWrittenBreaksRoundTrip | MyUtil.FormatFixedRoundTrip |
| mcsetup.py:279-282 | Below 1.17 the Log4j branch reads the bare names `mc_1_12_ordinal` and `mc_1_7_ordinal`, which do not exist at module level, instead of the `ctx.` fields. | Any version older than 1.17, e.g. one between 1.12 and 1.17, raises `NameError`. | The branch reads `ctx.mc_1_12_ordinal` and `ctx.mc_1_7_ordinal`, and picks `112_116` or `17_111` as the newer script does. | not executed | McSetup.RootLog4jFailsBeforeV117 | McSetup.RootTraitsCover |

=== FILE: binary_gcd.dfy ===
/** Binary GCD (Stein's algorithm) as `math/lu_factorization.cpp` writes it,
    on 32-bit signed integers, proved against the subtractive Euclidean gcd. */
module BinaryGcd {
  import Numbers

  /** The range of a C++ `int`. */
  type Int32 = n: int | -0x8000_0000 <= n < 0x8000_0000

  function Abs(n: int): nat {
    if n < 0 then -n else n
  }

  function Pow2(k: nat): (p: nat)
    ensures p >= 1
  {
    if k == 0 then 1 else 2 * Pow2(k - 1)
  }

  lemma {:induction false} Pow2Add(a: nat, b: nat)
    ensures Pow2(a + b) == Pow2(a) * Pow2(b)
  {
    if b > 0 {
      Pow2Add(a, b - 1);
      assert Pow2(a + b) == 2 * Pow2(a + b - 1);
      assert Pow2(a) * Pow2(b) == Pow2(a) * (2 * Pow2(b - 1)) == 2 * (Pow2(a) * Pow2(b - 1));
    }
  }

  // ---------------------------------------------------------------------
  // Divisibility and the gcd

  predicate Divides(d: nat, n: nat) {
    d > 0 && n % d == 0
  }

  lemma DividesMul(d: nat, k: nat)
    requires d > 0
    ensures Divides(d, d * k)
  {
    Numbers.DivModUnique(d * k, d, k, 0);
  }

  lemma DividesQuot(d: nat, n: nat)
    requires Divides(d, n)
    ensures n == d * (n / d)
  {
  }

  lemma DividesSum(d: nat, a: nat, b: nat)
    requires Divides(d, a) && Divides(d, b)
    ensures Divides(d, a + b)
  {
    DividesQuot(d, a);
    DividesQuot(d, b);
    assert a + b == d * (a / d + b / d);
    DividesMul(d, a / d + b / d);
  }

  lemma DividesDiff(d: nat, a: nat, b: nat)
    requires Divides(d, a) && Divides(d, b) && a <= b
    ensures Divides(d, b - a)
  {
    DividesQuot(d, a);
    DividesQuot(d, b);
    var k := b / d - a / d;
    assert b - a == d * k;
    if k < 0 {
      Numbers.MulAtLeast(d, -k);
    }
    DividesMul(d, k);
  }

  /** A divisor of a positive number is no larger than it. */
  lemma DividesLe(d: nat, n: nat)
    requires Divides(d, n) && n > 0
    ensures d <= n
  {
    if n < d {
      Numbers.DivModUnique(n, d, 0, n);
    }
  }

  lemma DividesAntisym(x: nat, y: nat)
    requires Divides(x, y) && Divides(y, x)
    ensures x == y
  {
    DividesLe(x, y);
    DividesLe(y, x);
  }

  /** The greatest common divisor, by repeated subtraction; `Gcd(0, 0) == 0`. */
  function Gcd(a: nat, b: nat): nat
    decreases a + b
  {
    if a == 0 then b
    else if b == 0 then a
    else if a <= b then Gcd(a, b - a)
    else Gcd(a - b, b)
  }

  /** The gcd divides both numbers. */
  lemma {:induction false} GcdDivides(a: nat, b: nat)
    requires a + b > 0
    ensures Divides(Gcd(a, b), a) && Divides(Gcd(a, b), b)
    decreases a + b
  {
    if a == 0 {
      DividesMul(b, 1);
    } else if b == 0 {
      DividesMul(a, 1);
    } else if a <= b {
      GcdDivides(a, b - a);
      DividesSum(Gcd(a, b), a, b - a);
    } else {
      GcdDivides(a - b, b);
      DividesSum(Gcd(a, b), a - b, b);
    }
  }

  /** Every common divisor divides the gcd. */
  lemma {:induction false} GcdGreatest(a: nat, b: nat, d: nat)
    requires Divides(d, a) && Divides(d, b)
    ensures Divides(d, Gcd(a, b))
    decreases a + b
  {
    if a == 0 || b == 0 {
    } else if a <= b {
      DividesDiff(d, a, b);
      GcdGreatest(a, b - a, d);
    } else {
      DividesDiff(d, b, a);
      GcdGreatest(a - b, b, d);
    }
  }

  lemma GcdComm(a: nat, b: nat)
    ensures Gcd(a, b) == Gcd(b, a)
  {
    if a + b > 0 {
      GcdDivides(a, b);
      GcdDivides(b, a);
      GcdGreatest(a, b, Gcd(b, a));
      GcdGreatest(b, a, Gcd(a, b));
      DividesAntisym(Gcd(a, b), Gcd(b, a));
    }
  }

  lemma {:induction false} GcdScale(c: nat, a: nat, b: nat)
    requires c > 0
    ensures Gcd(c * a, c * b) == c * Gcd(a, b)
    decreases a + b
  {
    if a == 0 || b == 0 {
    } else if a <= b {
      Numbers.MulAtLeast(c, a);
      assert c * b - c * a == c * (b - a);
      if a < b {
        Numbers.MulAtLeast(c, b - a);
      }
      GcdScale(c, a, b - a);
    } else {
      Numbers.MulAtLeast(c, b);
      assert c * a - c * b == c * (a - b);
      Numbers.MulAtLeast(c, a - b);
      GcdScale(c, a - b, b);
    }
  }

  lemma DivisorOfOddIsOdd(d: nat, a: nat)
    requires Divides(d, a) && a % 2 == 1
    ensures d % 2 == 1
  {
    if d % 2 == 0 {
      DividesQuot(d, a);
      assert a == 2 * ((d / 2) * (a / d));
      DividesMul(2, (d / 2) * (a / d));
    }
  }

  /** An odd number dividing `2c` divides `c`. */
  lemma OddDividesHalf(d: nat, c: nat)
    requires d % 2 == 1 && Divides(d, 2 * c)
    ensures Divides(d, c)
  {
    var q, r := c / d, c % d;
    assert 2 * c == d * (2 * q) + 2 * r;
    if 2 * r < d {
      Numbers.DivModUnique(2 * c, d, 2 * q, 2 * r);
    } else {
      assert 2 * c == d * (2 * q + 1) + (2 * r - d);
      Numbers.DivModUnique(2 * c, d, 2 * q + 1, 2 * r - d);
    }
  }

  lemma GcdOddDouble(a: nat, c: nat)
    requires a % 2 == 1
    ensures Gcd(a, 2 * c) == Gcd(a, c)
  {
    var g1, g2 := Gcd(a, 2 * c), Gcd(a, c);
    GcdDivides(a, 2 * c);
    GcdDivides(a, c);
    DividesSum(g2, c, c);
    GcdGreatest(a, 2 * c, g2);
    DivisorOfOddIsOdd(g1, a);
    OddDividesHalf(g1, c);
    GcdGreatest(a, c, g1);
    DividesAntisym(g1, g2);
  }

  /** Powers of two do not change the gcd with an odd number. */
  lemma {:induction false} GcdOddPow2(a: nat, b: nat, t: nat)
    requires a % 2 == 1
    ensures Gcd(a, b * Pow2(t)) == Gcd(a, b)
  {
    if t > 0 {
      assert b * Pow2(t) == 2 * (b * Pow2(t - 1));
      GcdOddDouble(a, b * Pow2(t - 1));
      GcdOddPow2(a, b, t - 1);
    }
  }

  lemma MulAssoc(b: int, p: int, q: int)
    ensures b * (p * q) == p * (b * q)
  {
  }

  lemma Pow2Split(i: nat, j: nat)
    requires i <= j
    ensures Pow2(j) == Pow2(i) * Pow2(j - i)
  {
    Pow2Add(i, j - i);
  }

  lemma GcdSplitLe(a: nat, i: nat, b: nat, j: nat)
    requires a % 2 == 1 && i <= j
    ensures Gcd(a * Pow2(i), b * Pow2(j)) == Pow2(i) * Gcd(a, b)
  {
    var p, q := Pow2(i), Pow2(j - i);
    var x, y := a * Pow2(i), b * Pow2(j);
    assert y == p * (b * q) by {
      Pow2Split(i, j);
      MulAssoc(b, p, q);
    }
    assert x == p * a;
    GcdScale(p, a, b * q);
    GcdOddPow2(a, b, j - i);
  }

  /** The common power of two comes out, the rest is the gcd of the odd parts. */
  lemma GcdSplit(a: nat, i: nat, b: nat, j: nat)
    requires a % 2 == 1 && b % 2 == 1
    ensures Gcd(a * Pow2(i), b * Pow2(j)) == Pow2(if i <= j then i else j) * Gcd(a, b)
  {
    if i <= j {
      GcdSplitLe(a, i, b, j);
    } else {
      GcdSplitLe(b, j, a, i);
      GcdComm(a * Pow2(i), b * Pow2(j));
      GcdComm(a, b);
    }
  }

  // ---------------------------------------------------------------------
  // Bits

  /** `n >> i`: C++20 shifts a signed value arithmetically, which is floor
      division by 2 at each step. */
  function Shr(n: int, i: nat): int {
    if i == 0 then n else Shr(n, i - 1) / 2
  }

  lemma {:induction false} ShrZero(i: nat)
    ensures Shr(0, i) == 0
  {
    if i > 0 {
      ShrZero(i - 1);
    }
  }

  /** Zero low bits factor out as a power of two. */
  lemma {:induction false} ShrFactor(n: int, r: nat)
    requires forall j :: 0 <= j < r ==> Shr(n, j) % 2 == 0
    ensures n == Shr(n, r) * Pow2(r)
  {
    if r > 0 {
      ShrFactor(n, r - 1);
      assert Shr(n, r - 1) == 2 * Shr(n, r);
      assert Shr(n, r) * Pow2(r) == Shr(n, r) * (2 * Pow2(r - 1)) == (2 * Shr(n, r)) * Pow2(r - 1);
    }
  }

  lemma Pow2At32()
    ensures Pow2(32) == 0x1_0000_0000
  {
    assert Pow2(8) == 256;
    Pow2Add(8, 8);
    Pow2Add(16, 16);
  }

  /** `trailingZeros`: the index of the lowest set bit, 32 when there is none. */
  method TrailingZeros(n: Int32) returns (r: nat)
    ensures r <= 32
    ensures forall j :: 0 <= j < r ==> Shr(n, j) % 2 == 0
    ensures r < 32 ==> Shr(n, r) % 2 == 1
    ensures r == 32 <==> n == 0
  {
    var i := 0;
    while i < 32
      invariant 0 <= i <= 32
      invariant forall j :: 0 <= j < i ==> Shr(n, j) % 2 == 0
    {
      var bit := Shr(n, i) % 2;
      if bit != 0 {
        if n == 0 {
          ShrZero(i);
        }
        return i;
      }
      i := i + 1;
    }
    ShrFactor(n, 32);
    Pow2At32();
    Numbers.MulBoundedIsZero(Pow2(32), Shr(n, 32));
    return 32;
  }

  // ---------------------------------------------------------------------
  // calcGcd

  lemma NonPositiveFactor(s: int, p: nat)
    ensures s <= 0 ==> s * p <= 0
  {
    if s <= 0 {
      assert s * p == -((-s) * p);
    }
  }

  /** The odd part of a non-zero 32-bit number and the power of two taken
      out of it: `n >> trailingZeros(n)`. */
  method OddPart(n: Int32) returns (m: Int32, t: nat)
    requires n > 0
    ensures m > 0 && m % 2 == 1 && m <= n
    ensures n == m * Pow2(t)
  {
    t := TrailingZeros(n);
    ShrFactor(n, t);
    var s := Shr(n, t);
    NonPositiveFactor(s, Pow2(t));
    Numbers.MulAtLeast(s, Pow2(t));
    assert s * Pow2(t) == Pow2(t) * s;
    m := s;
  }

  /** `calcGcd`: the gcd of the absolute values, so `calcGcd(0, y) == |y|`.
      Negating the smallest `int` overflows, so neither argument may be it. */
  method CalcGcd(x0: Int32, y0: Int32) returns (g: nat)
    requires x0 != -0x8000_0000 && y0 != -0x8000_0000
    ensures g == Gcd(Abs(x0), Abs(y0))
    ensures x0 == 0 ==> g == Abs(y0)
    ensures g > 0 ==> Divides(g, Abs(x0)) && Divides(g, Abs(y0))
  {
    if x0 != 0 || y0 != 0 {
      GcdDivides(Abs(x0), Abs(y0));
    }
    var x: Int32 := Abs(x0);
    var y: Int32 := Abs(y0);
    if x == 0 {
      return y;
    }
    if y == 0 {
      return x;
    }
    var xOdd, i := OddPart(x);
    var yOdd, j := OddPart(y);
    var k := if i <= j then i else j;
    GcdSplit(xOdd, i, yOdd, j);
    var h := OddGcd(xOdd, yOdd);
    g := h * Pow2(k);
    assert g == Pow2(k) * h;
  }

  /** The loop of `calcGcd`, entered with both numbers odd: subtract the
      smaller from the larger and shift the difference's zeros out. */
  method OddGcd(x0: Int32, y0: Int32) returns (g: nat)
    requires 0 < x0 && 0 < y0 && x0 % 2 == 1 && y0 % 2 == 1
    ensures g == Gcd(x0, y0)
  {
    var x, y := x0, y0;
    while true
      invariant 0 < x && 0 < y && x % 2 == 1 && y % 2 == 1
      invariant Gcd(x0, y0) == Gcd(x, y)
      decreases x as int + y as int
    {
      if x > y {
        GcdComm(x, y);
        x, y := y, x;
      }
      assert Gcd(x, y) == Gcd(x, y - x);
      y := y - x;
      if y == 0 {
        return x;
      }
      var t;
      y, t := OddPart(y);
      GcdOddPow2(x, y, t);
    }
  }
}

=== FILE: dst_config.dfy ===
/** The configuration logic shared by the two Don't Starve Together server
    set-up scripts, `dstds/dst_setup_server.rb` and `dst_setup_server.rb`:
    prefix matching, user lists, the Workshop mod list and its validation,
    the `cluster.ini` and per-shard `server.ini` settings, and the
    `modoverrides.lua` lines. Files are modelled as the lines the scripts
    `puts`. */
module DstConfig {
  import opened Wrappers
  import opened Text
  import opened Numbers
  import opened LuaDump

  /** `String#for_prefix`: the rest of `s` after `prefix`, when `s` starts
      with it (the block is not called otherwise). */
  function ForPrefix(s: string, prefix: string): (r: Option<string>)
    ensures r.Some? <==> prefix <= s
    ensures r.Some? ==> s == prefix + r.value
  {
    if prefix <= s then Some(s[|prefix|..]) else None
  }

  // ---------------------------------------------------------------------
  // Hash access

  /** The value stored under `k` (the keys of a Ruby hash are distinct). */
  function Lookup(entries: seq<(Key, Value)>, k: Key): (r: Option<Value>)
    ensures r.Some? <==> exists i :: 0 <= i < |entries| && entries[i].0 == k
    ensures r.Some? ==> exists i :: 0 <= i < |entries| && entries[i] == (k, r.value)
  {
    if |entries| == 0 then None
    else if entries[0].0 == k then Some(entries[0].1)
    else
      var r := Lookup(entries[1..], k);
      assert forall i :: 0 <= i < |entries| - 1 ==> entries[1..][i] == entries[i + 1];
      r
  }

  /** Ruby `v[name]` for a string `name`: a hash gives the value or `nil`; a
      string gives `name` if it occurs in it and `nil` otherwise; `nil`,
      arrays, integers and booleans raise. */
  function Index(v: Value, name: string): (r: Result<Value>)
    ensures r.Ok? <==> v.Hash? || v.Str?
    ensures v.Hash? ==> r == Ok(if Lookup(v.entries, KStr(name)).Some? then Lookup(v.entries, KStr(name)).value else Nil)
  {
    match v
    case Hash(entries) => Ok(Lookup(entries, KStr(name)).GetOr(Nil))
    case Str(s) => Ok(if FindSub(s, name).Some? then Str(name) else Nil)
    case Nil => Err("undefined method '[]' for nil")
    case Arr(_) => Err("no implicit conversion of String into Integer")
    case Int(_) => Err("no implicit conversion of String into Integer")
    case Bool(_) => Err("undefined method '[]'")
  }


  // ---------------------------------------------------------------------
  // User lists

  /** `collect_user_list`: `nil` is the empty list; otherwise the value must
      be an array of strings, which is returned as it is. */
  function CollectUserList(list: Value): (r: Result<seq<string>>)
    ensures r.Ok? <==> list.Nil? || (list.Arr? && forall i :: 0 <= i < |list.items| ==> list.items[i].Str?)
    ensures list.Nil? ==> r == Ok([])
    ensures r.Ok? && list.Arr? ==> |r.value| == |list.items|
    ensures r.Ok? && list.Arr? ==> forall i :: 0 <= i < |list.items| ==> list.items[i] == Str(r.value[i])
  {
    match list
    case Nil => Ok([])
    case Arr(items) =>
      if forall i :: 0 <= i < |items| ==> items[i].Str? then
        Ok(seq(|items|, i requires 0 <= i < |items| => items[i].s))
      else Err("RuntimeError")
    case _ => Err("RuntimeError")
  }

  // ---------------------------------------------------------------------
  // Mods

  /** A validated mod entry: its name and its options hash. */
  datatype Mod = Mod(name: string, options: seq<(Key, Value)>)

  /** Whether a mod entry passes validation: the name is a non-empty string
      and the options a hash, or `nil` where `nil` is normalised to `{}`. */
  predicate EntryValid(e: (Key, Value), normaliseNil: bool) {
    e.0.KStr? && e.0.s != "" && (e.1.Hash? || (normaliseNil && e.1.Nil?))
  }

  /** Validates one shard's mods hash entry by entry. */
  function ModEntries(entries: seq<(Key, Value)>, normaliseNil: bool): (r: Result<seq<Mod>>)
    ensures r.Ok? <==> forall j :: 0 <= j < |entries| ==> EntryValid(entries[j], normaliseNil)
    ensures r.Ok? ==> |r.value| == |entries|
    ensures r.Ok? ==> forall j :: 0 <= j < |entries| ==>
      r.value[j].name == entries[j].0.s
      && r.value[j].options == (if entries[j].1.Hash? then entries[j].1.entries else [])
  {
    var rs := seq(|entries|, j requires 0 <= j < |entries| => ModOf(entries[j], normaliseNil));
    assert forall j :: 0 <= j < |entries| ==> rs[j] == ModOf(entries[j], normaliseNil);
    Collect(rs)
  }

  /** One mods entry: a non-empty string key with a hash of options, or
      `nil` options when those are normalised to none. */
  function ModOf(e: (Key, Value), normaliseNil: bool): (r: Result<Mod>)
    ensures r.Ok? <==> EntryValid(e, normaliseNil)
    ensures r.Ok? ==> r.value.name == e.0.s && r.value.options == (if e.1.Hash? then e.1.entries else [])
  {
    var (k, options) := e;
    if !(k.KStr? && k.s != "") then Err("RuntimeError")
    else if !(options.Hash? || (normaliseNil && options.Nil?)) then Err("RuntimeError")
    else Ok(Mod(k.s, if options.Hash? then options.entries else []))
  }

  /** One shard's mods: absent (`nil`) is skipped; otherwise it must be a hash
      of valid entries. */
  function ShardMods(shard: Value, normaliseNil: bool): (r: Result<Option<seq<Mod>>>)
    ensures r.Ok? <==> (Index(shard, "mods").Ok?
      && (Index(shard, "mods").value.Nil?
          || (Index(shard, "mods").value.Hash? && ModEntries(Index(shard, "mods").value.entries, normaliseNil).Ok?)))
    ensures r.Ok? && r.value.Some? ==> (Index(shard, "mods").value.Hash?
      && r.value.value == ModEntries(Index(shard, "mods").value.entries, normaliseNil).value)
    ensures r.Ok? ==> (r.value.None? <==> Index(shard, "mods").value.Nil?)
  {
    var mods :- Index(shard, "mods");
    match mods
    case Nil => Ok(None)
    case Hash(entries) =>
      var ms :- ModEntries(entries, normaliseNil);
      Ok(Some(ms))
    case _ => Err("RuntimeError")
  }

  /** Ruby `Set#add`: appends unless already present. */
  function Add(ids: seq<string>, x: string): (r: seq<string>)
    ensures x in r && forall y :: y in r <==> y in ids || y == x
    ensures Distinct(ids) ==> Distinct(r)
  {
    if x in ids then ids else ids + [x]
  }

  predicate Distinct(s: seq<string>) {
    forall i, j :: 0 <= i < j < |s| ==> s[i] != s[j]
  }

  /** The mod names of all shards that have mods, in order. */
  function Names(shardMods: seq<Option<seq<Mod>>>): seq<string> {
    if |shardMods| == 0 then []
    else (if shardMods[0].Some? then ModNames(shardMods[0].value) else []) + Names(shardMods[1..])
  }

  function ModNames(mods: seq<Mod>): (r: seq<string>)
    ensures |r| == |mods| && forall j :: 0 <= j < |mods| ==> r[j] == mods[j].name
  {
    if |mods| == 0 then [] else [mods[0].name] + ModNames(mods[1..])
  }

  /** Adds the Workshop id of every `workshop-` name, in order. */
  function AddWorkshopIds(ids: seq<string>, names: seq<string>): (r: seq<string>)
    ensures Distinct(ids) ==> Distinct(r)
    ensures forall y :: y in r <==> y in ids || "workshop-" + y in names
    decreases |names|
  {
    if |names| == 0 then ids
    else
      var next := match ForPrefix(names[0], "workshop-")
        case Some(id) => Add(ids, id)
        case None => ids;
      var r := AddWorkshopIds(next, names[1..]);
      assert forall y :: "workshop-" + y in names <==> "workshop-" + y == names[0] || "workshop-" + y in names[1..];
      r
  }

  /** The result of the mod pass: the Workshop ids to install, and each
      shard's validated mods (`None` where the shard has none). */
  datatype ModList = ModList(ids: seq<string>, shardMods: seq<Option<seq<Mod>>>)

  /** The mod pass over all shards: validation of every shard's mods, and the
      de-duplicated ids behind `workshop-` names. With `normaliseNil` (the
      `dstds` script) `nil` options become `{}`; without it (the other
      script) they are an error. */
  function CollectMods(shards: seq<Value>, normaliseNil: bool): (r: Result<ModList>)
    ensures r.Ok? <==> forall i :: 0 <= i < |shards| ==> ShardMods(shards[i], normaliseNil).Ok?
    ensures r.Ok? ==> |r.value.shardMods| == |shards|
    ensures r.Ok? ==> forall i :: 0 <= i < |shards| ==> r.value.shardMods[i] == ShardMods(shards[i], normaliseNil).value
    ensures r.Ok? ==> Distinct(r.value.ids)
    ensures r.Ok? ==> forall id :: id in r.value.ids <==> "workshop-" + id in Names(r.value.shardMods)
  {
    var all :- AllShardMods(shards, normaliseNil);
    Ok(ModList(AddWorkshopIds([], Names(all)), all))
  }

  function AllShardMods(shards: seq<Value>, normaliseNil: bool): (r: Result<seq<Option<seq<Mod>>>>)
    ensures r.Ok? <==> forall i :: 0 <= i < |shards| ==> ShardMods(shards[i], normaliseNil).Ok?
    ensures r.Ok? ==> |r.value| == |shards|
    ensures r.Ok? ==> forall i :: 0 <= i < |shards| ==> r.value[i] == ShardMods(shards[i], normaliseNil).value
  {
    if |shards| == 0 then Ok([])
    else
      var first :- ShardMods(shards[0], normaliseNil);
      var rest :- AllShardMods(shards[1..], normaliseNil);
      assert forall i :: 1 <= i < |shards| ==> shards[1..][i - 1] == shards[i];
      Ok([first] + rest)
  }

  /** `dedicated_server_mods_setup.lua`: one set-up call per Workshop id. */
  function ModsSetupLines(ids: seq<string>): (r: seq<string>)
    ensures |r| == |ids| && forall i :: 0 <= i < |ids| ==> r[i] == "ServerModSetup(\"" + ids[i] + "\")"
  {
    seq(|ids|, i requires 0 <= i < |ids| => "ServerModSetup(\"" + ids[i] + "\")")
  }

  // ---------------------------------------------------------------------
  // modoverrides.lua

  /** The block of one mod. The `dstds` script always writes the options
      line; the other script leaves it out for empty options. */
  function ModBlock(m: Mod, omitEmptyOptions: bool): (r: seq<string>)
    ensures 3 <= |r| <= 4
  {
    ["[\"" + m.name + "\"] = {", "enabled = true,"]
    + (if omitEmptyOptions && m.options == [] then [] else ["configuration_options = " + DumpAsLua(Hash(m.options))])
    + ["},"]
  }

  function ModBlocks(mods: seq<Mod>, omitEmptyOptions: bool): seq<string> {
    if |mods| == 0 then [] else ModBlock(mods[0], omitEmptyOptions) + ModBlocks(mods[1..], omitEmptyOptions)
  }

  /** The lines of a shard's `modoverrides.lua`. */
  function ModOverrides(mods: seq<Mod>, omitEmptyOptions: bool): (r: seq<string>)
    ensures |r| >= 2 && r[0] == "return {" && r[|r| - 1] == "}"
  {
    ["return {"] + ModBlocks(mods, omitEmptyOptions) + ["}"]
  }

  /** Reads the mod blocks back: the name from the block's first line and the
      options from the `configuration_options` line, or none. */
  function ReadBlocks(lines: seq<string>): (r: Option<seq<Mod>>)
    decreases |lines|
  {
    if |lines| == 0 then Some([])
    else if |lines| < 3 then None
    else
      var head := lines[0];
      if !("[\"" <= head && |head| >= 8 && head[|head| - 6..] == "\"] = {") then None
      else if lines[1] != "enabled = true," then None
      else if lines[2] == "}," then
        var rest :- ReadBlocks(lines[3..]);
        Some([Mod(head[2..|head| - 6], [])] + rest)
      else if |lines| >= 4 && "configuration_options = " <= lines[2] && lines[3] == "}," then
        var options :- ParseLua(lines[2][24..]);
        if !options.Hash? then None
        else
          var rest :- ReadBlocks(lines[4..]);
          Some([Mod(head[2..|head| - 6], options.entries)] + rest)
      else None
  }

  function ReadModOverrides(lines: seq<string>): Option<seq<Mod>> {
    if |lines| < 2 || lines[0] != "return {" || lines[|lines| - 1] != "}" then None
    else ReadBlocks(lines[1..|lines| - 1])
  }

  /** The options as they read back: keys become their texts. */
  function NormMod(m: Mod): Mod {
    Mod(m.name, Norm(Hash(m.options)).entries)
  }

  function NormMods(mods: seq<Mod>): (r: seq<Mod>)
    ensures |r| == |mods| && forall i :: 0 <= i < |mods| ==> r[i] == NormMod(mods[i])
  {
    if |mods| == 0 then [] else [NormMod(mods[0])] + NormMods(mods[1..])
  }

  predicate OptionsPlain(mods: seq<Mod>) {
    forall i :: 0 <= i < |mods| ==> KeysPlain(Hash(mods[i].options))
  }

  /** Reading `modoverrides.lua` back gives each mod's name and options, in
      order, whichever script wrote it. */
  lemma ModOverridesRoundTrip(mods: seq<Mod>, omitEmptyOptions: bool)
    requires OptionsPlain(mods)
    ensures ReadModOverrides(ModOverrides(mods, omitEmptyOptions)) == Some(NormMods(mods))
  {
    var r := ModOverrides(mods, omitEmptyOptions);
    assert r[1..|r| - 1] == ModBlocks(mods, omitEmptyOptions);
    BlocksRoundTrip(mods, omitEmptyOptions);
  }

  lemma {:induction false} BlocksRoundTrip(mods: seq<Mod>, omitEmptyOptions: bool)
    requires OptionsPlain(mods)
    ensures ReadBlocks(ModBlocks(mods, omitEmptyOptions)) == Some(NormMods(mods))
    decreases |mods|
  {
    if |mods| > 0 {
      var m := mods[0];
      var block := ModBlock(m, omitEmptyOptions);
      var rest := ModBlocks(mods[1..], omitEmptyOptions);
      assert ModBlocks(mods, omitEmptyOptions) == block + rest;
      BlocksRoundTrip(mods[1..], omitEmptyOptions);
      BlockReads(m, omitEmptyOptions, rest);
    }
  }

  lemma BlockReads(m: Mod, omitEmptyOptions: bool, rest: seq<string>)
    requires KeysPlain(Hash(m.options))
    ensures ReadBlocks(ModBlock(m, omitEmptyOptions) + rest)
      == (var tail :- ReadBlocks(rest); Some([NormMod(m)] + tail))
  {
    var lines := ModBlock(m, omitEmptyOptions) + rest;
    var head := "[\"" + m.name + "\"] = {";
    assert lines[0] == head && lines[1] == "enabled = true,";
    assert head[|head| - 6..] == "\"] = {";
    assert head[2..|head| - 6] == m.name;
    if omitEmptyOptions && m.options == [] {
      assert lines[3..] == rest;
      assert Norm(Hash([])) == Hash([]);
    } else {
      var text := DumpAsLua(Hash(m.options));
      var line := "configuration_options = " + text;
      assert lines[2] == line && lines[3] == "},";
      assert line[24..] == text;
      RoundTrip(Hash(m.options));
      assert lines[4..] == rest;
      assert line != "},";
    }
  }

  // ---------------------------------------------------------------------
  // INI files

  /** A line of an INI file: a section header or a `key = value` setting. */
  datatype IniLine = Section(name: string) | Setting(key: string, value: string)

  function Render(l: IniLine): string {
    match l
    case Section(name) => "[" + name + "]"
    case Setting(key, value) => key + " = " + value
  }

  /** How a configured value is interpolated into a line (`#{...}`): scalars
      print through `to_s`, `nil` as the empty string. */
  function Interp(v: Value): Option<string> {
    match v
    case Nil => Some("")
    case Str(s) => Some(s)
    case Int(i) => Some(IntToString(i))
    case Bool(b) => Some(BoolText(b))
    case _ => None
  }

  /** `write_defaulted_val`: the configured value if the key is present, else
      the default if there is one, else nothing. */
  function WriteDefaulted(dict: seq<(Key, Value)>, name: string, default: Option<string>): (r: Result<seq<IniLine>>)
    ensures Lookup(dict, KStr(name)).Some? ==>
      (r.Ok? <==> Interp(Lookup(dict, KStr(name)).value).Some?)
      && (r.Ok? ==> r.value == [Setting(name, Interp(Lookup(dict, KStr(name)).value).value)])
    ensures Lookup(dict, KStr(name)).None? && default.Some? ==> r == Ok([Setting(name, default.value)])
    ensures Lookup(dict, KStr(name)).None? && default.None? ==> r == Ok([])
  {
    match Lookup(dict, KStr(name))
    case Some(v) =>
      var text :- Interp(v).ToResult("collection value");
      Ok([Setting(name, text)])
    case None =>
      if default.Some? then Ok([Setting(name, default.value)]) else Ok([])
  }

  /** `write_required_val`: the configured value; a missing key raises. */
  function WriteRequired(dict: seq<(Key, Value)>, name: string): (r: Result<seq<IniLine>>)
    ensures Lookup(dict, KStr(name)).None? ==> r.Err?
    ensures r.Ok? <==> Lookup(dict, KStr(name)).Some? && Interp(Lookup(dict, KStr(name)).value).Some?
    ensures r.Ok? ==> r.value == [Setting(name, Interp(Lookup(dict, KStr(name)).value).value)]
  {
    var v :- Lookup(dict, KStr(name)).ToResult("Required key: " + name);
    var text :- Interp(v).ToResult("collection value");
    Ok([Setting(name, text)])
  }

  /** What one step of an INI writer does. */
  datatype Directive =
    | Header(name: string)                             // `f.puts "[NAME]"`
    | Fixed(key: string, value: string)                // a literal `key = value` line
    | Optional(key: string, default: Option<string>)   // `opt.call`
    | Required(key: string)                            // `req.call`

  function Perform(dict: seq<(Key, Value)>, d: Directive): Result<seq<IniLine>> {
    match d
    case Header(name) => Ok([Section(name)])
    case Fixed(key, value) => Ok([Setting(key, value)])
    case Optional(key, default) => WriteDefaulted(dict, key, default)
    case Required(key) => WriteRequired(dict, key)
  }

  /** Whether a directive can be carried out: a required key is present, and
      a present key has a printable value. */
  predicate CanPerform(dict: seq<(Key, Value)>, d: Directive) {
    match d
    case Header(_) => true
    case Fixed(_, _) => true
    case Optional(key, _) => Lookup(dict, KStr(key)).Some? ==> Interp(Lookup(dict, KStr(key)).value).Some?
    case Required(key) => Lookup(dict, KStr(key)).Some? && Interp(Lookup(dict, KStr(key)).value).Some?
  }

  /** Carries out the directives in order; the first failure aborts. */
  function Emit(dict: seq<(Key, Value)>, ds: seq<Directive>): (r: Result<seq<IniLine>>)
    ensures r.Ok? <==> forall j :: 0 <= j < |ds| ==> CanPerform(dict, ds[j])
  {
    if |ds| == 0 then Ok([])
    else
      var first :- Perform(dict, ds[0]);
      var rest :- Emit(dict, ds[1..]);
      assert forall j :: 1 <= j < |ds| ==> ds[1..][j - 1] == ds[j];
      Ok(first + rest)
  }

  /** What the file says about `key`: every setting line for it carries this
      value. */
  function DirectiveValue(dict: seq<(Key, Value)>, d: Directive): Option<IniLine> {
    match d
    case Header(name) => Some(Section(name))
    case Fixed(key, value) => Some(Setting(key, value))
    case Optional(key, default) =>
      (match Lookup(dict, KStr(key))
       case Some(v) => if Interp(v).Some? then Some(Setting(key, Interp(v).value)) else None
       case None => if default.Some? then Some(Setting(key, default.value)) else None)
    case Required(key) =>
      (match Lookup(dict, KStr(key))
       case Some(v) => if Interp(v).Some? then Some(Setting(key, Interp(v).value)) else None
       case None => None)
  }

  /** Every line written comes from one directive, and every directive that
      produces a line writes it: the file holds exactly the lines the
      directives call for. */
  lemma {:induction false} EmitLines(dict: seq<(Key, Value)>, ds: seq<Directive>)
    requires Emit(dict, ds).Ok?
    ensures forall l :: l in Emit(dict, ds).value <==>
      exists j :: 0 <= j < |ds| && DirectiveValue(dict, ds[j]) == Some(l)
    decreases |ds|
  {
    if |ds| > 0 {
      EmitLines(dict, ds[1..]);
      var first := Perform(dict, ds[0]).value;
      assert forall l :: l in first <==> DirectiveValue(dict, ds[0]) == Some(l);
      forall l
        ensures (exists j :: 0 <= j < |ds| && DirectiveValue(dict, ds[j]) == Some(l)) <==>
          (DirectiveValue(dict, ds[0]) == Some(l) || exists j :: 0 <= j < |ds| - 1 && DirectiveValue(dict, ds[1..][j]) == Some(l))
      {
        if exists j :: 0 <= j < |ds| && DirectiveValue(dict, ds[j]) == Some(l) {
          var j :| 0 <= j < |ds| && DirectiveValue(dict, ds[j]) == Some(l);
          if j > 0 {
            assert ds[1..][j - 1] == ds[j];
          }
        }
        if exists j :: 0 <= j < |ds| - 1 && DirectiveValue(dict, ds[1..][j]) == Some(l) {
          var j :| 0 <= j < |ds| - 1 && DirectiveValue(dict, ds[1..][j]) == Some(l);
          assert ds[j + 1] == ds[1..][j];
        }
      }
    }
  }

  /** The `cluster.ini` writer, in file order: `multi` when there is more
      than one shard, `slots` the whitelist size as text when the whitelist
      is not empty. */
  function ClusterLayout(multi: bool, slots: Option<string>): seq<Directive> {
    [ Header("GAMEPLAY"),
      Optional("max_players", None), Optional("pvp", None), Optional("game_mode", None),
      Optional("pause_when_empty", Some("true")), Optional("vote_enabled", None),
      Header("MISC"),
      Optional("max_snapshots", None), Optional("console_enabled", None),
      Header("NETWORK"),
      Required("cluster_name"), Optional("cluster_password", None), Optional("cluster_description", None),
      Optional("cluster_intention", None), Optional("lan_only_cluster", None), Optional("offline_cluster", None),
      Optional("tick_rate", None) ]
    + (if slots.Some? then [Fixed("whitelist_slots", slots.value)] else [])
    + [ Optional("autosaver_enabled", None),
        Header("STEAM"),
        Optional("steam_group_only", None), Optional("steam_group_id", None), Optional("steam_group_admins", None) ]
    + (if multi then
         [ Header("SHARD"), Fixed("shard_enabled", "true"), Fixed("bind_ip", "127.0.0.1"),
           Fixed("master_ip", "127.0.0.1"), Fixed("master_port", "10887"), Fixed("cluster_key", "defaultPass1") ]
       else [])
  }

  /** `cluster.ini`. A cluster without shards is rejected; the cluster name
      is required; the `[SHARD]` section is written only for more than one
      shard, and `whitelist_slots` only for a non-empty whitelist. */
  function ClusterIni(cluster: seq<(Key, Value)>, shardCount: nat, whitelist: seq<string>): (r: Result<seq<IniLine>>)
    ensures shardCount == 0 ==> r.Err?
    ensures Lookup(cluster, KStr("cluster_name")).None? ==> r.Err?
    ensures r.Ok? ==> |r.value| > 0 && r.value[0] == Section("GAMEPLAY")
    ensures r.Ok? ==> (Section("SHARD") in r.value <==> shardCount > 1)
    ensures r.Ok? ==> (Setting("whitelist_slots", NatToString(|whitelist|)) in r.value <==> |whitelist| > 0)
    ensures r.Ok? ==> (Lookup(cluster, KStr("cluster_name")).Some?
      && Interp(Lookup(cluster, KStr("cluster_name")).value).Some?
      && Setting("cluster_name", Interp(Lookup(cluster, KStr("cluster_name")).value).value) in r.value)
  {
    if shardCount == 0 then Err("The cluster must have at least 1 shard.")
    else
      var slots := if |whitelist| > 0 then Some(NatToString(|whitelist|)) else None;
      var layout := ClusterLayout(shardCount > 1, slots);
      var r := Emit(cluster, layout);
      if r.Ok? then
        ClusterFacts(cluster, shardCount > 1, slots);
        WhitelistSetting(cluster, shardCount > 1, slots, NatToString(|whitelist|));
        r
      else
        assert !CanPerform(cluster, layout[10]) ==> r.Err?;
        r
  }

  lemma ClusterFacts(cluster: seq<(Key, Value)>, multi: bool, slots: Option<string>)
    requires Emit(cluster, ClusterLayout(multi, slots)).Ok?
    ensures var r := Emit(cluster, ClusterLayout(multi, slots)).value;
      && |r| > 0 && r[0] == Section("GAMEPLAY")
      && (Section("SHARD") in r <==> multi)
      && Lookup(cluster, KStr("cluster_name")).Some?
      && Interp(Lookup(cluster, KStr("cluster_name")).value).Some?
      && Setting("cluster_name", Interp(Lookup(cluster, KStr("cluster_name")).value).value) in r
  {
    var ds := ClusterLayout(multi, slots);
    assert ds[10] == Required("cluster_name");
    assert CanPerform(cluster, ds[10]);
    EmitHas(cluster, ds, 10, Setting("cluster_name", Interp(Lookup(cluster, KStr("cluster_name")).value).value));
    assert ds[0] == Header("GAMEPLAY");
    assert Perform(cluster, ds[0]) == Ok([Section("GAMEPLAY")]);
    ShardSection(cluster, multi, slots);
  }

  /** Only a cluster of several shards has a `[SHARD]` header. */
  lemma ShardHeader(multi: bool, slots: Option<string>, j: nat)
    requires j < |ClusterLayout(multi, slots)| && ClusterLayout(multi, slots)[j] == Header("SHARD")
    ensures multi
  {
  }

  lemma ShardSection(cluster: seq<(Key, Value)>, multi: bool, slots: Option<string>)
    requires Emit(cluster, ClusterLayout(multi, slots)).Ok?
    ensures Section("SHARD") in Emit(cluster, ClusterLayout(multi, slots)).value <==> multi
  {
    var ds := ClusterLayout(multi, slots);
    if Section("SHARD") in Emit(cluster, ds).value {
      var j := EmitSource(cluster, ds, Section("SHARD"));
      ShardHeader(multi, slots, j);
    }
    if multi {
      EmitHas(cluster, ds, |ds| - 6, Section("SHARD"));
    }
  }

  /** The file says `whitelist_slots = v` exactly when the layout was given
      `v` as the whitelist size. */
  lemma WhitelistSetting(cluster: seq<(Key, Value)>, multi: bool, slots: Option<string>, v: string)
    requires Emit(cluster, ClusterLayout(multi, slots)).Ok?
    ensures Setting("whitelist_slots", v) in Emit(cluster, ClusterLayout(multi, slots)).value <==> slots == Some(v)
  {
    var ds := ClusterLayout(multi, slots);
    if Setting("whitelist_slots", v) in Emit(cluster, ds).value {
      var j := EmitSource(cluster, ds, Setting("whitelist_slots", v));
      SettingFrom(cluster, ds[j], "whitelist_slots", v);
      WhitelistKey(multi, slots, j);
    }
    if slots == Some(v) {
      EmitHas(cluster, ds, 17, Setting("whitelist_slots", v));
    }
  }

  /** Only a layout given a whitelist size has a `whitelist_slots` directive,
      and it carries that size. */
  lemma WhitelistKey(multi: bool, slots: Option<string>, j: nat)
    requires j < |ClusterLayout(multi, slots)| && !ClusterLayout(multi, slots)[j].Header?
    requires ClusterLayout(multi, slots)[j].key == "whitelist_slots"
    ensures slots.Some? && ClusterLayout(multi, slots)[j] == Fixed("whitelist_slots", slots.value)
  {
  }

  const BasePort: nat := 10998
  const BasePortSteamMaster: nat := 28900
  const BasePortSteamAuth: nat := 28700

  /** The numbers shard `i` writes, as text: its default id and its three
      ports. */
  datatype ServerNumbers = ServerNumbers(id: string, port: string, masterPort: string, authPort: string)

  function NumbersOf(i: nat): ServerNumbers {
    ServerNumbers(NatToString(i + 1), NatToString(BasePort + i),
      NatToString(BasePortSteamMaster + i), NatToString(BasePortSteamAuth + i))
  }

  /** The `server.ini` writer, in file order, for a master or non-master
      shard with the given numbers. */
  function ServerLayout(master: bool, name: string, t: ServerNumbers): seq<Directive> {
    [Header("SHARD")]
    + (if master then [Fixed("is_master", "true")] else [])
    + [ Fixed("name", name),
        Optional("id", Some(t.id)),
        Header("NETWORK"),
        Fixed("server_port", t.port),
        Header("STEAM"),
        Fixed("master_server_port", t.masterPort),
        Fixed("authentification_port", t.authPort),
        Header("ACCOUNT"),
        Optional("encode_user_path", Some("true")) ]
  }

  /** Shard `i`'s `server.ini`: only the first shard is the master, the id
      defaults to `i + 1`, and the three ports are their bases plus `i`. */
  function ServerIni(shard: seq<(Key, Value)>, i: nat): (r: Result<seq<IniLine>>)
    ensures r.Ok? <==> (Interp(Lookup(shard, KStr("name")).GetOr(Nil)).Some?
      && CanPerform(shard, Optional("id", None)) && CanPerform(shard, Optional("encode_user_path", None)))
    ensures r.Ok? ==> (Setting("is_master", "true") in r.value <==> i == 0)
    ensures r.Ok? && Lookup(shard, KStr("id")).None? ==> Setting("id", NatToString(i + 1)) in r.value
    ensures r.Ok? ==> Setting("server_port", NatToString(10998 + i)) in r.value
    ensures r.Ok? ==> Setting("master_server_port", NatToString(28900 + i)) in r.value
    ensures r.Ok? ==> Setting("authentification_port", NatToString(28700 + i)) in r.value
  {
    ServerFile(shard, i == 0, NumbersOf(i))
  }

  /** `server.ini` for a master or non-master shard with the given numbers. */
  function ServerFile(shard: seq<(Key, Value)>, master: bool, t: ServerNumbers): (r: Result<seq<IniLine>>)
    ensures r.Ok? <==> (Interp(Lookup(shard, KStr("name")).GetOr(Nil)).Some?
      && CanPerform(shard, Optional("id", None)) && CanPerform(shard, Optional("encode_user_path", None)))
    ensures r.Ok? ==> (Setting("is_master", "true") in r.value <==> master)
    ensures r.Ok? && Lookup(shard, KStr("id")).None? ==> Setting("id", t.id) in r.value
    ensures r.Ok? ==> Setting("server_port", t.port) in r.value
    ensures r.Ok? ==> Setting("master_server_port", t.masterPort) in r.value
    ensures r.Ok? ==> Setting("authentification_port", t.authPort) in r.value
  {
    var name :- Interp(Lookup(shard, KStr("name")).GetOr(Nil)).ToResult("collection value");
    var ds := ServerLayout(master, name, t);
    var r := Emit(shard, ds);
    ServerOk(shard, master, name, t);
    if r.Ok? then
      ServerFacts(shard, master, name, t);
      r
    else r
  }

  lemma ServerOk(shard: seq<(Key, Value)>, master: bool, name: string, t: ServerNumbers)
    ensures Emit(shard, ServerLayout(master, name, t)).Ok?
      <==> CanPerform(shard, Optional("id", None)) && CanPerform(shard, Optional("encode_user_path", None))
  {
    var ds := ServerLayout(master, name, t);
    var k := if master then 1 else 0;
    ServerLayoutAt(master, name, t);
    forall j | 0 <= j < |ds|
      ensures CanPerform(shard, ds[j]) <==> !ds[j].Optional? || CanPerform(shard, Optional(ds[j].key, None))
    {
    }
    forall j | 0 <= j < |ds| && ds[j].Optional?
      ensures ds[j].key == "id" || ds[j].key == "encode_user_path"
    {
      ServerOptionals(master, name, t, j);
    }
    assert CanPerform(shard, ds[k + 2]) <==> CanPerform(shard, Optional("id", None));
    assert CanPerform(shard, ds[k + 9]) <==> CanPerform(shard, Optional("encode_user_path", None));
  }

  /** Where the server layout puts its settings. */
  lemma ServerLayoutAt(master: bool, name: string, t: ServerNumbers)
    ensures var ds := ServerLayout(master, name, t); var k := if master then 1 else 0;
      |ds| == k + 10
      && ds[k + 2] == Optional("id", Some(t.id))
      && ds[k + 4] == Fixed("server_port", t.port)
      && ds[k + 6] == Fixed("master_server_port", t.masterPort)
      && ds[k + 7] == Fixed("authentification_port", t.authPort)
      && ds[k + 9] == Optional("encode_user_path", Some("true"))
  {
  }

  /** The server layout asks the dictionary for `id` and `encode_user_path`
      only. */
  lemma ServerOptionals(master: bool, name: string, t: ServerNumbers, j: nat)
    requires j < |ServerLayout(master, name, t)| && ServerLayout(master, name, t)[j].Optional?
    ensures ServerLayout(master, name, t)[j].key == "id" || ServerLayout(master, name, t)[j].key == "encode_user_path"
  {
  }

  lemma ServerFacts(shard: seq<(Key, Value)>, master: bool, name: string, t: ServerNumbers)
    requires Emit(shard, ServerLayout(master, name, t)).Ok?
    ensures var r := Emit(shard, ServerLayout(master, name, t)).value;
      && (Setting("is_master", "true") in r <==> master)
      && (Lookup(shard, KStr("id")).None? ==> Setting("id", t.id) in r)
      && Setting("server_port", t.port) in r
      && Setting("master_server_port", t.masterPort) in r
      && Setting("authentification_port", t.authPort) in r
  {
    ServerMaster(shard, master, name, t);
    if Lookup(shard, KStr("id")).None? {
      ServerId(shard, master, name, t);
    }
    ServerPorts(shard, master, name, t);
  }

  lemma ServerId(shard: seq<(Key, Value)>, master: bool, name: string, t: ServerNumbers)
    requires Emit(shard, ServerLayout(master, name, t)).Ok? && Lookup(shard, KStr("id")).None?
    ensures Setting("id", t.id) in Emit(shard, ServerLayout(master, name, t)).value
  {
    var ds := ServerLayout(master, name, t);
    var k := if master then 1 else 0;
    ServerLayoutAt(master, name, t);
    EmitHas(shard, ds, k + 2, Setting("id", t.id));
  }

  lemma ServerPorts(shard: seq<(Key, Value)>, master: bool, name: string, t: ServerNumbers)
    requires Emit(shard, ServerLayout(master, name, t)).Ok?
    ensures var r := Emit(shard, ServerLayout(master, name, t)).value;
      && Setting("server_port", t.port) in r
      && Setting("master_server_port", t.masterPort) in r
      && Setting("authentification_port", t.authPort) in r
  {
    var ds := ServerLayout(master, name, t);
    var k := if master then 1 else 0;
    ServerLayoutAt(master, name, t);
    EmitHas(shard, ds, k + 4, Setting("server_port", t.port));
    EmitHas(shard, ds, k + 6, Setting("master_server_port", t.masterPort));
    EmitHas(shard, ds, k + 7, Setting("authentification_port", t.authPort));
  }

  /** Only the first shard's file says it is the master. */
  lemma ServerMaster(shard: seq<(Key, Value)>, master: bool, name: string, t: ServerNumbers)
    requires Emit(shard, ServerLayout(master, name, t)).Ok?
    ensures Setting("is_master", "true") in Emit(shard, ServerLayout(master, name, t)).value <==> master
  {
    var ds := ServerLayout(master, name, t);
    EmitLines(shard, ds);
    forall j | 0 <= j < |ds| && DirectiveValue(shard, ds[j]) == Some(Setting("is_master", "true"))
      ensures master
    {
      SettingFrom(shard, ds[j], "is_master", "true");
      MasterKey(master, name, t, j);
    }
    if master {
      assert DirectiveValue(shard, ds[1]) == Some(Setting("is_master", "true"));
    }
  }

  /** Only the master's layout has an `is_master` directive. */
  lemma MasterKey(master: bool, name: string, t: ServerNumbers, j: nat)
    requires j < |ServerLayout(master, name, t)| && !ServerLayout(master, name, t)[j].Header?
    requires ServerLayout(master, name, t)[j].key == "is_master"
    ensures master
  {
  }

  /** A setting line comes from a directive for its key. */
  lemma SettingFrom(dict: seq<(Key, Value)>, d: Directive, key: string, value: string)
    requires DirectiveValue(dict, d) == Some(Setting(key, value))
    ensures !d.Header? && d.key == key
  {
  }

  /** Every line of the file comes from one of the directives. */
  lemma EmitSource(dict: seq<(Key, Value)>, ds: seq<Directive>, l: IniLine) returns (j: nat)
    requires Emit(dict, ds).Ok? && l in Emit(dict, ds).value
    ensures j < |ds| && DirectiveValue(dict, ds[j]) == Some(l)
  {
    EmitLines(dict, ds);
    j :| 0 <= j < |ds| && DirectiveValue(dict, ds[j]) == Some(l);
  }

  /** A line some directive calls for is in the file. */
  lemma EmitHas(dict: seq<(Key, Value)>, ds: seq<Directive>, j: nat, l: IniLine)
    requires Emit(dict, ds).Ok? && j < |ds| && DirectiveValue(dict, ds[j]) == Some(l)
    ensures l in Emit(dict, ds).value
  {
    EmitLines(dict, ds);
  }
}

=== FILE: ext_stripper.dfy ===
/** `file_ext_stripper` of `id3tools/my_utils.py`: the returned `stripper`
    closure, with the captured extension set passed explicitly. */
module ExtStripper {
  import opened Wrappers
  import opened Text

  /** Drops the text from the last `.` on when the part after that dot is
      one of `exts` (compared exactly, without the dot); otherwise `s` is
      returned unchanged. */
  function Strip(exts: set<string>, s: string): (r: string)
    ensures '.' !in s ==> r == s
    ensures r <= s
    ensures r == s || (s[|r|] == '.' && s[|r| + 1..] in exts && '.' !in s[|r| + 1..])
    ensures (exists i :: 0 <= i < |s| && s[i] == '.' && '.' !in s[i + 1..] && s[i + 1..] in exts) ==> r != s
  {
    match FindLastChar(s, '.')
    case None => s
    case Some(i) =>
      if s[i + 1..] in exts then s[..i] else s
  }

  /** Appending a dot and a listed extension to any base name is undone. */
  lemma StripAppended(exts: set<string>, base: string, ext: string)
    requires ext in exts && '.' !in ext
    ensures Strip(exts, base + "." + ext) == base
  {
    var s := base + "." + ext;
    assert s[|base|] == '.' && s[|base| + 1..] == ext;
    assert '.' !in s[|base| + 1..];
  }

  /** Stripping never removes more than one extension: a name that keeps a
      listed extension after stripping had two of them. */
  lemma StripRemovesOne(exts: set<string>, s: string)
    ensures Strip(exts, s) == s || Strip(exts, s) + "." + s[|Strip(exts, s)| + 1..] == s
  {
    var r := Strip(exts, s);
    if r != s {
      assert s == s[..|r|] + [s[|r|]] + s[|r| + 1..];
    }
  }
}

=== FILE: lu_factorization.dfy ===
/** The elimination of `math/lu_factorization.cpp`: Gaussian elimination
    without row swaps over exact fractions (a zero diagonal entry is skipped,
    not swapped), recording the pivot columns in L,
    and the rescaling that leaves L with ones on its diagonal.

    A matrix is a sequence of rows; `IsMatrix(m, rows, cols)` fixes its shape.
    The C++ code updates its matrices in place; here every step returns the
    updated matrix. */
module LuFactorization {
  import opened Rational
  import opened BinaryGcd
  import Numbers

  type Matrix = seq<seq<Real>>

  predicate IsMatrix(m: Matrix, rows: nat, cols: nat) {
    |m| == rows && forall r :: 0 <= r < rows ==> |m[r]| == cols
  }

  predicate RowSimplified(v: seq<Real>) {
    forall c :: 0 <= c < |v| ==> Simplified(v[c])
  }

  /** Every entry in normal form, as `parseMatrix` and the operators leave them. */
  predicate AllSimplified(m: Matrix) {
    forall r :: 0 <= r < |m| ==> RowSimplified(m[r])
  }

  lemma OneAndZeroSimplified()
    ensures Simplified(One) && Simplified(Zero)
  {
    assert Gcd(1, 1) == Gcd(1, 0) == 1;
  }

  /** On normal forms the operators are defined (division needs a non-zero
      divisor) and give normal forms. */
  lemma ClosedMul(a: Real, b: Real)
    requires Simplified(a) && Simplified(b)
    ensures Defined(a.num * b.num, a.denom * b.denom) && Simplified(Mul(a, b))
  {
    Numbers.MulAtLeast(a.denom, b.denom);
  }

  lemma ClosedSub(a: Real, b: Real)
    requires Simplified(a) && Simplified(b)
    ensures Defined(a.num * b.denom - b.num * a.denom, a.denom * b.denom) && Simplified(Sub(a, b))
  {
    Numbers.MulAtLeast(a.denom, b.denom);
  }

  lemma ClosedDiv(a: Real, b: Real)
    requires Simplified(a) && Simplified(b) && b.num != 0
    ensures Defined(a.num * b.denom, a.denom * b.num) && Simplified(Div(a, b))
  {
    if b.num > 0 {
      Numbers.MulAtLeast(a.denom, b.num);
    } else {
      Numbers.MulAtLeast(a.denom, -b.num);
      assert a.denom * b.num == -(a.denom * -b.num);
    }
  }

  /** Two normal forms whose values multiply to one have the product `One`. */
  lemma ProductOne(a: Real, b: Real)
    requires Simplified(a) && Simplified(b) && Value(a) * Value(b) == 1.0
    ensures Defined(a.num * b.num, a.denom * b.denom) && Mul(a, b) == One
  {
    MulValueOf(a, b);
    IsOne(Mul(a, b));
  }

  lemma IsOne(q: Real)
    requires Simplified(q) && Value(q) == 1.0
    ensures q == One
  {
    OneAndZeroSimplified();
    Canonical(q, One);
  }

  lemma Reciprocal(x: real, y: real)
    requires x != 0.0 && y == 1.0 / x
    ensures x * y == 1.0
  {
  }

  /** `a * (1 / a)` is exactly one. */
  lemma TimesInverse(p: Real)
    requires Simplified(p) && p.num != 0
    ensures Simplified(Div(One, p)) && Mul(p, Div(One, p)) == One
  {
    OneAndZeroSimplified();
    ClosedDiv(One, p);
    var inv := Div(One, p);
    DivExact(One, p);
    Reciprocal(Value(p), Value(inv));
    ProductOne(p, inv);
  }

  /** `a * b` does not reach `0/0`. */
  predicate MulDefined(a: Real, b: Real) {
    Defined(a.num * b.num, a.denom * b.denom)
  }

  lemma MulValueOf(a: Real, b: Real)
    requires Simplified(a) && Simplified(b)
    ensures Defined(a.num * b.num, a.denom * b.denom) && Simplified(Mul(a, b))
    ensures Value(Mul(a, b)) == Value(a) * Value(b)
  {
    ClosedMul(a, b);
    MulExact(a, b);
  }

  lemma DivOne(x: Real)
    requires Simplified(x)
    ensures Defined(x.num * One.denom, x.denom * One.num) && Div(x, One) == x
  {
    OneAndZeroSimplified();
    ClosedDiv(x, One);
    DivExact(x, One);
    Canonical(Div(x, One), x);
  }

  lemma OneTimes(x: Real)
    requires Simplified(x)
    ensures Defined(One.num * x.num, One.denom * x.denom) && Mul(One, x) == x
  {
    OneAndZeroSimplified();
    ClosedMul(One, x);
    MulExact(One, x);
    Canonical(Mul(One, x), x);
  }

  lemma ZeroTimes(x: Real)
    requires Simplified(x)
    ensures Defined(Zero.num * x.num, Zero.denom * x.denom) && Mul(Zero, x) == Zero
  {
    OneAndZeroSimplified();
    ClosedMul(Zero, x);
    MulExact(Zero, x);
    Canonical(Mul(Zero, x), Zero);
  }

  lemma SubSelf(x: Real)
    requires Simplified(x)
    ensures Defined(x.num * x.denom - x.num * x.denom, x.denom * x.denom) && Sub(x, x) == Zero
  {
    OneAndZeroSimplified();
    ClosedSub(x, x);
    SubExact(x, x);
    Canonical(Sub(x, x), Zero);
  }

  /** Subtracting `1 * (x / 1)` from `x` leaves exactly zero. */
  lemma ReduceToZero(x: Real)
    requires Simplified(x)
    ensures Simplified(Div(x, One)) && Sub(x, Mul(One, Div(x, One))) == Zero
  {
    DivOne(x);
    OneTimes(x);
    SubSelf(x);
  }


  /** The row loop of the copy into L: column `n` of `u`, from row `n` down,
      becomes column `col` of `l`. */
  method CopyColumn(u: Matrix, l: Matrix, rows: nat, cols: nat, n: nat, col: nat) returns (l': Matrix)
    requires IsMatrix(u, rows, cols) && IsMatrix(l, rows, cols) && n < rows && n < cols && col < cols
    requires AllSimplified(u) && AllSimplified(l)
    ensures IsMatrix(l', rows, cols) && AllSimplified(l')
    ensures forall r :: 0 <= r < rows ==> l'[r] == if n <= r then l[r][col := u[r][n]] else l[r]
  {
    l' := l;
    var row := n;
    while row < rows
      invariant n <= row <= rows
      invariant IsMatrix(l', rows, cols) && AllSimplified(l')
      invariant forall r :: 0 <= r < rows ==> l'[r] == if n <= r < row then l[r][col := u[r][n]] else l[r]
    {
      l' := l'[row := l'[row][col := u[row][n]]];
      row := row + 1;
    }
  }

  /** `v[c] *= f` for every position `c` from `from` on: a row's scaling. */
  method ScaleVec(v: seq<Real>, from: nat, f: Real) returns (w: seq<Real>)
    requires RowSimplified(v) && Simplified(f)
    ensures |w| == |v| && RowSimplified(w)
    ensures forall c :: 0 <= c < |v| ==> w[c] == if from <= c then Mul(v[c], f) else v[c]
  {
    w := v;
    var col := from;
    while col < |v|
      invariant |w| == |v| && RowSimplified(w)
      invariant forall c :: 0 <= c < |v| ==> w[c] == if from <= c < col then Mul(v[c], f) else v[c]
    {
      ClosedMul(w[col], f);
      w := w[col := Mul(w[col], f)];
      col := col + 1;
    }
  }

  /** `m[r, col] *= f` for every row `r` from `from` on. */
  method ScaleColumn(m: Matrix, rows: nat, cols: nat, col: nat, from: nat, f: Real) returns (m': Matrix)
    requires IsMatrix(m, rows, cols) && AllSimplified(m) && Simplified(f) && col < cols
    ensures IsMatrix(m', rows, cols) && AllSimplified(m')
    ensures forall r :: 0 <= r < rows ==> m'[r] == if from <= r then m[r][col := Mul(m[r][col], f)] else m[r]
  {
    m' := m;
    var row := from;
    while row < rows
      invariant IsMatrix(m', rows, cols) && AllSimplified(m')
      invariant forall r :: 0 <= r < rows ==> m'[r] == if from <= r < row then m[r][col := Mul(m[r][col], f)] else m[r]
    {
      ClosedMul(m'[row][col], f);
      m' := m'[row := m'[row][col := Mul(m'[row][col], f)]];
      row := row + 1;
    }
  }

  /** One pass of the reduction, on the row `v` being reduced and the pivot
      row `p`: `v[c] -= p[c] * f` for every column `c` from `from` on. */
  method ReduceVec(v: seq<Real>, p: seq<Real>, from: nat, f: Real) returns (w: seq<Real>)
    requires |v| == |p| && RowSimplified(v) && RowSimplified(p) && Simplified(f)
    ensures |w| == |v| && RowSimplified(w)
    ensures forall c :: 0 <= c < |v| ==> w[c] == if from <= c then Sub(v[c], Mul(p[c], f)) else v[c]
  {
    w := v;
    var col := from;
    while col < |v|
      invariant |w| == |v| && RowSimplified(w)
      invariant forall c :: 0 <= c < |v| ==> w[c] == if from <= c < col then Sub(v[c], Mul(p[c], f)) else v[c]
    {
      ClosedMul(p[col], f);
      var q := Mul(p[col], f);
      ClosedSub(w[col], q);
      w := w[col := Sub(w[col], q)];
      col := col + 1;
    }
  }

  /** The work on one non-zero pivot: scale row `n` by `1 / u[n, n]`, then
      for each row below, `f = u[r2, n] / u[n, n]` and subtract `f` times row
      `n`. The pivot ends as one with zeros below it; the rows above and the
      columns left of it do not change. */
  method Pivot(u: Matrix, rows: nat, cols: nat, n: nat) returns (u': Matrix)
    requires IsMatrix(u, rows, cols) && AllSimplified(u)
    requires n < rows <= cols && u[n][n].num != 0
    ensures IsMatrix(u', rows, cols) && AllSimplified(u')
    ensures u'[n][n] == One
    ensures forall r :: n < r < rows ==> u'[r][n] == Zero
    ensures forall r :: 0 <= r < n ==> u'[r] == u[r]
    ensures forall r, c :: 0 <= r < rows && 0 <= c < n ==> u'[r][c] == u[r][c]
  {
    OneAndZeroSimplified();
    TimesInverse(u[n][n]);
    var factor := Div(One, u[n][n]);
    var scaled := ScaleVec(u[n], n, factor);
    u' := u[n := scaled];
    var r2 := n + 1;
    while r2 < rows
      invariant n < r2 <= rows
      invariant IsMatrix(u', rows, cols) && AllSimplified(u')
      invariant u'[n] == scaled
      invariant forall r :: 0 <= r < rows && r != n && (r < n || r2 <= r) ==> u'[r] == u[r]
      invariant forall r :: n < r < r2 ==> u'[r][n] == Zero
      invariant forall r, c :: n < r < r2 && 0 <= c < n ==> u'[r][c] == u[r][c]
    {
      ReduceToZero(u[r2][n]);
      var f := Div(u'[r2][n], u'[n][n]);
      var w := ReduceVec(u'[r2], u'[n], n, f);
      u' := u'[r2 := w];
      r2 := r2 + 1;
    }
  }

  /** Pivot positions taken from the first `n` diagonal positions, in order. */
  predicate PivotsBefore(pivots: seq<nat>, n: nat) {
    && |pivots| <= n
    && (forall k :: 0 <= k < |pivots| ==> pivots[k] < n)
    && (forall i, j :: 0 <= i < j < |pivots| ==> pivots[i] < pivots[j])
  }

  /** U after the first `n` diagonal positions have been handled: each pivot
      is one with zeros below it, each skipped position is zero. */
  predicate Reduced(u: Matrix, pivots: seq<nat>, rows: nat, cols: nat, n: nat) {
    && n <= rows <= cols && PivotsBefore(pivots, n)
    && IsMatrix(u, rows, cols) && AllSimplified(u)
    && (forall m :: m in pivots ==> m < n && u[m][m] == One && forall r :: m < r < rows ==> u[r][m] == Zero)
    && (forall m :: 0 <= m < n && m !in pivots ==> u[m][m] == Zero)
  }

  /** L after the columns of the `pivots` have been copied into it. */
  predicate Recorded(l: Matrix, l0: Matrix, pivots: seq<nat>, rows: nat, cols: nat) {
    && rows <= cols && |pivots| <= rows
    && IsMatrix(l, rows, cols) && IsMatrix(l0, rows, cols) && AllSimplified(l)
    && (forall k :: 0 <= k < |pivots| ==> pivots[k] < rows)
    && (forall k :: 0 <= k < |pivots| ==> l[pivots[k]][k].num != 0)
    && (forall k, r :: 0 <= k < |pivots| && 0 <= r < pivots[k] ==> l[r][k] == l0[r][k])
    && (forall r, c :: 0 <= r < rows && |pivots| <= c < cols ==> l[r][c] == l0[r][c])
  }

  /** A zero diagonal entry is skipped. */
  lemma SkipZero(u: Matrix, pivots: seq<nat>, rows: nat, cols: nat, n: nat)
    requires Reduced(u, pivots, rows, cols, n) && n < rows && u[n][n] == Zero
    ensures Reduced(u, pivots, rows, cols, n + 1)
  {
  }

  /** A non-zero diagonal entry's column, from the diagonal down, becomes the
      next column of L. */
  method RecordPivot(u: Matrix, l: Matrix, l0: Matrix, pivots: seq<nat>, rows: nat, cols: nat, n: nat)
    returns (l': Matrix)
    requires Recorded(l, l0, pivots, rows, cols) && PivotsBefore(pivots, n) && n < rows
    requires IsMatrix(u, rows, cols) && AllSimplified(u) && u[n][n].num != 0
    ensures Recorded(l', l0, pivots + [n], rows, cols)
  {
    l' := CopyColumn(u, l, rows, cols, n, |pivots|);
    var p := pivots + [n];
    assert forall k :: 0 <= k < |pivots| ==> p[k] == pivots[k];
  }

  /** A non-zero diagonal entry becomes a pivot of U. */
  method ReducePivot(u: Matrix, pivots: seq<nat>, rows: nat, cols: nat, n: nat) returns (u': Matrix)
    requires Reduced(u, pivots, rows, cols, n) && n < rows && u[n][n].num != 0
    ensures Reduced(u', pivots + [n], rows, cols, n + 1)
  {
    u' := Pivot(u, rows, cols, n);
    var p := pivots + [n];
    assert forall m :: m in p ==> m in pivots || m == n;
    assert forall k :: 0 <= k < |pivots| ==> p[k] == pivots[k];
  }

  /** `gaussianEliminationToREF`. For each diagonal position in turn, a zero
      entry is skipped; otherwise the column below it is copied into the next
      free column of L and the pivot is normalised. `pivots` lists the
      positions that were not skipped: each ends with a one on the diagonal
      and zeros below it, each skipped one ends zero, and the k-th column of
      L holds the k-th pivot's non-zero value at the pivot's row. */
  method GaussianEliminationToRef(u0: Matrix, l0: Matrix, rows: nat, cols: nat)
    returns (u: Matrix, l: Matrix, pivots: seq<nat>)
    requires rows <= cols && IsMatrix(u0, rows, cols) && IsMatrix(l0, rows, cols)
    requires AllSimplified(u0) && AllSimplified(l0)
    ensures IsMatrix(u, rows, cols) && IsMatrix(l, rows, cols) && AllSimplified(u) && AllSimplified(l)
    ensures |pivots| <= rows && forall k :: 0 <= k < |pivots| ==> pivots[k] < rows
    ensures forall i, j :: 0 <= i < j < |pivots| ==> pivots[i] < pivots[j]
    ensures forall m :: m in pivots ==> m < rows && u[m][m] == One && forall r :: m < r < rows ==> u[r][m] == Zero
    ensures forall m :: 0 <= m < rows && m !in pivots ==> u[m][m] == Zero
    ensures forall k :: 0 <= k < |pivots| ==> l[pivots[k]][k].num != 0
    ensures forall k, r :: 0 <= k < |pivots| && 0 <= r < pivots[k] ==> l[r][k] == l0[r][k]
    ensures forall r, c :: 0 <= r < rows && |pivots| <= c < cols ==> l[r][c] == l0[r][c]
  {
    u, l, pivots := u0, l0, [];
    var n := 0;
    while n < rows
      invariant Reduced(u, pivots, rows, cols, n) && Recorded(l, l0, pivots, rows, cols)
    {
      ZeroForm(u[n][n]);
      if EqInt(u[n][n], 0) {
        SkipZero(u, pivots, rows, cols, n);
      } else {
        l := RecordPivot(u, l, l0, pivots, rows, cols, n);
        u := ReducePivot(u, pivots, rows, cols, n);
        pivots := pivots + [n];
      }
      n := n + 1;
    }
  }

  /** L after its first `i` columns have been divided by their diagonal
      entries. */
  predicate ColumnsDivided(l: Matrix, l0: Matrix, lRows: nat, lCols: nat, i: nat) {
    && i <= lCols <= lRows
    && IsMatrix(l, lRows, lCols) && IsMatrix(l0, lRows, lCols) && AllSimplified(l) && AllSimplified(l0)
    && (forall k :: 0 <= k < lCols ==> l0[k][k].num != 0)
    && (forall k :: 0 <= k < i ==> l[k][k] == One)
    && (forall r, c :: 0 <= c < i && c <= r < lRows ==> l[r][c] == Mul(l0[r][c], Div(One, l0[c][c])))
    && (forall r, c :: 0 <= r < lRows && 0 <= c < lCols && (i <= c || r < c) ==> l[r][c] == l0[r][c])
  }

  /** U after its first `i` rows have been multiplied by L's diagonal entries. */
  predicate RowsMultiplied(u: Matrix, u0: Matrix, l0: Matrix, lRows: nat, lCols: nat, uRows: nat, uCols: nat, i: nat) {
    && i <= lCols <= lRows && lCols <= uRows
    && IsMatrix(u, uRows, uCols) && IsMatrix(u0, uRows, uCols) && IsMatrix(l0, lRows, lCols)
    && AllSimplified(u) && AllSimplified(u0) && AllSimplified(l0)
    && (forall r, c :: 0 <= r < i && r <= c < uCols ==> u[r][c] == Mul(u0[r][c], l0[r][r]))
    && (forall r :: i <= r < uRows ==> u[r] == u0[r])
    && (forall r, c :: 0 <= r < i && 0 <= c < uCols && c < r ==> u[r][c] == u0[r][c])
  }

  /** The L half of one round of `simplifyLU`: `L[j, i] *= 1 / L[i, i]` for
      every `j` from `i` down. */
  method DivideColumn(l: Matrix, l0: Matrix, lRows: nat, lCols: nat, i: nat) returns (l': Matrix)
    requires ColumnsDivided(l, l0, lRows, lCols, i) && i < lCols
    ensures ColumnsDivided(l', l0, lRows, lCols, i + 1)
  {
    TimesInverse(l[i][i]);
    var fl := Div(One, l[i][i]);
    l' := ScaleColumn(l, lRows, lCols, i, i, fl);
  }

  /** The U half: `U[i, j] *= fu` for every `j` from `i` on, where `fu` is the
      diagonal entry of L before the division. */
  method MultiplyRow(u: Matrix, u0: Matrix, l0: Matrix, lRows: nat, lCols: nat, uRows: nat, uCols: nat, i: nat, fu: Real)
    returns (u': Matrix)
    requires RowsMultiplied(u, u0, l0, lRows, lCols, uRows, uCols, i) && i < lCols && fu == l0[i][i]
    ensures RowsMultiplied(u', u0, l0, lRows, lCols, uRows, uCols, i + 1)
  {
    var row := ScaleVec(u[i], i, fu);
    u' := u[i := row];
  }

  /** `simplifyLU`: for each column i of L, divide L's column i (from the
      diagonal down) by `L[i, i]` and multiply U's row i (from the diagonal
      on) by it, so that L ends with ones on its diagonal. The diagonal of L
      must be non-zero and inside both matrices. */
  method SimplifyLu(l0: Matrix, u0: Matrix, lRows: nat, lCols: nat, uRows: nat, uCols: nat)
    returns (l: Matrix, u: Matrix)
    requires IsMatrix(l0, lRows, lCols) && IsMatrix(u0, uRows, uCols)
    requires lCols <= lRows && lCols <= uRows
    requires AllSimplified(l0) && AllSimplified(u0)
    requires forall i :: 0 <= i < lCols ==> l0[i][i].num != 0
    ensures IsMatrix(l, lRows, lCols) && IsMatrix(u, uRows, uCols)
    ensures AllSimplified(l) && AllSimplified(u)
    ensures forall i :: 0 <= i < lCols ==> l[i][i] == One
    ensures forall r, c :: 0 <= c < lCols && c <= r < lRows ==>
      l[r][c] == Mul(l0[r][c], Div(One, l0[c][c]))
    ensures forall r, c :: 0 <= r < lCols && r <= c < uCols ==>
      u[r][c] == Mul(u0[r][c], l0[r][r])
    ensures forall r, c :: 0 <= r < lRows && 0 <= c < lCols && r < c ==> l[r][c] == l0[r][c]
    ensures forall r, c :: 0 <= r < uRows && 0 <= c < uCols && (lCols <= r || c < r) ==> u[r][c] == u0[r][c]
    ensures forall r, c :: 0 <= c < lCols && c <= r < lRows ==>
      MulDefined(l[r][c], l0[c][c]) && Mul(l[r][c], l0[c][c]) == l0[r][c]
    ensures forall r, c, k :: 0 <= c < lCols && c <= r < lRows && c <= k < uCols ==>
      MulDefined(l[r][c], u[c][k]) && MulDefined(l0[r][c], u0[c][k]) && Mul(l[r][c], u[c][k]) == Mul(l0[r][c], u0[c][k])
  {
    l, u := SimplifyColumns(l0, u0, lRows, lCols, uRows, uCols);
    ColumnValues(l, l0, lRows, lCols);
    ProductTerms(l, u, l0, u0, lRows, lCols, uRows, uCols);
  }

  /** The loop of `simplifyLU`, one column of L and one row of U per round. */
  method SimplifyColumns(l0: Matrix, u0: Matrix, lRows: nat, lCols: nat, uRows: nat, uCols: nat)
    returns (l: Matrix, u: Matrix)
    requires IsMatrix(l0, lRows, lCols) && IsMatrix(u0, uRows, uCols)
    requires lCols <= lRows && lCols <= uRows
    requires AllSimplified(l0) && AllSimplified(u0)
    requires forall i :: 0 <= i < lCols ==> l0[i][i].num != 0
    ensures ColumnsDivided(l, l0, lRows, lCols, lCols)
    ensures RowsMultiplied(u, u0, l0, lRows, lCols, uRows, uCols, lCols)
  {
    l, u := l0, u0;
    var i := 0;
    while i < lCols
      invariant ColumnsDivided(l, l0, lRows, lCols, i)
      invariant RowsMultiplied(u, u0, l0, lRows, lCols, uRows, uCols, i)
    {
      var fu := l[i][i];
      l := DivideColumn(l, l0, lRows, lCols, i);
      u := MultiplyRow(u, u0, l0, lRows, lCols, uRows, uCols, i, fu);
      i := i + 1;
    }
  }

  /** Each divided L entry times the pivot it was divided by gives the entry
      back. */
  lemma ColumnValues(l: Matrix, l0: Matrix, lRows: nat, lCols: nat)
    requires ColumnsDivided(l, l0, lRows, lCols, lCols)
    ensures forall r, c :: 0 <= c < lCols && c <= r < lRows ==>
      MulDefined(l[r][c], l0[c][c]) && Mul(l[r][c], l0[c][c]) == l0[r][c]
  {
    forall r, c | 0 <= c < lCols && c <= r < lRows
      ensures MulDefined(l[r][c], l0[c][c]) && Mul(l[r][c], l0[c][c]) == l0[r][c]
    {
      DividedBack(l0[r][c], l0[c][c]);
    }
  }

  /** Every term `L[r, c] * U[c, k]` of the product keeps its value. */
  lemma ProductTerms(l: Matrix, u: Matrix, l0: Matrix, u0: Matrix, lRows: nat, lCols: nat, uRows: nat, uCols: nat)
    requires ColumnsDivided(l, l0, lRows, lCols, lCols)
    requires RowsMultiplied(u, u0, l0, lRows, lCols, uRows, uCols, lCols)
    ensures forall r, c, k :: 0 <= c < lCols && c <= r < lRows && c <= k < uCols ==>
      MulDefined(l[r][c], u[c][k]) && MulDefined(l0[r][c], u0[c][k]) && Mul(l[r][c], u[c][k]) == Mul(l0[r][c], u0[c][k])
  {
    forall r, c, k | 0 <= c < lCols && c <= r < lRows && c <= k < uCols
      ensures MulDefined(l[r][c], u[c][k]) && MulDefined(l0[r][c], u0[c][k]) && Mul(l[r][c], u[c][k]) == Mul(l0[r][c], u0[c][k])
    {
      TermKept(l0[r][c], u0[c][k], l0[c][c]);
    }
  }

  /** `(x * (1 / p)) * p` is `x` again. */
  lemma DividedBack(x: Real, p: Real)
    requires Simplified(x) && Simplified(p) && p.num != 0
    ensures Simplified(Div(One, p)) && MulDefined(x, Div(One, p))
    ensures MulDefined(Mul(x, Div(One, p)), p) && Mul(Mul(x, Div(One, p)), p) == x
  {
    TimesInverse(p);
    var d := Div(One, p);
    ClosedMul(x, d);
    var a := Mul(x, d);
    ClosedMul(a, p);
    TimesBack(x, p, d);
    MulValueOf(a, p);
    Canonical(Mul(a, p), x);
  }

  /** One term of the product L·U survives a round of `simplifyLU`: dividing
      the L entry by the pivot `p` and multiplying the U entry by `p` leaves
      their product unchanged. */
  lemma TermKept(x: Real, y: Real, p: Real)
    requires Simplified(x) && Simplified(y) && Simplified(p) && p.num != 0
    ensures Simplified(Div(One, p)) && MulDefined(x, Div(One, p)) && MulDefined(y, p)
    ensures MulDefined(Mul(x, Div(One, p)), Mul(y, p)) && MulDefined(x, y)
    ensures Mul(Mul(x, Div(One, p)), Mul(y, p)) == Mul(x, y)
  {
    TimesInverse(p);
    var d := Div(One, p);
    ClosedMul(x, d);
    ClosedMul(y, p);
    var a, m := Mul(x, d), Mul(y, p);
    ClosedMul(a, m);
    ClosedMul(x, y);
    RegroupValues(x, y, p, d, a, m);
    Canonical(Mul(a, m), Mul(x, y));
  }

  lemma RegroupValues(x: Real, y: Real, p: Real, d: Real, a: Real, m: Real)
    requires Simplified(x) && Simplified(y) && Simplified(p) && Simplified(d)
    requires MulDefined(p, d) && Mul(p, d) == One
    requires MulDefined(x, d) && a == Mul(x, d) && MulDefined(y, p) && m == Mul(y, p)
    ensures Simplified(a) && Simplified(m) && MulDefined(a, m) && MulDefined(x, y)
    ensures Value(Mul(a, m)) == Value(Mul(x, y))
  {
    OneAndZeroSimplified();
    MulValueOf(p, d);
    MulValueOf(x, d);
    MulValueOf(y, p);
    MulValueOf(a, m);
    MulValueOf(x, y);
    assert Value(One) == 1.0;
    RegroupBy(x, y, p, d, a, m, Mul(a, m), Mul(x, y));
  }

  lemma RegroupBy(x: Real, y: Real, p: Real, d: Real, a: Real, m: Real, am: Real, xy: Real)
    requires x.denom != 0 && y.denom != 0 && p.denom != 0 && d.denom != 0
    requires a.denom != 0 && m.denom != 0 && am.denom != 0 && xy.denom != 0
    requires Value(p) * Value(d) == 1.0
    requires Value(a) == Value(x) * Value(d) && Value(m) == Value(y) * Value(p)
    requires Value(am) == Value(a) * Value(m) && Value(xy) == Value(x) * Value(y)
    ensures Value(am) == Value(xy)
  {
    RealRegroup(Value(x), Value(y), Value(p), Value(d), Value(a), Value(m), Value(am), Value(xy));
  }

  lemma RealRegroup(x: real, y: real, p: real, d: real, a: real, m: real, am: real, xy: real)
    requires p * d == 1.0 && a == x * d && m == y * p && am == a * m && xy == x * y
    ensures am == xy
  {
    assert am == (x * y) * (p * d);
  }

  /** Multiplying by an inverse of `p` (one `d` with `p * d == 1`, such as
      the `one / pivot` of the elimination) and then by `p` gives `x` back. */
  lemma TimesBack(x: Real, p: Real, d: Real)
    requires Simplified(x) && Simplified(p) && Simplified(d) && MulDefined(p, d) && Mul(p, d) == One
    ensures MulDefined(x, d) && Value(Mul(x, d)) * Value(p) == Value(x)
  {
    MulValueOf(p, d);
    assert Value(One) == 1.0;
    MulValueOf(x, d);
    CancelBy(x, p, d, Mul(x, d));
  }

  lemma CancelBy(x: Real, p: Real, d: Real, m: Real)
    requires x.denom != 0 && p.denom != 0 && d.denom != 0 && m.denom != 0
    requires Value(m) == Value(x) * Value(d) && Value(p) * Value(d) == 1.0
    ensures Value(m) * Value(p) == Value(x)
  {
    RealCancel(Value(x), Value(d), Value(p), Value(m));
  }

  lemma RealCancel(x: real, y: real, p: real, xy: real)
    requires xy == x * y && p * y == 1.0
    ensures xy * p == x
  {
    assert xy * p == x * (p * y);
  }

  /** `L.identity()` on a square matrix. */
  predicate IsIdentity(m: Matrix, n: nat) {
    IsMatrix(m, n, n) && forall r, c :: 0 <= r < n && 0 <= c < n ==> m[r][c] == if r == c then One else Zero
  }

  function Identity(n: nat): (m: Matrix)
    ensures IsIdentity(m, n) && AllSimplified(m)
  {
    OneAndZeroSimplified();
    seq(n, r => seq(n, c => if r == c then One else Zero))
  }

  /** Starting from the identity, the elimination leaves L's diagonal
      non-zero: a pivot's column carries its non-zero value at or below the
      diagonal, and the identity's one above it. */
  lemma DiagonalNonZero(l0: Matrix, l: Matrix, pivots: seq<nat>, n: nat)
    requires IsIdentity(l0, n) && IsMatrix(l, n, n) && |pivots| <= n
    requires forall k :: 0 <= k < |pivots| ==> pivots[k] < n
    requires forall i, j :: 0 <= i < j < |pivots| ==> pivots[i] < pivots[j]
    requires forall k :: 0 <= k < |pivots| ==> l[pivots[k]][k].num != 0
    requires forall k, r :: 0 <= k < |pivots| && 0 <= r < pivots[k] ==> l[r][k] == l0[r][k]
    requires forall r, c :: 0 <= r < n && |pivots| <= c < n ==> l[r][c] == l0[r][c]
    ensures forall i :: 0 <= i < n ==> l[i][i].num != 0
  {
    PivotsAtOrBelow(pivots);
    forall i | 0 <= i < n
      ensures l[i][i].num != 0
    {
      if i < |pivots| && pivots[i] == i {
        assert l[pivots[i]][i].num != 0;
      } else {
        assert l[i][i] == l0[i][i] == One;
      }
    }
  }

  /** Increasing pivot positions lie on or below the diagonal. */
  lemma {:induction false} PivotsAtOrBelow(pivots: seq<nat>)
    requires forall i, j :: 0 <= i < j < |pivots| ==> pivots[i] < pivots[j]
    ensures forall k :: 0 <= k < |pivots| ==> k <= pivots[k]
  {
    if |pivots| > 0 {
      var init := pivots[..|pivots| - 1];
      PivotsAtOrBelow(init);
      assert forall k :: 0 <= k < |init| ==> init[k] == pivots[k];
      if |pivots| > 1 {
        assert pivots[|pivots| - 2] < pivots[|pivots| - 1];
      }
    }
  }

  /** `main` without the parsing and printing: eliminate a square matrix
      with L starting as the identity, then move L's diagonal into U. */
  method Factorize(mat: Matrix, n: nat) returns (l: Matrix, u: Matrix, pivots: seq<nat>, ls: Matrix, us: Matrix)
    requires IsMatrix(mat, n, n) && AllSimplified(mat)
    ensures IsMatrix(l, n, n) && IsMatrix(u, n, n) && IsMatrix(ls, n, n) && IsMatrix(us, n, n)
    ensures forall i :: 0 <= i < n ==> l[i][i].num != 0 && ls[i][i] == One
    ensures forall m :: m in pivots ==> m < n && us[m][m] == l[m][m]
    ensures forall m :: 0 <= m < n && m !in pivots ==> us[m][m] == Zero
  {
    var id := Identity(n);
    OneAndZeroSimplified();
    u, l, pivots := GaussianEliminationToRef(mat, id, n, n);
    DiagonalNonZero(id, l, pivots, n);
    ls, us := SimplifyLu(l, u, n, n, n, n);
    forall m | m in pivots
      ensures us[m][m] == l[m][m]
    {
      OneTimes(l[m][m]);
    }
    forall m | 0 <= m < n && m !in pivots
      ensures us[m][m] == Zero
    {
      ZeroTimes(l[m][m]);
    }
  }
}

=== FILE: lua_dump.dfy ===
/** `dump_as_lua` of both server set-up scripts (`dstds/dst_setup_server.rb`
    and `dst_setup_server.rb`, identical there): a YAML-loaded value written
    as text, hashes as `{"k"=v,...}`, arrays as `[...]`, strings through
    `String#dump`, `nil` as `nil`, and other scalars through `to_s`. Its
    partner is the reader `ParseValue`, which takes the text back to the
    value. */
module LuaDump {
  import opened Wrappers
  import opened Text
  import opened Numbers
  import RubyDump

  /** Hash keys as YAML loads them; only scalar keys are modelled. */
  datatype Key = KNil | KStr(s: string) | KInt(i: int) | KBool(b: bool)

  /** A YAML-loaded value (floats are not modelled). Hash entries keep their
      insertion order, as Ruby hashes do. */
  datatype Value =
    | Nil
    | Str(s: string)
    | Int(i: int)
    | Bool(b: bool)
    | Arr(items: seq<Value>)
    | Hash(entries: seq<(Key, Value)>)

  /** Ruby `true.to_s` / `false.to_s`. */
  function BoolText(b: bool): string {
    if b then "true" else "false"
  }

  /** Ruby `to_s` of a key: `nil` prints as the empty string. */
  function KeyText(k: Key): string {
    match k
    case KNil => ""
    case KStr(s) => s
    case KInt(i) => IntToString(i)
    case KBool(b) => BoolText(b)
  }

  /** A hash entry: the key's text in quotes (not escaped), `=`, the value. */
  function EntryText(k: Key, valueText: string): string {
    "\"" + KeyText(k) + "\"=" + valueText
  }

  function DumpAsLua(v: Value): string
    decreases v, 1
  {
    match v
    case Hash(_) => "{" + Join(EntryTexts(v), ",") + "}"
    case Arr(_) => "[" + Join(ItemTexts(v), ",") + "]"
    case Str(s) => RubyDump.Dump(s)
    case Nil => "nil"
    case Int(i) => IntToString(i)
    case Bool(b) => BoolText(b)
  }

  /** The dumped items of an array, in order. */
  function ItemTexts(v: Value): (r: seq<string>)
    requires v.Arr?
    ensures |r| == |v.items|
    decreases v, 0
  {
    seq(|v.items|, i requires 0 <= i < |v.items| => DumpAsLua(v.items[i]))
  }

  /** The dumped entries of a hash, in order. */
  function EntryTexts(v: Value): (r: seq<string>)
    requires v.Hash?
    ensures |r| == |v.entries|
    decreases v, 0
  {
    seq(|v.entries|, i requires 0 <= i < |v.entries| => EntryText(v.entries[i].0, DumpAsLua(v.entries[i].1)))
  }

  // ---------------------------------------------------------------------
  // Reading the text back

  /** Reads one value from the front of `t`; returns it and what follows. */
  function ParseValue(t: string): (r: Option<(Value, string)>)
    ensures r.Some? ==> |r.value.1| < |t|
    decreases |t|, 1
  {
    if |t| == 0 then None
    else if t[0] == '[' then
      if |t| >= 2 && t[1] == ']' then Some((Arr([]), t[2..])) else ParseItems(t[1..], [])
    else if t[0] == '{' then
      if |t| >= 2 && t[1] == '}' then Some((Hash([]), t[2..])) else ParseEntries(t[1..], [])
    else if t[0] == '"' then
      var (s, rest) :- RubyDump.Undump(t);
      Some((Str(s), rest))
    else if "nil" <= t then Some((Nil, t[3..]))
    else if "true" <= t then Some((Bool(true), t[4..]))
    else if "false" <= t then Some((Bool(false), t[5..]))
    else ParseIntLiteral(t)
  }

  /** An optional `-` and the longest run of decimal digits after it. */
  function ParseIntLiteral(t: string): (r: Option<(Value, string)>)
    ensures r.Some? ==> |r.value.1| < |t|
  {
    var neg := |t| > 0 && t[0] == '-';
    var body := if neg then t[1..] else t;
    var n := LeadCount(body, IsDigit);
    if n == 0 then None
    else
      var mag: int := DigitsValue(body[..n]);
      Some((Int(if neg then -mag else mag), body[n..]))
  }

  /** The items of a non-empty array after its `[`, each followed by `,` or
      the closing `]`; `acc` holds the items read so far. */
  function ParseItems(t: string, acc: seq<Value>): (r: Option<(Value, string)>)
    ensures r.Some? ==> |r.value.1| < |t|
    decreases |t|, 2
  {
    var (x, rest) :- ParseValue(t);
    ItemsContinue(rest, acc + [x])
  }

  /** After an item: `,` and the next item, or the closing `]`. */
  function ItemsContinue(t: string, acc: seq<Value>): (r: Option<(Value, string)>)
    ensures r.Some? ==> |r.value.1| < |t|
    decreases |t|, 3
  {
    if |t| > 0 && t[0] == ',' then ParseItems(t[1..], acc)
    else if |t| > 0 && t[0] == ']' then Some((Arr(acc), t[1..]))
    else None
  }

  /** The entries of a non-empty hash after its `{`: a quoted key up to the
      next quote, `=`, then a value. */
  function ParseEntries(t: string, acc: seq<(Key, Value)>): (r: Option<(Value, string)>)
    ensures r.Some? ==> |r.value.1| < |t|
    decreases |t|, 2
  {
    if |t| == 0 || t[0] != '"' then None
    else
      var j :- FindChar(t[1..], '"');
      var after := t[j + 2..];
      if |after| == 0 || after[0] != '=' then None
      else
        var (x, rest) :- ParseValue(after[1..]);
        EntriesContinue(rest, acc + [(KStr(t[1..j + 1]), x)])
  }

  /** After an entry: `,` and the next entry, or the closing `}`. */
  function EntriesContinue(t: string, acc: seq<(Key, Value)>): (r: Option<(Value, string)>)
    ensures r.Some? ==> |r.value.1| < |t|
    decreases |t|, 3
  {
    if |t| > 0 && t[0] == ',' then ParseEntries(t[1..], acc)
    else if |t| > 0 && t[0] == '}' then Some((Hash(acc), t[1..]))
    else None
  }

  /** Reads a whole text as one value. */
  function ParseLua(t: string): (r: Option<Value>)
  {
    var (v, rest) :- ParseValue(t);
    if rest == "" then Some(v) else None
  }

  // ---------------------------------------------------------------------
  // Round trip

  /** What survives the text: keys become their `to_s` strings, since the
      text does not record a key's type. */
  function Norm(v: Value): Value {
    match v
    case Arr(items) => Arr(seq(|items|, i requires 0 <= i < |items| => Norm(items[i])))
    case Hash(entries) =>
      Hash(seq(|entries|, i requires 0 <= i < |entries| => (KStr(KeyText(entries[i].0)), Norm(entries[i].1))))
    case _ => v
  }

  /** No key text contains a double quote (keys are written unescaped). */
  predicate KeysPlain(v: Value) {
    match v
    case Arr(items) => forall i :: 0 <= i < |items| ==> KeysPlain(items[i])
    case Hash(entries) => forall i :: 0 <= i < |entries| ==> '"' !in KeyText(entries[i].0) && KeysPlain(entries[i].1)
    case _ => true
  }

  /** What may follow a value inside the text. */
  predicate Delimited(rest: string) {
    rest == "" || rest[0] == ',' || rest[0] == ']' || rest[0] == '}'
  }

  /** The dumped text reads back as the value, up to the key types. */
  lemma RoundTrip(v: Value)
    requires KeysPlain(v)
    ensures ParseLua(DumpAsLua(v)) == Some(Norm(v))
  {
    DumpParses(v, "");
    assert DumpAsLua(v) + "" == DumpAsLua(v);
  }

  /** Values whose keys are plain and whose texts agree are equal up to the
      key types. */
  lemma DumpInjective(a: Value, b: Value)
    requires KeysPlain(a) && KeysPlain(b)
    requires DumpAsLua(a) == DumpAsLua(b)
    ensures Norm(a) == Norm(b)
  {
    RoundTrip(a);
    RoundTrip(b);
  }

  lemma {:induction false} DumpParses(v: Value, rest: string)
    requires KeysPlain(v) && Delimited(rest)
    ensures ParseValue(DumpAsLua(v) + rest) == Some((Norm(v), rest))
    decreases v, 2
  {
    match v
    case Nil => NilParses(rest);
    case Bool(b) => BoolParses(b, rest);
    case Int(i) => IntParses(i, rest);
    case Str(s) => StrParses(s, rest);
    case Arr(items) =>
      if |items| == 0 {
        EmptyArrParses(rest);
      } else {
        ItemsParse(v, 0, rest);
        ArrParses(v, rest);
      }
    case Hash(entries) =>
      if |entries| == 0 {
        EmptyHashParses(rest);
      } else {
        EntriesParse(v, 0, rest);
        HashParses(v, rest);
      }
  }

  lemma NilParses(rest: string)
    ensures ParseValue(DumpAsLua(Nil) + rest) == Some((Norm(Nil), rest))
  {
    var t := "nil" + rest;
    assert t[..3] == "nil";
  }

  lemma BoolParses(b: bool, rest: string)
    ensures ParseValue(DumpAsLua(Bool(b)) + rest) == Some((Norm(Bool(b)), rest))
  {
    var t := BoolText(b) + rest;
    assert !("nil" <= t) by {
      assert t[0] != 'n';
    }
    if b {
      assert t[..4] == "true";
    } else {
      assert !("true" <= t) by {
        assert t[0] != 't';
      }
      assert t[..5] == "false";
    }
  }

  lemma StrParses(s: string, rest: string)
    ensures ParseValue(DumpAsLua(Str(s)) + rest) == Some((Norm(Str(s)), rest))
  {
    RubyDump.DumpRoundTrip(s, rest);
  }

  lemma EmptyArrParses(rest: string)
    ensures ParseValue(DumpAsLua(Arr([])) + rest) == Some((Norm(Arr([])), rest))
  {
    assert DumpAsLua(Arr([])) + rest == "[]" + rest;
    assert Norm(Arr([])) == Arr([]);
  }

  lemma EmptyHashParses(rest: string)
    ensures ParseValue(DumpAsLua(Hash([])) + rest) == Some((Norm(Hash([])), rest))
  {
    assert DumpAsLua(Hash([])) + rest == "{}" + rest;
    assert Norm(Hash([])) == Hash([]);
  }

  lemma ArrParses(v: Value, rest: string)
    requires v.Arr? && |v.items| > 0
    requires ParseItems(Join(ItemTexts(v)[0..], ",") + "]" + rest, Norm(v).items[..0]) == Some((Norm(v), rest))
    ensures ParseValue(DumpAsLua(v) + rest) == Some((Norm(v), rest))
  {
    var body := Join(ItemTexts(v)[0..], ",") + "]" + rest;
    ArrText(v, rest);
    assert Norm(v).items[..0] == [];
    ArrOpens(DumpAsLua(v) + rest, body);
  }

  lemma ArrText(v: Value, rest: string)
    requires v.Arr? && |v.items| > 0
    ensures var body := Join(ItemTexts(v)[0..], ",") + "]" + rest;
      DumpAsLua(v) + rest == "[" + body && |body| > 0 && body[0] != ']'
  {
    var texts := ItemTexts(v);
    assert texts[0..] == texts;
    assert texts[0] == DumpAsLua(v.items[0]);
    ItemTextFirst(v.items[0]);
    JoinFirst(texts, ",");
  }

  lemma ArrOpens(t: string, body: string)
    requires t == "[" + body && |body| > 0 && body[0] != ']'
    ensures ParseValue(t) == ParseItems(body, [])
  {
    assert t[1..] == body;
  }

  lemma HashParses(v: Value, rest: string)
    requires v.Hash? && |v.entries| > 0
    requires ParseEntries(Join(EntryTexts(v)[0..], ",") + "}" + rest, Norm(v).entries[..0]) == Some((Norm(v), rest))
    ensures ParseValue(DumpAsLua(v) + rest) == Some((Norm(v), rest))
  {
    var body := Join(EntryTexts(v)[0..], ",") + "}" + rest;
    HashText(v, rest);
    assert Norm(v).entries[..0] == [];
    HashOpens(DumpAsLua(v) + rest, body);
  }

  lemma HashText(v: Value, rest: string)
    requires v.Hash? && |v.entries| > 0
    ensures var body := Join(EntryTexts(v)[0..], ",") + "}" + rest;
      DumpAsLua(v) + rest == "{" + body && |body| > 0 && body[0] == '"'
  {
    var texts := EntryTexts(v);
    assert texts[0..] == texts;
    assert texts[0][0] == '"';
    JoinFirst(texts, ",");
  }

  lemma HashOpens(t: string, body: string)
    requires t == "{" + body && |body| > 0 && body[0] == '"'
    ensures ParseValue(t) == ParseEntries(body, [])
  {
    assert t[1..] == body;
  }

  lemma NormEntry(v: Value, i: nat)
    requires v.Hash? && i < |v.entries|
    ensures Norm(v).Hash? && |Norm(v).entries| == |v.entries|
    ensures Norm(v).entries[i] == (KStr(KeyText(v.entries[i].0)), Norm(v.entries[i].1))
  {
  }

  lemma NormItem(v: Value, i: nat)
    requires v.Arr? && i < |v.items|
    ensures Norm(v).Arr? && |Norm(v).items| == |v.items|
    ensures Norm(v).items[i] == Norm(v.items[i])
  {
  }

  lemma Snoc<T>(s: seq<T>, i: nat)
    requires i < |s|
    ensures s[..i] + [s[i]] == s[..i + 1]
  {
  }

  /** A dumped value never starts with `]`. */
  lemma ItemTextFirst(x: Value)
    ensures |DumpAsLua(x)| > 0 && DumpAsLua(x)[0] != ']'
  {
    match x
    case Int(i) =>
      var m: nat := if i >= 0 then i else -i;
      assert IsDigit(NatToString(m)[0]);
    case _ =>
  }

  lemma JoinFirst(parts: seq<string>, sep: string)
    requires |parts| > 0 && |parts[0]| > 0
    ensures |Join(parts, sep)| > 0 && Join(parts, sep)[0] == parts[0][0]
  {
  }

  /** The joined items from `i` on are item `i`'s text followed by either the
      closing bracket or a comma and the rest. */
  lemma ItemsSplit(v: Value, i: nat, rest: string)
    requires v.Arr? && i < |v.items|
    ensures Join(ItemTexts(v)[i..], ",") + "]" + rest == DumpAsLua(v.items[i]) +
      if i + 1 == |v.items| then "]" + rest else "," + (Join(ItemTexts(v)[i + 1..], ",") + "]" + rest)
  {
    JoinFrom(ItemTexts(v), i, "]" + rest);
  }

  lemma EntriesSplit(v: Value, i: nat, rest: string)
    requires v.Hash? && i < |v.entries|
    ensures Join(EntryTexts(v)[i..], ",") + "}" + rest == EntryText(v.entries[i].0, DumpAsLua(v.entries[i].1)) +
      if i + 1 == |v.entries| then "}" + rest else "," + (Join(EntryTexts(v)[i + 1..], ",") + "}" + rest)
  {
    JoinFrom(EntryTexts(v), i, "}" + rest);
  }

  /** Joined texts from `i` on, then a closing text: text `i`, then either
      the closing text or a comma and the joined texts after `i`. */
  lemma JoinFrom(texts: seq<string>, i: nat, close: string)
    requires i < |texts|
    ensures Join(texts[i..], ",") + close == texts[i] +
      if i + 1 == |texts| then close else "," + (Join(texts[i + 1..], ",") + close)
  {
    if i + 1 == |texts| {
      assert texts[i..] == [texts[i]];
    } else {
      assert texts[i..] == [texts[i]] + texts[i + 1..];
      JoinCons(texts[i], texts[i + 1..], ",");
    }
  }

  lemma {:induction false} ItemsParse(v: Value, i: nat, rest: string)
    requires v.Arr? && KeysPlain(v) && i < |v.items| && Delimited(rest)
    ensures ParseItems(Join(ItemTexts(v)[i..], ",") + "]" + rest, Norm(v).items[..i])
      == Some((Norm(v), rest))
    decreases v, 1, |v.items| - i
  {
    var x := v.items[i];
    var last := i + 1 == |v.items|;
    var tail := Join(ItemTexts(v)[i + 1..], ",") + "]" + rest;
    var u := if last then "]" + rest else "," + tail;
    var t := Join(ItemTexts(v)[i..], ",") + "]" + rest;
    var acc := Norm(v).items[..i] + [Norm(x)];
    assert t == DumpAsLua(x) + u by {
      ItemsSplit(v, i, rest);
    }
    assert ParseValue(t) == Some((Norm(x), u)) by {
      DumpParses(x, u);
    }
    assert ParseItems(t, Norm(v).items[..i]) == ItemsContinue(u, acc) by {
      ItemsStep(t, Norm(v).items[..i], Norm(x), u);
    }
    assert acc == Norm(v).items[..i + 1] by {
      NormItem(v, i);
      Snoc(Norm(v).items, i);
    }
    if last {
      assert acc == Norm(v).items;
      assert u[1..] == rest;
    } else {
      assert u[1..] == tail;
      ItemsParse(v, i + 1, rest);
    }
  }

  lemma ItemsStep(t: string, acc: seq<Value>, x: Value, u: string)
    requires ParseValue(t) == Some((x, u))
    ensures ParseItems(t, acc) == ItemsContinue(u, acc + [x])
  {
  }

  lemma {:induction false} EntriesParse(v: Value, i: nat, rest: string)
    requires v.Hash? && KeysPlain(v) && i < |v.entries| && Delimited(rest)
    ensures ParseEntries(Join(EntryTexts(v)[i..], ",") + "}" + rest, Norm(v).entries[..i])
      == Some((Norm(v), rest))
    decreases v, 1, |v.entries| - i
  {
    var (k, x) := v.entries[i];
    var last := i + 1 == |v.entries|;
    var tail := Join(EntryTexts(v)[i + 1..], ",") + "}" + rest;
    var u := if last then "}" + rest else "," + tail;
    var t := Join(EntryTexts(v)[i..], ",") + "}" + rest;
    var acc := Norm(v).entries[..i] + [(KStr(KeyText(k)), Norm(x))];
    assert acc == Norm(v).entries[..i + 1] by {
      NormEntry(v, i);
      Snoc(Norm(v).entries, i);
    }
    assert t == EntryText(k, DumpAsLua(x)) + u by {
      EntriesSplit(v, i, rest);
    }
    assert ParseEntries(t, Norm(v).entries[..i]) == EntriesContinue(u, acc) by {
      DumpParses(x, u);
      assert t == "\"" + KeyText(k) + "\"=" + DumpAsLua(x) + u;
      EntryParses(KeyText(k), DumpAsLua(x), u, Norm(v).entries[..i], Norm(x));
    }
    if last {
      assert acc == Norm(v).entries;
      assert u[1..] == rest;
    } else {
      assert u[1..] == tail;
      EntriesParse(v, i + 1, rest);
    }
  }

  /** An entry's key is read up to its closing quote, then its value. */
  lemma EntryParses(key: string, vt: string, u: string, acc: seq<(Key, Value)>, x: Value)
    requires '"' !in key
    requires ParseValue(vt + u) == Some((x, u))
    ensures ParseEntries("\"" + key + "\"=" + vt + u, acc) == EntriesContinue(u, acc + [(KStr(key), x)])
  {
    var t := "\"" + key + "\"=" + vt + u;
    assert t == "\"" + key + "\"=" + (vt + u);
    QuotedKey(key, vt + u);
    EntryStep(t, |key|, acc, vt + u, x, u);
  }

  /** A quoted key is read up to its closing quote. */
  lemma QuotedKey(key: string, after: string)
    requires '"' !in key
    ensures var t := "\"" + key + "\"=" + after;
      |t| > 0 && t[0] == '"' && FindChar(t[1..], '"') == Some(|key|)
      && t[1..|key| + 1] == key && t[|key| + 2..] == "=" + after
  {
    var t := "\"" + key + "\"=" + after;
    assert t[1..] == key + "\"=" + after;
    assert t[1..][..|key|] == key;
    FindCharIs(t[1..], '"', |key|);
  }

  lemma EntryStep(t: string, j: nat, acc: seq<(Key, Value)>, after: string, x: Value, u: string)
    requires |t| > 0 && t[0] == '"'
    requires FindChar(t[1..], '"') == Some(j)
    requires t[j + 2..] == "=" + after
    requires ParseValue(after) == Some((x, u))
    ensures ParseEntries(t, acc) == EntriesContinue(u, acc + [(KStr(t[1..j + 1]), x)])
  {
    assert t[j + 2..][1..] == after;
  }

  lemma IntParses(i: int, rest: string)
    requires Delimited(rest)
    ensures ParseValue(IntToString(i) + rest) == Some((Int(i), rest))
  {
    var t := IntToString(i) + rest;
    assert t[0] == '-' || IsDigit(t[0]);
    FallsToInt(t);
    IntLiteralParses(i, rest);
  }

  /** Text starting with a digit or `-` is read as an integer literal. */
  lemma FallsToInt(t: string)
    requires |t| > 0 && (t[0] == '-' || IsDigit(t[0]))
    ensures ParseValue(t) == ParseIntLiteral(t)
  {
    assert t[0] != '[' && t[0] != '{' && t[0] != '"';
    assert !("nil" <= t) && !("true" <= t) && !("false" <= t) by {
      assert t[0] != 'n' && t[0] != 't' && t[0] != 'f';
    }
  }

  lemma IntLiteralParses(i: int, rest: string)
    requires Delimited(rest)
    ensures ParseIntLiteral(IntToString(i) + rest) == Some((Int(i), rest))
  {
    if i >= 0 {
      NatLiteralParses(i, rest);
    } else {
      NegLiteralParses(-i, rest);
      assert IntToString(i) == "-" + NatToString(-i);
      Assoc("-", NatToString(-i), rest);
    }
  }

  lemma Assoc(a: string, b: string, c: string)
    ensures a + b + c == a + (b + c)
  {
  }

  lemma NatLiteralParses(m: nat, rest: string)
    requires Delimited(rest)
    ensures ParseIntLiteral(NatToString(m) + rest) == Some((Int(m), rest))
  {
    DigitsPrefix(m, rest);
    assert (NatToString(m) + rest)[0] == NatToString(m)[0];
  }

  lemma NegLiteralParses(m: nat, rest: string)
    requires Delimited(rest)
    ensures ParseIntLiteral("-" + (NatToString(m) + rest)) == Some((Int(-(m as int)), rest))
  {
    var body := NatToString(m) + rest;
    var t := "-" + body;
    assert t[0] == '-' && t[1..] == body;
    DigitsPrefix(m, rest);
  }

  /** The digits of a number, followed by a non-digit, are read as exactly
      that number. */
  lemma DigitsPrefix(m: nat, rest: string)
    requires rest == "" || !IsDigit(rest[0])
    ensures LeadCount(NatToString(m) + rest, IsDigit) == |NatToString(m)|
    ensures (NatToString(m) + rest)[..|NatToString(m)|] == NatToString(m)
    ensures (NatToString(m) + rest)[|NatToString(m)|..] == rest
    ensures DigitsValue(NatToString(m)) == m
  {
    DigitRun(NatToString(m), rest);
    NatToStringValue(m);
  }

  lemma {:induction false} DigitRun(s: string, rest: string)
    requires AllDigits(s)
    requires rest == "" || !IsDigit(rest[0])
    ensures LeadCount(s + rest, IsDigit) == |s|
    decreases |s|
  {
    if |s| > 0 {
      assert (s + rest)[1..] == s[1..] + rest;
      DigitRun(s[1..], rest);
    } else {
      assert s + rest == rest;
    }
  }
}

=== FILE: mc_setup.dfy ===
/** The version logic of the Minecraft server set-up scripts
    (`minecraft_server/mcsetup.py` and the older `mcsetup.py`): the version
    index with release ordinals, the choice of Java runtime and Log4j patch
    by ordinal thresholds, the patch files that get a configuration symlink,
    and the on-existing-file mode. Downloads and the filesystem are left to
    the caller; a release time is an already-parsed comparable number. */
module McSetup {
  import opened Wrappers

  // ---------------------------------------------------------------------
  // Version index

  /** An entry of Mojang's version list. */
  datatype Version = Version(id: string, releaseTime: int, url: string)

  /** An entry of the index the scripts keep: the version's data without its
      id, plus its ordinal. */
  datatype IndexEntry = IndexEntry(releaseTime: int, url: string, ordinal: nat)

  predicate SortedByTime(s: seq<Version>) {
    forall i, j :: 0 <= i < j < |s| ==> s[i].releaseTime <= s[j].releaseTime
  }

  /** The versions released at time `t`, in their order in `s`. */
  function At(s: seq<Version>, t: int): seq<Version> {
    if |s| == 0 then []
    else (if s[0].releaseTime == t then [s[0]] else []) + At(s[1..], t)
  }

  /** Puts `x` in front of the first entry released no earlier than it. */
  function Insert(x: Version, s: seq<Version>): (r: seq<Version>)
    requires SortedByTime(s)
    ensures |r| == |s| + 1
    ensures r[0] == x || (|s| > 0 && r[0] == s[0])
    ensures SortedByTime(r)
  {
    if |s| == 0 || x.releaseTime <= s[0].releaseTime then [x] + s
    else [s[0]] + Insert(x, s[1..])
  }

  lemma AtCons(v: Version, s: seq<Version>, t: int)
    ensures At([v] + s, t) == (if v.releaseTime == t then [v] else []) + At(s, t)
  {
    assert ([v] + s)[1..] == s;
  }

  lemma {:induction false} InsertCounts(x: Version, s: seq<Version>)
    requires SortedByTime(s)
    ensures multiset(Insert(x, s)) == multiset(s) + multiset{x}
  {
    if |s| == 0 || x.releaseTime <= s[0].releaseTime {
    } else {
      InsertCounts(x, s[1..]);
      assert s == [s[0]] + s[1..];
    }
  }

  lemma {:induction false} InsertAt(x: Version, s: seq<Version>, t: int)
    requires SortedByTime(s)
    ensures At(Insert(x, s), t) == if t == x.releaseTime then [x] + At(s, t) else At(s, t)
  {
    if |s| == 0 || x.releaseTime <= s[0].releaseTime {
      AtCons(x, s, t);
    } else {
      InsertAt(x, s[1..], t);
      AtCons(s[0], s[1..], t);
      AtCons(s[0], Insert(x, s[1..]), t);
      assert s == [s[0]] + s[1..];
    }
  }

  /** `list.sort(key=releaseTime)`: sorted by release time, and stable:
      versions released at the same time keep their order. */
  function SortByTime(s: seq<Version>): (r: seq<Version>)
    ensures SortedByTime(r)
    ensures multiset(r) == multiset(s)
    ensures forall t :: At(r, t) == At(s, t)
  {
    if |s| == 0 then []
    else
      var rest := SortByTime(s[1..]);
      InsertStep(s, rest);
      Insert(s[0], rest)
  }

  /** Inserting the head into the sorted tail keeps the versions and their
      order within each release time. */
  lemma InsertStep(s: seq<Version>, rest: seq<Version>)
    requires |s| > 0 && SortedByTime(rest)
    requires multiset(rest) == multiset(s[1..])
    requires forall t :: At(rest, t) == At(s[1..], t)
    ensures multiset(Insert(s[0], rest)) == multiset(s)
    ensures forall t :: At(Insert(s[0], rest), t) == At(s, t)
  {
    InsertCounts(s[0], rest);
    HeadTail(s);
    forall t
      ensures At(Insert(s[0], rest), t) == At(s, t)
    {
      InsertStepAt(s, rest, t);
    }
  }

  lemma HeadTail(s: seq<Version>)
    requires |s| > 0
    ensures s == [s[0]] + s[1..]
  {
  }

  lemma InsertStepAt(s: seq<Version>, rest: seq<Version>, t: int)
    requires |s| > 0 && SortedByTime(rest)
    requires At(rest, t) == At(s[1..], t)
    ensures At(Insert(s[0], rest), t) == At(s, t)
  {
    InsertAt(s[0], rest, t);
    AtCons(s[0], s[1..], t);
    HeadTail(s);
  }

  predicate HasId(s: seq<Version>, id: string) {
    exists i :: 0 <= i < |s| && s[i].id == id
  }

  predicate DistinctIds(s: seq<Version>) {
    forall i, j :: 0 <= i < j < |s| ==> s[i].id != s[j].id
  }

  /** Adds the sorted versions from position `from` on, each under its id with
      its position as ordinal; a later entry with the same id replaces an
      earlier one, as dict assignment does. */
  function AddEntries(index: map<string, IndexEntry>, sorted: seq<Version>, from: nat): (r: map<string, IndexEntry>)
    requires from <= |sorted|
    ensures forall id :: id in r <==> id in index || exists i :: from <= i < |sorted| && sorted[i].id == id
    ensures forall id :: id in index && (forall i :: from <= i < |sorted| ==> sorted[i].id != id) ==>
      id in r && r[id] == index[id]
    ensures DistinctIds(sorted) ==> forall i :: from <= i < |sorted| ==>
      sorted[i].id in r && r[sorted[i].id] == IndexEntry(sorted[i].releaseTime, sorted[i].url, i)
    decreases |sorted| - from
  {
    if from == |sorted| then index
    else
      var v := sorted[from];
      AddEntries(index[v.id := IndexEntry(v.releaseTime, v.url, from)], sorted, from + 1)
  }

  /** The `versions` table of `download_version_index`: the list sorted by
      release time, each entry keyed by its id with its sort position as
      ordinal. */
  function VersionIndex(versions: seq<Version>): (r: map<string, IndexEntry>)
    ensures forall id :: id in r <==> HasId(versions, id)
  {
    var sorted := SortByTime(versions);
    var r := AddEntries(map[], sorted, 0);
    forall id
      ensures HasId(sorted, id) <==> HasId(versions, id)
    {
      if HasId(sorted, id) {
        var i :| 0 <= i < |sorted| && sorted[i].id == id;
        assert sorted[i] in multiset(versions);
        var j :| 0 <= j < |versions| && versions[j] == sorted[i];
      }
      if HasId(versions, id) {
        var i :| 0 <= i < |versions| && versions[i].id == id;
        assert versions[i] in multiset(sorted);
        var j :| 0 <= j < |sorted| && sorted[j] == versions[i];
      }
    }
    r
  }

  /** With distinct ids, ordinals follow release order: a version with a
      smaller ordinal was not released later. */
  lemma OrdinalsFollowRelease(versions: seq<Version>, a: string, b: string)
    requires DistinctIds(SortByTime(versions))
    requires a in VersionIndex(versions) && b in VersionIndex(versions)
    requires VersionIndex(versions)[a].ordinal < VersionIndex(versions)[b].ordinal
    ensures VersionIndex(versions)[a].releaseTime <= VersionIndex(versions)[b].releaseTime
  {
    var sorted := SortByTime(versions);
    var idx := VersionIndex(versions);
    var i :| 0 <= i < |sorted| && sorted[i].id == a;
    var j :| 0 <= j < |sorted| && sorted[j].id == b;
    assert idx[a] == IndexEntry(sorted[i].releaseTime, sorted[i].url, i);
    assert idx[b] == IndexEntry(sorted[j].releaseTime, sorted[j].url, j);
  }

  // ---------------------------------------------------------------------
  // Traits

  /** The ordinals of the versions the thresholds are stated in. */
  datatype Thresholds = Thresholds(
    v1_7: int, v1_12: int, v1_16_5: int, v1_17: int, v1_17_1: int, v1_18_1: int, v1_21: int)

  /** The thresholds the context looks up; a missing version raises. The
      older script (`newer` false) does not look up 1.21 and never reads
      `v1_21`, which is then 0. */
  function ContextThresholds(index: map<string, IndexEntry>, newer: bool): (r: Result<Thresholds>)
    ensures r.Ok? <==> ("1.7" in index && "1.12" in index && "1.16.5" in index && "1.17" in index
      && "1.17.1" in index && "1.18.1" in index && (newer ==> "1.21" in index))
    ensures r.Ok? ==> r.value.v1_7 == index["1.7"].ordinal && r.value.v1_17 == index["1.17"].ordinal
    ensures r.Ok? && newer ==> r.value.v1_21 == index["1.21"].ordinal
  {
    var a :- Get(index, "1.7");
    var b :- Get(index, "1.12");
    var c :- Get(index, "1.16.5");
    var d :- Get(index, "1.17");
    var e :- Get(index, "1.17.1");
    var f :- Get(index, "1.18.1");
    var g :- if newer then Get(index, "1.21") else Ok(0);
    Ok(Thresholds(a, b, c, d, e, f, g))
  }

  function Get(index: map<string, IndexEntry>, id: string): (r: Result<nat>)
    ensures r.Ok? <==> id in index
    ensures r.Ok? ==> r.value == index[id].ordinal
  {
    if id in index then Ok(index[id].ordinal) else Err("KeyError")
  }

  /** The thresholds both scripts read lie in release order; the older
      script's context stops at 1.18.1. */
  predicate InReleaseOrderRoot(t: Thresholds) {
    t.v1_7 <= t.v1_12 <= t.v1_16_5 <= t.v1_17 <= t.v1_17_1 <= t.v1_18_1
  }

  /** All thresholds of the newer script lie in release order. */
  predicate InReleaseOrder(t: Thresholds) {
    InReleaseOrderRoot(t) && t.v1_18_1 <= t.v1_21
  }

  datatype Java = Java8 | Java16 | Java17 | Java21

  function Level(j: Java): nat {
    match j
    case Java8 => 8
    case Java16 => 16
    case Java17 => 17
    case Java21 => 21
  }

  /** The `JavaVersion` values: the runtime's path. */
  function JavaExe(j: Java): string {
    match j
    case Java8 => "/usr/lib/jvm/java-8-openjdk/bin/java"
    case Java16 => "/usr/lib/jvm/java-16-openjdk/bin/java"
    case Java17 => "/usr/lib/jvm/java-17-openjdk/bin/java"
    case Java21 => "/usr/lib/jvm/java-21-openjdk/bin/java"
  }

  /** The Java runtime for a version ordinal: 21 from 1.21, 17 from 1.17.1,
      16 from 1.16.5, 8 before. */
  function JavaFor(t: Thresholds, idx: int): (r: Java)
    ensures idx >= t.v1_21 ==> r == Java21
    ensures idx < t.v1_21 && idx >= t.v1_17_1 ==> r == Java17
    ensures idx < t.v1_21 && idx < t.v1_17_1 && idx >= t.v1_16_5 ==> r == Java16
    ensures idx < t.v1_21 && idx < t.v1_17_1 && idx < t.v1_16_5 ==> r == Java8
  {
    if idx >= t.v1_21 then Java21
    else if idx >= t.v1_17_1 then Java17
    else if idx >= t.v1_16_5 then Java16
    else Java8
  }

  /** A later version never gets an older Java. */
  lemma JavaMonotone(t: Thresholds, a: int, b: int)
    requires InReleaseOrder(t) && a <= b
    ensures Level(JavaFor(t, a)) <= Level(JavaFor(t, b))
  {
  }

  /** The older script's choice: the same without the 1.21 step. */
  function JavaForRoot(t: Thresholds, idx: int): (r: Java)
    ensures r != Java21
    ensures idx < t.v1_21 ==> r == JavaFor(t, idx)
    ensures r == JavaFor(t.(v1_21 := idx + 1), idx)
  {
    if idx >= t.v1_17_1 then Java17
    else if idx >= t.v1_16_5 then Java16
    else Java8
  }

  lemma JavaRootMonotone(t: Thresholds, a: int, b: int)
    requires InReleaseOrderRoot(t) && a <= b
    ensures Level(JavaForRoot(t, a)) <= Level(JavaForRoot(t, b))
  {
  }

  datatype Log4jPatch = NoPatch | Log4j17To111 | Log4j112To116 | MsgNoLookups

  const ConfigFileFlag := "-Dlog4j.configurationFile="

  /** The `Log4jPatch` values: the extra JVM flag. */
  function PatchFlag(p: Log4jPatch): (r: string)
    ensures r == "" <==> p == NoPatch
  {
    match p
    case NoPatch => ""
    case Log4j17To111 => ConfigFileFlag + "log4j2_17-111.xml"
    case Log4j112To116 => ConfigFileFlag + "log4j2_112-116.xml"
    case MsgNoLookups => "-Dlog4j2.formatMsgNoLookups=true"
  }

  /** The Log4j mitigation for a version ordinal: none from 1.18.1, the
      no-lookups flag from 1.17, the 1.12–1.16 configuration from 1.12, the
      1.7–1.11 configuration from 1.7, none before. */
  function Log4jFor(t: Thresholds, idx: int): (r: Log4jPatch)
    ensures idx >= t.v1_18_1 ==> r == NoPatch
    ensures InReleaseOrderRoot(t) ==> (r == MsgNoLookups <==> t.v1_17 <= idx < t.v1_18_1)
    ensures InReleaseOrderRoot(t) ==> (r == Log4j112To116 <==> t.v1_12 <= idx < t.v1_17)
    ensures InReleaseOrderRoot(t) ==> (r == Log4j17To111 <==> t.v1_7 <= idx < t.v1_12)
    ensures InReleaseOrderRoot(t) ==> (r == NoPatch <==> idx < t.v1_7 || idx >= t.v1_18_1)
  {
    if idx >= t.v1_18_1 then NoPatch
    else if idx >= t.v1_17 then MsgNoLookups
    else if idx >= t.v1_12 then Log4j112To116
    else if idx >= t.v1_7 then Log4j17To111
    else NoPatch
  }

  /** The traits of `compute_mc_version_traits`. */
  datatype Traits = Traits(java: Java, log4j: Log4jPatch)

  /** `compute_mc_version_traits`: a version missing from the index raises. */
  function ComputeTraits(index: map<string, IndexEntry>, t: Thresholds, version: string): (r: Result<Traits>)
    ensures r.Ok? <==> version in index
    ensures r.Ok? ==> r.value == Traits(JavaFor(t, index[version].ordinal), Log4jFor(t, index[version].ordinal))
  {
    var idx :- Get(index, version);
    Ok(Traits(JavaFor(t, idx), Log4jFor(t, idx)))
  }

  /** The older script's Log4j choice as written: below 1.17 it reads
      `mc_1_12_ordinal` as a module-level name, which does not exist, so the
      call raises `NameError`. */
  function Log4jForRootAsWritten(t: Thresholds, idx: int): (r: Result<Log4jPatch>)
    ensures r.Ok? <==> idx >= t.v1_17 || idx >= t.v1_18_1
    ensures r.Ok? ==> r.value == Log4jFor(t, idx)
  {
    if idx >= t.v1_18_1 then Ok(NoPatch)
    else if idx >= t.v1_17 then Ok(MsgNoLookups)
    else Err("NameError: name 'mc_1_12_ordinal' is not defined")
  }

  /** Setting up any version before 1.17 fails in the older script, although
      these are exactly the versions its patch files exist for. */
  lemma RootLog4jFailsBeforeV117(t: Thresholds, idx: int)
    requires InReleaseOrderRoot(t) && t.v1_12 <= idx < t.v1_17
    ensures Log4jForRootAsWritten(t, idx).Err?
    ensures Log4jFor(t, idx) == Log4j112To116
  {
  }

  // ---------------------------------------------------------------------
  // do_setup / do_grab decisions

  /** The configuration file a patch needs linked into the server directory;
      only the two configuration-file patches have one. */
  function PatchFile(p: Log4jPatch): (r: Option<string>)
    ensures r.Some? <==> p == Log4j17To111 || p == Log4j112To116
    ensures r.Some? ==> PatchFlag(p) == ConfigFileFlag + r.value
  {
    match p
    case Log4j17To111 => Some("log4j2_17-111.xml")
    case Log4j112To116 => Some("log4j2_112-116.xml")
    case _ => None
  }

  datatype OnExist = Overwrite | Ignore

  /** The `--on-existing-file` choice: `bail` aborts when a target file
      already exists (and otherwise writes as `ignore` does), `overwrite`
      overwrites, anything else ignores. */
  function OnExistMode(arg: string, targetExists: bool): (r: Result<OnExist>)
    ensures arg == "bail" && targetExists ==> r.Err?
    ensures r.Err? ==> arg == "bail" && targetExists
    ensures r.Ok? ==> (r.value == Overwrite <==> arg == "overwrite")
  {
    if arg == "bail" && targetExists then Err("File already exists, bailing.")
    else if arg == "overwrite" then Ok(Overwrite)
    else Ok(Ignore)
  }

  /** What `do_setup` writes: the start script's runtime and JVM flags, the
      mode every write uses, and the patch file to link, if any. */
  datatype Setup = Setup(javaExe: string, jvmFlags: string, mode: OnExist, link: Option<string>)

  /** `do_setup` of the newer script. The traits are computed before the
      existing files are looked at, so an unknown version fails even when
      `bail` would have; `anyTargetExists` says whether `eula.txt` or
      `startserver.sh` is already in the output directory. */
  function DoSetup(index: map<string, IndexEntry>, t: Thresholds, version: string,
                   onExisting: string, anyTargetExists: bool): (r: Result<Setup>)
    ensures r.Ok? <==> version in index && !(onExisting == "bail" && anyTargetExists)
    ensures r.Ok? && InReleaseOrderRoot(t) ==>
      (r.value.link.Some? <==> t.v1_7 <= index[version].ordinal < t.v1_17)
    ensures r.Ok? ==> r.value.javaExe == JavaExe(JavaFor(t, index[version].ordinal))
    ensures r.Ok? ==> r.value.jvmFlags == PatchFlag(Log4jFor(t, index[version].ordinal))
    ensures r.Ok? ==> r.value.link == PatchFile(Log4jFor(t, index[version].ordinal))
    ensures r.Ok? ==> (r.value.mode == Overwrite <==> onExisting == "overwrite")
  {
    var traits :- ComputeTraits(index, t, version);
    var mode :- OnExistMode(onExisting, anyTargetExists);
    Ok(Setup(JavaExe(traits.java), PatchFlag(traits.log4j), mode, PatchFile(traits.log4j)))
  }

  /** `do_grab`: the mode for the `server.jar` it links or copies. */
  function DoGrab(onExisting: string, jarExists: bool): (r: Result<OnExist>)
    ensures r.Err? <==> onExisting == "bail" && jarExists
    ensures r.Ok? ==> r.value == (if onExisting == "overwrite" then Overwrite else Ignore)
  {
    OnExistMode(onExisting, jarExists)
  }

  /** The older script's `compute_mc_version_traits` as written. */
  function ComputeTraitsRootAsWritten(index: map<string, IndexEntry>, t: Thresholds, version: string): (r: Result<Traits>)
    ensures r.Ok? <==> version in index && (index[version].ordinal >= t.v1_17 || index[version].ordinal >= t.v1_18_1)
    ensures r.Ok? ==> r.value.java == JavaForRoot(t, index[version].ordinal)
  {
    var idx :- Get(index, version);
    var log4j :- Log4jForRootAsWritten(t, idx);
    Ok(Traits(JavaForRoot(t, idx), log4j))
  }

  /** The older script's `compute_mc_version_traits` with the Log4j choice
      corrected: it agrees with the newer script up to the 1.21 runtime. */
  function ComputeTraitsRoot(index: map<string, IndexEntry>, t: Thresholds, version: string): (r: Result<Traits>)
    ensures r.Ok? <==> version in index
    ensures r.Ok? ==> r.value.log4j == ComputeTraits(index, t, version).value.log4j
    ensures r.Ok? && index[version].ordinal < t.v1_21 ==> r.value == ComputeTraits(index, t, version).value
    ensures r.Ok? ==> r.value == ComputeTraits(index, t.(v1_21 := index[version].ordinal + 1), version).value
  {
    var idx :- Get(index, version);
    Ok(Traits(JavaForRoot(t, idx), Log4jFor(t, idx)))
  }

  /** The older script's `do_setup` decision as written: which patch file to
      link. The traits raise below 1.17, and from 1.17 on no patch needs a
      file, so as written it never links one. */
  function DoSetupRoot(index: map<string, IndexEntry>, t: Thresholds, version: string): (r: Result<Option<string>>)
    ensures InReleaseOrderRoot(t) ==> (r.Ok? <==> version in index && index[version].ordinal >= t.v1_17)
    ensures r.Ok? ==> r.value.None?
  {
    var traits :- ComputeTraitsRootAsWritten(index, t, version);
    Ok(PatchFile(traits.log4j))
  }

  /** The older script's `do_setup` decision with the traits corrected: a
      known version links the file its Log4j rule calls for. */
  function DoSetupRootFixed(index: map<string, IndexEntry>, t: Thresholds, version: string): (r: Result<Option<string>>)
    ensures r.Ok? <==> version in index
    ensures r.Ok? && InReleaseOrderRoot(t) ==>
      (r.value.Some? <==> t.v1_7 <= index[version].ordinal < t.v1_17)
    ensures r.Ok? ==> r.value == PatchFile(Log4jFor(t, index[version].ordinal))
  {
    var traits :- ComputeTraitsRoot(index, t, version);
    Ok(PatchFile(traits.log4j))
  }

  /** As written, the older script links no patch file for a version in
      [1.7, 1.17), where the corrected one does; it raises instead. */
  lemma RootSetupLinksNothing(index: map<string, IndexEntry>, t: Thresholds, version: string)
    requires InReleaseOrderRoot(t) && version in index
    requires t.v1_7 <= index[version].ordinal < t.v1_17
    ensures DoSetupRoot(index, t, version).Err?
    ensures DoSetupRootFixed(index, t, version).Ok? && DoSetupRootFixed(index, t, version).value.Some?
  {
  }

  /** With the correction every version from 1.7 up to 1.18.1 that the index
      knows gets a mitigation. */
  lemma RootTraitsCover(index: map<string, IndexEntry>, t: Thresholds, version: string)
    requires InReleaseOrderRoot(t) && version in index
    requires t.v1_7 <= index[version].ordinal < t.v1_18_1
    ensures ComputeTraitsRoot(index, t, version).Ok?
    ensures ComputeTraitsRoot(index, t, version).value.log4j != NoPatch
  {
  }
}

=== FILE: music_job.dfy ===
/** The job language of the music splicer (`process_music/process_music.py`,
    and the same parser in dict form in `process_music.py`): a job file is
    read line by line into a list of jobs, each with a url, chunks and tag
    operations. The parser is a fold over the lines with an explicit state. */
module MusicJob {
  import opened Wrappers
  import opened Text
  import MyUtil

  // ---------------------------------------------------------------------
  // Data

  /** The end of a chunk: a time in seconds, or one of the two sentinels that
      later passes resolve. */
  datatype EndTime = Secs(t: real) | NextChunk | VideoLength

  /** A pending tag write: `name` is set to `value` (or the macro it names). */
  datatype TagOp = TagOp(name: string, value: string)

  datatype Chunk = Chunk(
    beginTime: real,
    endTime: EndTime,
    chunkName: string,
    tagOps: seq<TagOp>,
    outBasename: Option<string>)

  datatype Job = Job(
    url: string,
    chunkByChapter: bool,
    prefix: Option<string>,
    suffix: Option<string>,
    tagOps: seq<TagOp>,
    chunks: seq<Chunk>)

  const NewJob: Job := Job("", false, None, None, [], [])

  // ---------------------------------------------------------------------
  // Values and times

  predicate IsQuote(c: char) {
    c == '"' || c == '\''
  }

  /** A stripped value wrapped in a pair of the same quote character. */
  predicate Quoted(t: string) {
    |t| >= 1 && IsQuote(t[0]) && t[|t| - 1] == t[0]
  }

  /** Python `t[1:-1]`. */
  function Inner(t: string): (r: string)
    ensures |t| >= 2 ==> t == [t[0]] + r + [t[|t| - 1]]
  {
    if |t| >= 2 then t[1..|t| - 1] else ""
  }

  /** `parse_value`: empty input is the empty value; otherwise the stripped
      text with one layer of matching quotes removed. Text that strips to
      nothing fails on `s[0]`. */
  function ParseValue(s: string): (r: Result<string>)
    ensures s == "" ==> r == Ok("")
    ensures r.Err? <==> s != "" && Strip(s) == ""
    ensures r.Ok? && s != "" && Quoted(Strip(s)) ==> r.value == Inner(Strip(s))
    ensures r.Ok? && !Quoted(Strip(s)) ==> r.value == Strip(s)
  {
    if s == "" then Ok("")
    else
      var t := Strip(s);
      if t == "" then Err("string index out of range")
      else if Quoted(t) then Ok(Inner(t))
      else Ok(t)
  }

  /** A value written in quotes reads back as exactly the quoted text,
      whatever it contains. */
  lemma ParseValueQuoted(q: char, x: string)
    requires IsQuote(q)
    ensures ParseValue([q] + x + [q]) == Ok(x)
  {
    var s := [q] + x + [q];
    assert !IsSpace(s[0]) && !IsSpace(s[|s| - 1]);
    TrimByNoop(s, IsSpace);
    assert Inner(s) == x;
  }

  /** An unquoted value with nothing to strip reads back unchanged; quotes
      that do not match (`"x'`) are kept. */
  lemma ParseValueBare(x: string)
    requires x != "" && !IsSpace(x[0]) && !IsSpace(x[|x| - 1])
    requires !Quoted(x)
    ensures ParseValue(x) == Ok(x)
  {
    TrimByNoop(x, IsSpace);
  }

  /** `parse_unresolved_time`: the two sentinels are kept, anything else is
      an H:M:S time. */
  function ParseUnresolvedTime(s: string): (r: Result<EndTime>)
    ensures s == "NEXTCHUNK" ==> r == Ok(NextChunk)
    ensures s == "VIDEOLENGTH" ==> r == Ok(VideoLength)
    ensures s != "NEXTCHUNK" && s != "VIDEOLENGTH" ==>
      (r.Ok? <==> MyUtil.StrParseHms(s).Ok?) && (r.Ok? ==> r.value == Secs(MyUtil.StrParseHms(s).value))
  {
    if s == "NEXTCHUNK" then Ok(NextChunk)
    else if s == "VIDEOLENGTH" then Ok(VideoLength)
    else
      var t :- MyUtil.StrParseHms(s);
      Ok(Secs(t))
  }

  // ---------------------------------------------------------------------
  // Lines

  /** The scope a leading indicator character selects for a `tag(` line. */
  datatype Scope = Unscoped | WholeJob | PreviousChunk | Section

  function ScopeOf(c: char): (r: Scope)
    ensures r == Unscoped <==> c != 'X' && c != '^' && c != 'S'
  {
    if c == 'X' then WholeJob
    else if c == '^' then PreviousChunk
    else if c == 'S' then Section
    else Unscoped
  }

  /** `parse_line_with_prefix` as the walrus conditions use it: the text
      after `prefix`, when the line starts with it and that text is not
      empty (an empty string is false and the branch is not taken). */
  function Matched(line: string, prefix: string): (r: Option<string>)
    ensures r.Some? <==> prefix <= line && |line| > |prefix|
    ensures r.Some? ==> line == prefix + r.value && r.value != ""
  {
    if prefix <= line && |line| > |prefix| then Some(line[|prefix|..]) else None
  }

  /** Which branch of the directive chain a line (its scope character
      removed) takes. */
  datatype LineKind =
    | UrlLine(text: string)
    | ChunkLine(text: string)
    | ChapterFlag
    | ExtensionLine
    | PrefixLine(text: string)
    | SuffixLine(text: string)
    | SectionBreak
    | TagLine(text: string)
    | Separator
    | Other

  /** The `if`/`elif` chain of `parse_input_file`, in its order. */
  function Classify(l: string): (r: LineKind)
    ensures r.UrlLine? ==> Matched(l, "url: ") == Some(r.text)
    ensures r.ChunkLine? ==> Matched(l, "chunk: ") == Some(r.text)
    ensures r.TagLine? ==> Matched(l, "tag(") == Some(r.text)
    ensures r.Separator? ==> "---" <= l
    ensures Matched(l, "url: ").Some? ==> r.UrlLine?
  {
    if Matched(l, "url: ").Some? then UrlLine(Matched(l, "url: ").value)
    else if Matched(l, "chunk: ").Some? then ChunkLine(Matched(l, "chunk: ").value)
    else if "chunk_by_chapter: true" <= l then ChapterFlag
    else if Matched(l, "use_file_extension: ").Some? then ExtensionLine
    else if Matched(l, "prefix: ").Some? then PrefixLine(Matched(l, "prefix: ").value)
    else if Matched(l, "suffix: ").Some? then SuffixLine(Matched(l, "suffix: ").value)
    else if "$$--SECTION BREAK--$$" <= l then SectionBreak
    else if Matched(l, "tag(").Some? then TagLine(Matched(l, "tag(").value)
    else if "---" <= l then Separator
    else Other
  }

  /** A directive with nothing after its prefix is not taken. Lines keep their
      line terminator, so this happens only for an unterminated last line:
      `url: ` at the very end of the file changes nothing. */
  lemma EmptyDirectiveFallsThrough()
    ensures Classify("url: ") == Other
    ensures Classify("tag(") == Other
  {
    var u := "url: ";
    assert !("tag(" <= u) by { assert u[0] != 't'; }
    assert !("---" <= u) by { assert u[0] != '-'; }
    var t := "tag(";
    assert !("url: " <= t) && !("chunk: " <= t) && !("use_file_extension: " <= t);
    assert !("---" <= t) by { assert t[0] != '-'; }
  }

  /** A `url: ` line with anything after the prefix, a line terminator
      included, is a url directive. It sets the url to the stripped rest, so
      `url: ` followed only by whitespace and its newline clears the url. */
  lemma TerminatedUrlLine(st: ParserState, t: string)
    requires t != ""
    ensures Classify("url: " + t) == UrlLine(t)
    ensures Step(st, "url: " + t) == Ok(st.(current := st.current.(url := Strip(t))))
    ensures (forall i :: 0 <= i < |t| ==> IsSpace(t[i])) ==> Step(st, "url: " + t) == Ok(st.(current := st.current.(url := "")))
  {
  }

  /** The chunk of a `chunk:` line: the stripped text split on single spaces
      at most twice must give exactly three fields, a begin time, an end time
      or sentinel, and the name. */
  function ChunkOf(text: string): (r: Result<Chunk>)
    ensures |SplitMax(Strip(text), ' ', 2)| != 3 ==> r.Err?
    ensures r.Ok? <==> (|SplitMax(Strip(text), ' ', 2)| == 3
      && MyUtil.StrParseHms(SplitMax(Strip(text), ' ', 2)[0]).Ok?
      && ParseUnresolvedTime(SplitMax(Strip(text), ' ', 2)[1]).Ok?
      && ParseValue(SplitMax(Strip(text), ' ', 2)[2]).Ok?)
    ensures r.Ok? ==> r.value.beginTime == MyUtil.StrParseHms(SplitMax(Strip(text), ' ', 2)[0]).value
    ensures r.Ok? ==> r.value.endTime == ParseUnresolvedTime(SplitMax(Strip(text), ' ', 2)[1]).value
    ensures r.Ok? ==> r.value.chunkName == ParseValue(SplitMax(Strip(text), ' ', 2)[2]).value
    ensures r.Ok? ==> r.value.tagOps == [] && r.value.outBasename == None
  {
    var tp := SplitMax(Strip(text), ' ', 2);
    if |tp| != 3 then Err("chunk string need exactly 3 components")
    else
      var begin :- MyUtil.StrParseHms(tp[0]);
      var end :- ParseUnresolvedTime(tp[1]);
      var name :- ParseValue(tp[2]);
      Ok(Chunk(begin, end, name, [], None))
  }

  /** A `chunk:` line written as `BEGIN END "NAME"` reads back field by
      field; the name keeps its inner spaces. */
  lemma ChunkOfFields(b: string, e: string, name: string)
    requires b != "" && ' ' !in b && ' ' !in e && !IsSpace(b[0])
    requires MyUtil.StrParseHms(b).Ok? && ParseUnresolvedTime(e).Ok?
    ensures ChunkOf(b + " " + e + " \"" + name + "\"")
      == Ok(Chunk(MyUtil.StrParseHms(b).value, ParseUnresolvedTime(e).value, name, [], None))
  {
    var q := "\"" + name + "\"";
    var text := b + " " + e + " " + q;
    QuoteAssoc(b + " " + e, name);
    ChunkTextStripped(b, e, name);
    SplitMax3(b, e, q);
    QuotedName(name);
    ChunkOfParts(text, b, e, q);
  }

  lemma QuoteAssoc(p: string, name: string)
    ensures p + " \"" + name + "\"" == p + " " + ("\"" + name + "\"")
  {
  }

  lemma ChunkTextStripped(b: string, e: string, name: string)
    requires b != "" && !IsSpace(b[0])
    ensures var text := b + " " + e + " " + ("\"" + name + "\""); Strip(text) == text
  {
    var text := b + " " + e + " " + ("\"" + name + "\"");
    assert text[0] == b[0] && text[|text| - 1] == '"';
    TrimByNoop(text, IsSpace);
  }

  lemma QuotedName(name: string)
    ensures ParseValue("\"" + name + "\"") == Ok(name)
  {
    ParseValueQuoted('"', name);
    assert "\"" + name + "\"" == ['"'] + name + ['"'];
  }

  /** `ChunkOf` on a line whose three fields are already known. */
  lemma ChunkOfParts(text: string, b: string, e: string, q: string)
    requires SplitMax(Strip(text), ' ', 2) == [b, e, q]
    requires MyUtil.StrParseHms(b).Ok? && ParseUnresolvedTime(e).Ok? && ParseValue(q).Ok?
    ensures ChunkOf(text)
      == Ok(Chunk(MyUtil.StrParseHms(b).value, ParseUnresolvedTime(e).value, ParseValue(q).value, [], None))
  {
  }

  lemma SplitMax3(b: string, e: string, rest: string)
    requires ' ' !in b && ' ' !in e
    ensures SplitMax(b + " " + e + " " + rest, ' ', 2) == [b, e, rest]
  {
    var s := b + " " + e + " " + rest;
    var s1 := e + " " + rest;
    assert s == b + " " + s1;
    assert s[..|b|] == b;
    FindCharIs(s, ' ', |b|);
    assert s[|b| + 1..] == s1;
    assert s1[..|e|] == e;
    FindCharIs(s1, ' ', |e|);
    assert s1[|e| + 1..] == rest;
  }

  // ---------------------------------------------------------------------
  // Tag operations

  /** One operation per name, all with the same value. */
  function Ops(names: seq<string>, value: string): (r: seq<TagOp>)
    ensures |r| == |names| && forall i :: 0 <= i < |names| ==> r[i] == TagOp(names[i], value)
  {
    seq(|names|, i requires 0 <= i < |names| => TagOp(names[i], value))
  }

  /** Whether chunk `i` of `n` receives the operations of a line with the
      given scope. */
  predicate InScope(scope: Scope, sectionBeg: nat, n: nat, i: nat) {
    (scope == PreviousChunk && i == n - 1) || (scope == Section && sectionBeg <= i)
  }

  /** Appends `ops` to every tag list the scope selects: the job's own list
      for `X`, the last chunk's for `^` (there must be one), and every chunk
      from the section start on for `S`. A tag line without scope exits. */
  function AddTagOps(job: Job, scope: Scope, sectionBeg: nat, ops: seq<TagOp>): (r: Result<Job>)
    ensures r.Ok? <==> scope == WholeJob || scope == Section || (scope == PreviousChunk && job.chunks != [])
    ensures r.Ok? ==> (r.value.url == job.url && r.value.chunkByChapter == job.chunkByChapter
      && r.value.prefix == job.prefix && r.value.suffix == job.suffix)
    ensures r.Ok? ==> r.value.tagOps == if scope == WholeJob then job.tagOps + ops else job.tagOps
    ensures r.Ok? ==> |r.value.chunks| == |job.chunks|
    ensures r.Ok? ==> forall i :: 0 <= i < |job.chunks| ==>
      r.value.chunks[i] == if InScope(scope, sectionBeg, |job.chunks|, i)
                           then job.chunks[i].(tagOps := job.chunks[i].tagOps + ops)
                           else job.chunks[i]
  {
    match scope
    case WholeJob => Ok(job.(tagOps := job.tagOps + ops))
    case PreviousChunk =>
      if job.chunks == [] then Err("list index out of range")
      else
        var n := |job.chunks|;
        var last := job.chunks[n - 1];
        Ok(job.(chunks := job.chunks[..n - 1] + [last.(tagOps := last.tagOps + ops)]))
    case Section =>
      Ok(job.(chunks := seq(|job.chunks|, i requires 0 <= i < |job.chunks| =>
        if sectionBeg <= i then job.chunks[i].(tagOps := job.chunks[i].tagOps + ops) else job.chunks[i])))
    case Unscoped => Err("tag scope not specified")
  }

  // ---------------------------------------------------------------------
  // The fold

  /** The parser's state: the committed jobs, the job being read, and the
      index of the first chunk of the current section. */
  datatype ParserState = ParserState(jobs: seq<Job>, current: Job, sectionBeg: nat)

  const Start: ParserState := ParserState([], NewJob, 0)

  /** What every reachable state satisfies: committed jobs have a url, and
      the section start is within the current job's chunks. */
  predicate Valid(st: ParserState) {
    st.sectionBeg <= |st.current.chunks|
    && forall j :: 0 <= j < |st.jobs| ==> st.jobs[j].url != ""
  }

  /** A line without its scope character, if it has one. */
  function Directive(line: string): (r: string)
    requires line != ""
    ensures ScopeOf(line[0]) == Unscoped ==> r == line
    ensures ScopeOf(line[0]) != Unscoped ==> [line[0]] + r == line
  {
    if ScopeOf(line[0]) == Unscoped then line else line[1..]
  }

  /** The effect of one line. Empty lines and comments are skipped; a leading
      `X`, `^` or `S` is taken off any line and sets the scope. */
  function Step(st: ParserState, line: string): (r: Result<ParserState>)
    ensures Valid(st) && r.Ok? ==> Valid(r.value)
    ensures r.Ok? ==> r.value.jobs == st.jobs || (r.value.jobs == st.jobs + [st.current] && st.current.url != "")
    ensures r.Ok? && r.value.jobs != st.jobs ==> r.value.current == NewJob && r.value.sectionBeg == 0
  {
    if line == "" || line[0] == '#' then Ok(st)
    else
      var job := st.current;
      match Classify(Directive(line))
      case UrlLine(text) => Ok(st.(current := job.(url := Strip(text))))
      case ChunkLine(text) =>
        var c :- ChunkOf(text);
        Ok(st.(current := job.(chunks := job.chunks + [c])))
      case ChapterFlag => Ok(st.(current := job.(chunkByChapter := true)))
      case ExtensionLine => Ok(st)
      case PrefixLine(text) =>
        var v :- ParseValue(text);
        Ok(st.(current := job.(prefix := Some(v))))
      case SuffixLine(text) =>
        var v :- ParseValue(text);
        Ok(st.(current := job.(suffix := Some(v))))
      case SectionBreak => Ok(st.(sectionBeg := |job.chunks|))
      case TagLine(text) => TagStep(st, ScopeOf(line[0]), text)
      case Separator =>
        if job.url != "" then Ok(ParserState(st.jobs + [job], NewJob, 0)) else Ok(st)
      case Other => Ok(st)
  }

  /** The value of a `tag(NAMES): VALUE` line (the text after `tag(`): the
      names before the first `)`, the value after it without a leading `: `. */
  function TagValue(text: string): Result<string> {
    ParseValue(RemovePrefix(Partition(text, ')').1, ": "))
  }

  /** A `tag(` line adds one operation per comma-separated name, all sharing
      the parsed value, to exactly the lists its scope selects; the value is
      parsed before the scope is checked. Nothing else in the state changes. */
  function TagStep(st: ParserState, scope: Scope, text: string): (r: Result<ParserState>)
    ensures r.Ok? <==> (TagValue(text).Ok?
      && AddTagOps(st.current, scope, st.sectionBeg, Ops(Split(Partition(text, ')').0, ','), TagValue(text).value)).Ok?)
    ensures r.Ok? ==> r.value.jobs == st.jobs && r.value.sectionBeg == st.sectionBeg
    ensures r.Ok? ==> (r.value.current
      == AddTagOps(st.current, scope, st.sectionBeg, Ops(Split(Partition(text, ')').0, ','), TagValue(text).value)).value)
  {
    var (names, _) := Partition(text, ')');
    var value :- TagValue(text);
    var tagged :- AddTagOps(st.current, scope, st.sectionBeg, Ops(Split(names, ','), value));
    Ok(st.(current := tagged))
  }

  /** The scope character is taken off every line, not only `tag(` lines:
      any other directive behind `X`, `^` or `S` acts as if unprefixed. */
  lemma ScopeStrippedFromAnyLine(st: ParserState, c: char, l: string)
    requires ScopeOf(c) != Unscoped
    requires l != "" && l[0] != '#' && ScopeOf(l[0]) == Unscoped
    requires !Classify(l).TagLine?
    ensures Step(st, [c] + l) == Step(st, l)
  {
    assert ([c] + l)[1..] == l;
  }

  /** Folds `Step` over the lines; the first failing line aborts. */
  function ParseFrom(st: ParserState, lines: seq<string>): (r: Result<ParserState>)
    ensures Valid(st) && r.Ok? ==> Valid(r.value)
    ensures r.Ok? ==> st.jobs <= r.value.jobs
    decreases |lines|
  {
    if |lines| == 0 then Ok(st)
    else
      var next :- Step(st, lines[0]);
      ParseFrom(next, lines[1..])
  }

  /** `parse_input_file`: the jobs of the file in order. The job being read at
      the end is committed if it has a url. */
  function ParseInputFile(lines: seq<string>): (r: Result<seq<Job>>)
    ensures r.Ok? ==> forall j :: 0 <= j < |r.value| ==> r.value[j].url != ""
  {
    var st :- ParseFrom(Start, lines);
    Ok(if st.current.url != "" then st.jobs + [st.current] else st.jobs)
  }

  /** What each directive does to the state: a url line sets the url to its
      stripped text, a chunk line appends its chunk, the chapter flag, prefix
      and suffix lines set their fields, a section break moves the section
      start to the end of the chunk list, `use_file_extension` and unknown
      lines are ignored. Each changes nothing else. */
  lemma StepEffects(st: ParserState, line: string)
    ensures line == "" || line[0] == '#' ==> Step(st, line) == Ok(st)
    ensures line != "" && line[0] != '#' ==>
      var job := st.current;
      match Classify(Directive(line))
      case UrlLine(text) => Step(st, line) == Ok(st.(current := job.(url := Strip(text))))
      case ChunkLine(text) =>
        (Step(st, line).Ok? <==> ChunkOf(text).Ok?)
        && (ChunkOf(text).Ok? ==> Step(st, line) == Ok(st.(current := job.(chunks := job.chunks + [ChunkOf(text).value]))))
      case ChapterFlag => Step(st, line) == Ok(st.(current := job.(chunkByChapter := true)))
      case ExtensionLine => Step(st, line) == Ok(st)
      case PrefixLine(text) =>
        (Step(st, line).Ok? <==> ParseValue(text).Ok?)
        && (ParseValue(text).Ok? ==> Step(st, line) == Ok(st.(current := job.(prefix := Some(ParseValue(text).value)))))
      case SuffixLine(text) =>
        (Step(st, line).Ok? <==> ParseValue(text).Ok?)
        && (ParseValue(text).Ok? ==> Step(st, line) == Ok(st.(current := job.(suffix := Some(ParseValue(text).value)))))
      case SectionBreak => Step(st, line) == Ok(st.(sectionBeg := |job.chunks|))
      case TagLine(text) => Step(st, line) == TagStep(st, ScopeOf(line[0]), text)
      case Separator => Step(st, line) == Ok(if job.url != "" then ParserState(st.jobs + [job], NewJob, 0) else st)
      case Other => Step(st, line) == Ok(st)
  {
  }

  /** The job still open at the end of the file is committed when it has a
      url and dropped otherwise. */
  lemma FinalJobCommitted(lines: seq<string>)
    ensures ParseInputFile(lines).Ok? <==> ParseFrom(Start, lines).Ok?
    ensures ParseFrom(Start, lines).Ok? && ParseFrom(Start, lines).value.current.url != "" ==>
      ParseInputFile(lines).value == ParseFrom(Start, lines).value.jobs + [ParseFrom(Start, lines).value.current]
    ensures ParseFrom(Start, lines).Ok? && ParseFrom(Start, lines).value.current.url == "" ==>
      ParseInputFile(lines).value == ParseFrom(Start, lines).value.jobs
  {
  }

  /** Commit points: a `---` line ends the current job (when it has a url)
      and starts an empty one with the section reset. */
  lemma SeparatorCommits(st: ParserState, line: string)
    requires "---" <= line
    requires line[0] != '#' && ScopeOf(line[0]) == Unscoped && Classify(line) == Separator
    ensures st.current.url != "" ==> Step(st, line) == Ok(ParserState(st.jobs + [st.current], NewJob, 0))
    ensures st.current.url == "" ==> Step(st, line) == Ok(st)
  {
  }

  /** Jobs come out in file order: parsing a concatenation parses the second
      part from the state the first part ends in. */
  lemma {:induction false} ParseFromAppend(st: ParserState, a: seq<string>, b: seq<string>)
    ensures ParseFrom(st, a + b) == (var mid :- ParseFrom(st, a); ParseFrom(mid, b))
    decreases |a|
  {
    if |a| == 0 {
      assert a + b == b;
    } else {
      assert (a + b)[0] == a[0] && (a + b)[1..] == a[1..] + b;
      match Step(st, a[0])
      case Err(_) =>
      case Ok(next) => ParseFromAppend(next, a[1..], b);
    }
  }
}

=== FILE: music_passes.dfy ===
/** The passes of the music splicer that run after parsing, with the video
    information (chapters, length) and the downloaded file's extension given
    as parameters: `NEXTCHUNK` resolution, chapter chunks and output names,
    the copy-or-trim decision, and the tag macros. Both iterations of the
    script are covered; where the dict version differs it has its own
    member. */
module MusicPasses {
  import opened Wrappers
  import opened Numbers
  import opened MusicJob
  import Roman
  import MyUtil

  // ---------------------------------------------------------------------
  // Pass 1: NEXTCHUNK

  /** The end of chunk `i` once `NEXTCHUNK` is resolved. */
  function ResolvedEnd(chunks: seq<Chunk>, i: nat): EndTime
    requires i < |chunks|
  {
    if chunks[i].endTime != NextChunk then chunks[i].endTime
    else if i + 1 < |chunks| then Secs(chunks[i + 1].beginTime)
    else VideoLength
  }

  /** `pass_postprocess_info` for one job's chunks: a `NEXTCHUNK` end becomes
      the next chunk's begin time, or `VIDEOLENGTH` for the last chunk.
      Nothing else changes. */
  function ResolveNextChunk(chunks: seq<Chunk>): (r: seq<Chunk>)
    ensures |r| == |chunks|
    ensures forall i :: 0 <= i < |r| ==> r[i].endTime != NextChunk
    ensures forall i :: 0 <= i < |r| ==> r[i] == chunks[i].(endTime := r[i].endTime)
    ensures forall i :: 0 <= i < |r| && chunks[i].endTime != NextChunk ==> r[i] == chunks[i]
    ensures forall i :: 0 <= i < |r| - 1 && chunks[i].endTime == NextChunk ==> r[i].endTime == Secs(chunks[i + 1].beginTime)
    ensures |r| > 0 && chunks[|r| - 1].endTime == NextChunk ==> r[|r| - 1].endTime == VideoLength
  {
    seq(|chunks|, i requires 0 <= i < |chunks| => chunks[i].(endTime := ResolvedEnd(chunks, i)))
  }

  /** Resolving twice changes nothing more. */
  lemma ResolveNextChunkIdempotent(chunks: seq<Chunk>)
    ensures ResolveNextChunk(ResolveNextChunk(chunks)) == ResolveNextChunk(chunks)
  {
  }

  /** The pass over all jobs. */
  function PostprocessInfo(jobs: seq<Job>): (r: seq<Job>)
    ensures |r| == |jobs|
    ensures forall j :: 0 <= j < |jobs| ==> r[j] == jobs[j].(chunks := ResolveNextChunk(jobs[j].chunks))
  {
    seq(|jobs|, j requires 0 <= j < |jobs| => jobs[j].(chunks := ResolveNextChunk(jobs[j].chunks)))
  }

  // ---------------------------------------------------------------------
  // Pass 3: output names

  /** `str.format` with the two keyword fields the patterns use: `{index}`
      and `{index_roman}` are replaced, `{{` and `}}` stand for single braces;
      any other use of a brace is an error. */
  function Format(p: string, index: string, roman: string): (r: Result<string>)
    ensures '{' !in p && '}' !in p ==> r == Ok(p)
    decreases |p|
  {
    if p == "" then Ok("")
    else if "{{" <= p then
      assert p[0] == '{';
      var rest :- Format(p[2..], index, roman);
      Ok("{" + rest)
    else if "}}" <= p then
      assert p[0] == '}';
      var rest :- Format(p[2..], index, roman);
      Ok("}" + rest)
    else if "{index}" <= p then
      assert p[0] == '{';
      var rest :- Format(p[7..], index, roman);
      Ok(index + rest)
    else if "{index_roman}" <= p then
      assert p[0] == '{';
      var rest :- Format(p[13..], index, roman);
      Ok(roman + rest)
    else if p[0] == '{' || p[0] == '}' then Err("unsupported replacement field")
    else
      var rest :- Format(p[1..], index, roman);
      assert p == [p[0]] + p[1..];
      Ok([p[0]] + rest)
  }

  /** A pattern as a sequence of pieces: literal characters and the two
      fields. */
  datatype Piece = Char(c: char) | IndexField | RomanField

  /** The pattern text of the pieces, braces doubled. */
  function PatternText(ps: seq<Piece>): string {
    if |ps| == 0 then ""
    else
      var head := match ps[0]
        case Char(c) => if c == '{' then "{{" else if c == '}' then "}}" else [c]
        case IndexField => "{index}"
        case RomanField => "{index_roman}";
      head + PatternText(ps[1..])
  }

  /** What the pieces stand for. */
  function Expand(ps: seq<Piece>, index: string, roman: string): string {
    if |ps| == 0 then ""
    else
      var head := match ps[0]
        case Char(c) => [c]
        case IndexField => index
        case RomanField => roman;
      head + Expand(ps[1..], index, roman)
  }

  /** Formatting a pattern gives what its pieces stand for. */
  lemma {:induction false} FormatExpands(ps: seq<Piece>, index: string, roman: string)
    ensures Format(PatternText(ps), index, roman) == Ok(Expand(ps, index, roman))
    decreases |ps|
  {
    if |ps| > 0 {
      FormatExpands(ps[1..], index, roman);
      var tail := PatternText(ps[1..]);
      var x := Expand(ps[1..], index, roman);
      match ps[0]
      case Char(c) =>
        if c == '{' {
          FormatOpenBrace(tail, index, roman, x);
        } else if c == '}' {
          FormatCloseBrace(tail, index, roman, x);
        } else {
          FormatLiteral(c, tail, index, roman, x);
        }
      case IndexField =>
        FormatIndexField(tail, index, roman, x);
      case RomanField =>
        FormatRomanField(tail, index, roman, x);
    }
  }

  lemma FormatOpenBrace(tail: string, index: string, roman: string, x: string)
    requires Format(tail, index, roman) == Ok(x)
    ensures Format("{{" + tail, index, roman) == Ok("{" + x)
  {
    var p := "{{" + tail;
    assert "{{" <= p;
    assert p[2..] == tail;
  }

  lemma FormatCloseBrace(tail: string, index: string, roman: string, x: string)
    requires Format(tail, index, roman) == Ok(x)
    ensures Format("}}" + tail, index, roman) == Ok("}" + x)
  {
    var p := "}}" + tail;
    assert !("{{" <= p) by { assert p[0] == '}'; }
    assert "}}" <= p;
    assert p[2..] == tail;
  }

  lemma FormatLiteral(c: char, tail: string, index: string, roman: string, x: string)
    requires c != '{' && c != '}'
    requires Format(tail, index, roman) == Ok(x)
    ensures Format([c] + tail, index, roman) == Ok([c] + x)
  {
    var p := [c] + tail;
    assert p[0] == c;
    assert p[1..] == tail;
  }

  lemma FormatIndexField(tail: string, index: string, roman: string, x: string)
    requires Format(tail, index, roman) == Ok(x)
    ensures Format("{index}" + tail, index, roman) == Ok(index + x)
  {
    var p := "{index}" + tail;
    assert !("{{" <= p) by { assert p[1] == 'i'; }
    assert !("}}" <= p) by { assert p[0] == '{'; }
    assert "{index}" <= p;
    assert p[7..] == tail;
  }

  lemma FormatRomanField(tail: string, index: string, roman: string, x: string)
    requires Format(tail, index, roman) == Ok(x)
    ensures Format("{index_roman}" + tail, index, roman) == Ok(roman + x)
  {
    var p := "{index_roman}" + tail;
    assert !("{{" <= p) by { assert p[1] == 'i'; }
    assert !("}}" <= p) by { assert p[0] == '{'; }
    assert !("{index}" <= p) by { assert p[6] == '_'; }
    assert "{index_roman}" <= p;
    assert p[13..] == tail;
  }

  /** `use_pattern(pattern, _, idx)`: the Roman numeral of `idx + 1` is
      computed whether or not the pattern uses it, so from the thirteenth
      chunk on every pattern fails. */
  function UsePattern(pattern: string, idx: nat): (r: Result<string>)
    ensures idx >= 12 ==> r.Err?
    ensures idx < 12 ==> r == Format(pattern, NatToString(idx + 1), [(Roman.UnicodeBase + idx + 1) as char])
  {
    var roman :- Roman.IntToRomanUnicode(idx + 1);
    Format(pattern, NatToString(idx + 1), roman)
  }

  /** The text a prefix or suffix contributes: nothing when it is unset or
      empty. */
  function Affix(p: Option<string>, idx: nat): (r: Result<string>)
    ensures p.None? || p == Some("") ==> r == Ok("")
    ensures p.Some? && p.value != "" ==> r == UsePattern(p.value, idx)
  {
    if p.Some? && p.value != "" then UsePattern(p.value, idx) else Ok("")
  }

  /** The output base name of chunk `idx`: the formatted prefix, the chunk
      name, the formatted suffix. */
  function Basename(job: Job, idx: nat, name: string): (r: Result<string>)
    ensures r.Ok? <==> Affix(job.prefix, idx).Ok? && Affix(job.suffix, idx).Ok?
    ensures r.Ok? ==> r.value == Affix(job.prefix, idx).value + name + Affix(job.suffix, idx).value
  {
    var pre :- Affix(job.prefix, idx);
    var suf :- Affix(job.suffix, idx);
    Ok(pre + name + suf)
  }

  /** With brace-free patterns and at most twelve chunks the name is the
      prefix, the chunk name and the suffix written out. */
  lemma BasenamePlain(job: Job, idx: nat, name: string, pre: string, suf: string)
    requires idx < 12
    requires job.prefix == Some(pre) && job.suffix == Some(suf)
    requires '{' !in pre && '}' !in pre && '{' !in suf && '}' !in suf
    ensures Basename(job, idx, name) == Ok(pre + name + suf)
  {
  }

  /** The index placeholders number the chunks from one. */
  lemma BasenameNumbers(job: Job, idx: nat, name: string)
    requires idx < 12
    requires job.prefix == Some("{index}. ") && job.suffix.None?
    ensures Basename(job, idx, name) == Ok(NatToString(idx + 1) + ". " + name)
  {
    var ps := [IndexField, Char('.'), Char(' ')];
    assert PatternText(ps[2..]) == " ";
    assert PatternText(ps[1..]) == ". ";
    assert PatternText(ps) == "{index}. ";
    var roman := [(Roman.UnicodeBase + idx + 1) as char];
    FormatExpands(ps, NatToString(idx + 1), roman);
    assert Expand(ps[2..], NatToString(idx + 1), roman) == " ";
    assert Expand(ps[1..], NatToString(idx + 1), roman) == ". ";
    assert Expand(ps, NatToString(idx + 1), roman) == NatToString(idx + 1) + ". ";
    var pre := NatToString(idx + 1) + ". ";
    assert Affix(job.prefix, idx) == Ok(pre);
    assert Affix(job.suffix, idx) == Ok("");
    assert pre + name + "" == NatToString(idx + 1) + ". " + name;
  }

  /** A chapter of the video, as the video information lists it. */
  datatype Chapter = Chapter(startTime: real, endTime: real, title: string)

  /** The chunk the dataclass version builds for a chapter. */
  function ChapterChunk(ch: Chapter): Chunk {
    Chunk(ch.startTime, Secs(ch.endTime), ch.title, [], Some(MyUtil.FormatFilename(ch.title, true)))
  }

  /** The job's chunks followed, when chunking by chapter and the video has
      chapters, by one chunk per chapter. */
  function WithChapters(job: Job, chapters: seq<Chapter>): (r: seq<Chunk>)
    ensures job.chunks <= r
    ensures !job.chunkByChapter || chapters == [] ==> r == job.chunks
    ensures job.chunkByChapter && chapters != [] ==> |r| == |job.chunks| + |chapters|
    ensures job.chunkByChapter && chapters != [] ==> forall k :: 0 <= k < |chapters| ==> r[|job.chunks| + k] == ChapterChunk(chapters[k])
  {
    if job.chunkByChapter && chapters != [] then
      job.chunks + seq(|chapters|, k requires 0 <= k < |chapters| => ChapterChunk(chapters[k]))
    else job.chunks
  }

  /** Sets the output name of every chunk from index `from` on. */
  function NameChunks(job: Job, chunks: seq<Chunk>, from: nat): (r: Result<seq<Chunk>>)
    ensures r.Ok? <==> forall i :: 0 <= i < |chunks| ==> Basename(job, from + i, chunks[i].chunkName).Ok?
    ensures r.Ok? ==> |r.value| == |chunks|
    ensures r.Ok? ==> forall i :: 0 <= i < |chunks| ==>
           r.value[i] == chunks[i].(outBasename := Some(Basename(job, from + i, chunks[i].chunkName).value))
    decreases |chunks|
  {
    if |chunks| == 0 then Ok([])
    else
      var name :- Basename(job, from, chunks[0].chunkName);
      var rest :- NameChunks(job, chunks[1..], from + 1);
      assert forall i :: 1 <= i < |chunks| ==> chunks[1..][i - 1] == chunks[i];
      Ok([chunks[0].(outBasename := Some(name))] + rest)
  }

  /** `pass_video_dependent_info` (dataclass version) for one job: chapter
      chunks are appended, then every chunk gets its output name. */
  function VideoDependentInfo(job: Job, chapters: seq<Chapter>): (r: Result<Job>)
    ensures r.Ok? <==> forall i :: 0 <= i < |WithChapters(job, chapters)| ==>
      Basename(job, i, WithChapters(job, chapters)[i].chunkName).Ok?
    ensures r.Ok? ==> r.value == job.(chunks := r.value.chunks)
    ensures r.Ok? ==> |r.value.chunks| == |WithChapters(job, chapters)|
    ensures r.Ok? ==> forall i :: 0 <= i < |r.value.chunks| ==>
      var c := WithChapters(job, chapters)[i];
      r.value.chunks[i] == c.(outBasename := Some(Basename(job, i, c.chunkName).value))
  {
    var chunks := WithChapters(job, chapters);
    var named :- NameChunks(job, chunks, 0);
    Ok(job.(chunks := named))
  }

  /** `pass_video_dependent_info` of the dict version: chapter chunks are
      built without a `chunk_name` key, so naming them raises `KeyError`. */
  function VideoDependentInfoDict(job: Job, chapters: seq<Chapter>): (r: Result<Job>)
    ensures job.chunkByChapter && chapters != [] ==> r.Err?
    ensures !(job.chunkByChapter && chapters != []) ==> r == VideoDependentInfo(job, chapters)
  {
    if job.chunkByChapter && chapters != [] then
      var _ :- NameChunks(job, job.chunks, 0);
      var _ :- Affix(job.prefix, |job.chunks|);
      Err("KeyError: 'chunk_name'")
    else
      var named :- NameChunks(job, job.chunks, 0);
      Ok(job.(chunks := named))
  }

  // ---------------------------------------------------------------------
  // Pass 6: copy or trim

  /** What is done for a chunk: copy the whole file, or cut `t` seconds from
      `ss`. */
  datatype Action = Copy | Trim(ss: real, t: real)

  /** Where a chunk ends, given the video's length. */
  function EndOf(c: Chunk, videoLength: real): real
    requires c.endTime != NextChunk
  {
    match c.endTime
    case Secs(e) => e
    case VideoLength => videoLength
  }

  /** The branch of `pass_split_chunks`: a chunk that runs from 0 to the end
      of the video is a whole-file copy; any other is trimmed from its begin
      to its end. An unresolved `NEXTCHUNK` cannot be subtracted from. */
  function SplitAction(c: Chunk, videoLength: real): (r: Result<Action>)
    ensures r.Ok? <==> c.endTime != NextChunk
    ensures r == Ok(Copy) <==> c.endTime == VideoLength && c.beginTime == 0.0
    ensures r.Ok? && r.value.Trim? ==> r.value.ss == c.beginTime && r.value.ss + r.value.t == EndOf(c, videoLength)
  {
    match c.endTime
    case VideoLength =>
      if c.beginTime == 0.0 then Ok(Copy) else Ok(Trim(c.beginTime, videoLength - c.beginTime))
    case Secs(e) => Ok(Trim(c.beginTime, e - c.beginTime))
    case NextChunk => Err("unsupported operand type(s) for -")
  }

  /** The output file of a chunk: its base name and the file's extension. */
  function OutFile(c: Chunk, ext: string): (r: Result<string>)
    ensures r.Ok? <==> c.outBasename.Some?
    ensures r.Ok? ==> r.value == c.outBasename.value + ext
  {
    match c.outBasename
    case Some(b) => Ok(b + ext)
    case None => Err("unsupported operand type(s) for +")
  }

  /** After `NEXTCHUNK` resolution every chunk can be split, and a chunk that
      ran to the next one is cut exactly up to where the next one begins. */
  lemma SplitAfterResolve(chunks: seq<Chunk>, videoLength: real, i: nat)
    requires i < |chunks|
    ensures SplitAction(ResolveNextChunk(chunks)[i], videoLength).Ok?
    ensures i + 1 < |chunks| && chunks[i].endTime == NextChunk ==>
      var a := SplitAction(ResolveNextChunk(chunks)[i], videoLength).value;
      a.Trim? && a.ss == chunks[i].beginTime && a.ss + a.t == chunks[i + 1].beginTime
  {
  }

  // ---------------------------------------------------------------------
  // Pass 7: tags

  /** A value written to the tag store: text, or the number `$INDEX` gives. */
  datatype TagValue = Text(s: string) | Number(n: nat)

  /** The macro table: `$INDEX` is the 1-based position, `$FILENAME` the
      output file name, `$CHUNK_NAME` (and the deprecated `$FILENAME_ORIG`)
      the chunk's name; anything else is written literally. */
  function Resolve(value: string, idx: nat, c: Chunk, ext: string): (r: Result<TagValue>)
    ensures value == "$INDEX" ==> r == Ok(Number(idx + 1))
    ensures value == "$FILENAME" ==> (r.Ok? <==> c.outBasename.Some?)
    ensures value == "$FILENAME" && r.Ok? ==> r.value == Text(OutFile(c, ext).value)
    ensures value == "$CHUNK_NAME" || value == "$FILENAME_ORIG" ==> r == Ok(Text(c.chunkName))
    ensures value !in {"$INDEX", "$FILENAME", "$CHUNK_NAME", "$FILENAME_ORIG"} ==> r == Ok(Text(value))
  {
    if value == "$INDEX" then Ok(Number(idx + 1))
    else if value == "$FILENAME" then
      var f :- OutFile(c, ext);
      Ok(Text(f))
    else if value == "$FILENAME_ORIG" || value == "$CHUNK_NAME" then Ok(Text(c.chunkName))
    else Ok(Text(value))
  }

  /** The last operation on `name` in `ops`, if any. */
  function LastOp(ops: seq<TagOp>, name: string): (r: Option<TagOp>)
    ensures r.Some? ==> r.value in ops && r.value.name == name
    ensures r.None? <==> forall k :: 0 <= k < |ops| ==> ops[k].name != name
    ensures r.Some? ==> exists k :: 0 <= k < |ops| && ops[k] == r.value && LastWith(ops, k, name)
  {
    if |ops| == 0 then None
    else
      var later := LastOp(ops[1..], name);
      assert forall k :: 1 <= k < |ops| ==> ops[1..][k - 1] == ops[k];
      if later.Some? then
        var k :| 0 <= k < |ops[1..]| && ops[1..][k] == later.value && LastWith(ops[1..], k, name);
        assert ops[k + 1] == later.value && LastWith(ops, k + 1, name);
        later
      else if ops[0].name == name then
        assert LastWith(ops, 0, name);
        Some(ops[0])
      else None
  }

  /** No operation after position `k` writes `name`. */
  predicate LastWith(ops: seq<TagOp>, k: nat, name: string) {
    forall j :: k < j < |ops| ==> ops[j].name != name
  }

  /** Writes every operation in order into the tag store. */
  function ApplyOps(store: map<string, TagValue>, ops: seq<TagOp>, idx: nat, c: Chunk, ext: string)
    : (r: Result<map<string, TagValue>>)
    ensures r.Ok? <==> forall k :: 0 <= k < |ops| ==> Resolve(ops[k].value, idx, c, ext).Ok?
    decreases |ops|
  {
    if |ops| == 0 then Ok(store)
    else
      var v :- Resolve(ops[0].value, idx, c, ext);
      var r := ApplyOps(store[ops[0].name := v], ops[1..], idx, c, ext);
      assert forall k :: 1 <= k < |ops| ==> ops[1..][k - 1] == ops[k];
      r
  }

  /** The last write to a name wins; names no operation writes keep their
      stored value. */
  lemma {:induction false} ApplyOpsLastWins(store: map<string, TagValue>, ops: seq<TagOp>, idx: nat, c: Chunk, ext: string, name: string)
    requires ApplyOps(store, ops, idx, c, ext).Ok?
    ensures var r := ApplyOps(store, ops, idx, c, ext).value;
      match LastOp(ops, name)
      case Some(op) => name in r && Resolve(op.value, idx, c, ext) == Ok(r[name])
      case None => (name in r <==> name in store) && (name in store ==> r[name] == store[name])
    decreases |ops|
  {
    if |ops| > 0 {
      var v := Resolve(ops[0].value, idx, c, ext).value;
      ApplyOpsLastWins(store[ops[0].name := v], ops[1..], idx, c, ext, name);
    }
  }

  /** `pass_apply_tag_ops` for chunk `idx` of a job: the job's operations,
      then the chunk's own. */
  function ChunkTags(store: map<string, TagValue>, job: Job, idx: nat, ext: string): (r: Result<map<string, TagValue>>)
    requires idx < |job.chunks|
  {
    ApplyOps(store, job.tagOps + job.chunks[idx].tagOps, idx, job.chunks[idx], ext)
  }

  /** In a chunk's tags, the chunk's own last operation on a name decides its
      value; without one, the job's last operation does; without either, the
      stored value stays. */
  lemma ChunkTagsOverride(store: map<string, TagValue>, job: Job, idx: nat, ext: string, name: string)
    requires idx < |job.chunks|
    requires ChunkTags(store, job, idx, ext).Ok?
    ensures var r := ChunkTags(store, job, idx, ext).value;
      var c := job.chunks[idx];
      match (LastOp(c.tagOps, name), LastOp(job.tagOps, name))
      case (Some(op), _) => name in r && Resolve(op.value, idx, c, ext) == Ok(r[name])
      case (None, Some(op)) => name in r && Resolve(op.value, idx, c, ext) == Ok(r[name])
      case (None, None) => (name in r <==> name in store) && (name in store ==> r[name] == store[name])
  {
    var c := job.chunks[idx];
    ChunkOpsWin(job.tagOps, c.tagOps, name);
    ApplyOpsLastWins(store, job.tagOps + c.tagOps, idx, c, ext, name);
  }

  /** A chunk's own operation on a name overrides the job's. */
  lemma {:induction false} ChunkOpsWin(jobOps: seq<TagOp>, chunkOps: seq<TagOp>, name: string)
    ensures LastOp(chunkOps, name).Some? ==> LastOp(jobOps + chunkOps, name) == LastOp(chunkOps, name)
    ensures LastOp(chunkOps, name).None? ==> LastOp(jobOps + chunkOps, name) == LastOp(jobOps, name)
    decreases |jobOps|
  {
    if |jobOps| == 0 {
      assert jobOps + chunkOps == chunkOps;
    } else {
      ChunkOpsWin(jobOps[1..], chunkOps, name);
      assert (jobOps + chunkOps)[1..] == jobOps[1..] + chunkOps;
    }
  }
}

=== FILE: my_util.dfy ===
/** The shared helpers of `my_util.py`: H:M:S time codes, file-name
    sanitisers and YouTube id extraction. The Roman numeral helpers of the
    same file are in module `Roman`. */
module MyUtil {
  import opened Wrappers
  import opened Text
  import opened Numbers

  // ---------------------------------------------------------------------
  // Time codes

  /** `strparse_hms_to_seconds`: `H:M:S`, `M:S` or `S`. Hours and minutes are
      read with `int`, the seconds field with `float`; any other number of
      `:`-separated fields is an error. */
  function StrParseHms(s: string): (r: Result<real>)
    ensures r.Ok? ==> 1 <= |Split(s, ':')| <= 3
  {
    HmsOfFields(Split(s, ':'))
  }

  /** Without a `:` the whole text is the seconds field. */
  lemma SecondsOnly(s: string)
    requires ':' !in s
    ensures StrParseHms(s).Ok? <==> ParseDecimal(s).Some?
    ensures StrParseHms(s).Ok? ==> StrParseHms(s).value == ParseDecimal(s).value
  {
    assert Split(s, ':') == [s];
  }

  /** The number of seconds the `:`-separated fields stand for. */
  function HmsOfFields(t: seq<string>): Result<real> {
    if |t| == 3 then
      var h :- ParseInt(t[0]).ToResult("hours");
      var m :- ParseInt(t[1]).ToResult("minutes");
      var sec :- ParseDecimal(t[2]).ToResult("seconds");
      Ok((h * 3600 + m * 60) as real + sec)
    else if |t| == 2 then
      var m :- ParseInt(t[0]).ToResult("minutes");
      var sec :- ParseDecimal(t[1]).ToResult("seconds");
      Ok((m * 60) as real + sec)
    else if |t| == 1 then
      ParseDecimal(t[0]).ToResult("seconds")
    else
      Err("Unknown time format")
  }

  /** `strformat_seconds` as written, for a whole number of seconds: hours
      `t // 3600`, then `t // 60` (the total number of minutes, not reduced
      modulo 60), then `t % 60`, each zero-padded to two digits. */
  function StrFormatSeconds(t: nat): (r: string)
    ensures Split(r, ':') == [Pad2(t / 3600), Pad2(t / 60), Pad2(t % 60)]
  {
    var r := Pad2(t / 3600) + ":" + Pad2(t / 60) + ":" + Pad2(t % 60);
    SplitThree(Pad2(t / 3600), Pad2(t / 60), Pad2(t % 60));
    r
  }

  /** The evidently intended `strformat_seconds`: the minutes field is the
      minute within the hour. */
  function StrFormatSecondsFixed(t: nat): (r: string)
    ensures Split(r, ':') == [Pad2(t / 3600), Pad2(t / 60 % 60), Pad2(t % 60)]
  {
    var r := Pad2(t / 3600) + ":" + Pad2(t / 60 % 60) + ":" + Pad2(t % 60);
    SplitThree(Pad2(t / 3600), Pad2(t / 60 % 60), Pad2(t % 60));
    r
  }

  lemma SplitThree(a: string, b: string, c: string)
    requires AllDigits(a) && AllDigits(b) && AllDigits(c)
    ensures Split(a + ":" + b + ":" + c, ':') == [a, b, c]
  {
    assert ':' !in a && ':' !in b && ':' !in c by {
      assert !IsDigit(':');
    }
    assert Join([a, b, c], ":") == a + ":" + b + ":" + c by {
      JoinCons(a, [b, c], ":");
      assert [a, b, c] == [a] + [b, c];
      JoinCons(b, [c], ":");
      assert [b, c] == [b] + [c];
    }
    SplitJoin([a, b, c], ':');
  }

  lemma HmsDecompose(t: nat)
    ensures t == t / 3600 * 3600 + t / 60 % 60 * 60 + t % 60
  {
    var m := t / 60;
    assert t == 60 * m + t % 60;
    assert m == 60 * (m / 60) + m % 60;
    DivModUnique(t, 3600, m / 60, m % 60 * 60 + t % 60);
  }

  /** Reading back the corrected rendering gives the same number of seconds. */
  lemma FormatFixedRoundTrip(t: nat)
    ensures StrParseHms(StrFormatSecondsFixed(t)) == Ok(t as real)
  {
    var h, m, sec := t / 3600, t / 60 % 60, t % 60;
    ParsePad2(h);
    ParsePad2(m);
    ParsePad2(sec);
    HmsDecompose(t);
    HmsValue(StrFormatSecondsFixed(t), Pad2(h), Pad2(m), Pad2(sec), t, h, m, sec);
  }

  /** Three fields that read as `h`, `m` and `sec` stand for
      `h * 3600 + m * 60 + sec` seconds. */
  lemma HmsValue(s: string, a: string, b: string, c: string, t: nat, h: nat, m: nat, sec: nat)
    requires Split(s, ':') == [a, b, c]
    requires ParseInt(a) == Some(h) && ParseInt(b) == Some(m) && ParseDecimal(c) == Some(sec as real)
    requires t == h * 3600 + m * 60 + sec
    ensures StrParseHms(s) == Ok(t as real)
  {
    ParseHmsThree(s, a, b, c, h, m, sec as real);
    CastSum(t, h, m, sec);
  }

  lemma ParseHmsThree(s: string, a: string, b: string, c: string, h: int, m: int, sec: real)
    requires Split(s, ':') == [a, b, c]
    requires ParseInt(a) == Some(h) && ParseInt(b) == Some(m) && ParseDecimal(c) == Some(sec)
    ensures StrParseHms(s) == Ok((h * 3600 + m * 60) as real + sec)
  {
    assert StrParseHms(s) == HmsOfFields([a, b, c]);
    HmsThree(a, b, c, h, m, sec);
  }

  /** `M:S`: whole minutes and decimal seconds. */
  lemma ParseHmsTwo(s: string, a: string, b: string, m: int, sec: real)
    requires Split(s, ':') == [a, b]
    requires ParseInt(a) == Some(m) && ParseDecimal(b) == Some(sec)
    ensures StrParseHms(s) == Ok((m * 60) as real + sec)
  {
  }

  lemma HmsThree(a: string, b: string, c: string, h: int, m: int, sec: real)
    requires ParseInt(a) == Some(h) && ParseInt(b) == Some(m) && ParseDecimal(c) == Some(sec)
    ensures HmsOfFields([a, b, c]) == Ok((h * 3600 + m * 60) as real + sec)
  {
  }

  lemma CastSum(t: nat, h: nat, m: nat, sec: nat)
    requires t == h * 3600 + m * 60 + sec
    ensures (h * 3600 + m * 60) as real + sec as real == t as real
  {
  }

  /** Below one hour the rendering as written reads back correctly. */
  lemma FormatRoundTripBelowHour(t: nat)
    requires t < 3600
    ensures StrFormatSeconds(t) == StrFormatSecondsFixed(t)
    ensures StrParseHms(StrFormatSeconds(t)) == Ok(t as real)
  {
    assert t / 60 % 60 == t / 60;
    FormatFixedRoundTrip(t);
  }

  /** From one hour on the rendering as written does not read back:
      3661 seconds renders with 61 in the minutes field ... */
  lemma FormatAsWrittenBreaksRoundTrip()
    ensures StrParseHms(StrFormatSeconds(3661)) == Ok(7261.0)
  {
    assert 3661 / 3600 == 1 && 3661 / 60 == 61 && 3661 % 60 == 1;
    var t := Split(StrFormatSeconds(3661), ':');
    assert t == [Pad2(1), Pad2(61), Pad2(1)];
    ParsePad2(1);
    ParsePad2(61);
  }

  /** ... namely as `01:61:01`. */
  lemma FormatAsWrittenAt3661()
    ensures StrFormatSeconds(3661) == "01:61:01"
  {
    assert 3661 / 3600 == 1 && 3661 / 60 == 61 && 3661 % 60 == 1;
    assert Pad2(1) == "01" by {
      assert NatToString(1) == "1";
    }
    assert Pad2(61) == "61" by {
      assert NatToString(6) == "6";
      assert NatToString(61) == NatToString(6) + "1";
    }
  }

  // ---------------------------------------------------------------------
  // File names

  /** The whitelist of `format_filename`: `-_.() `, ASCII letters, digits. */
  predicate FilenameChar(c: char) {
    c == '-' || c == '_' || c == '.' || c == '(' || c == ')' || c == ' '
    || ('a' <= c <= 'z') || ('A' <= c <= 'Z') || ('0' <= c <= '9')
  }

  /** `t` can be obtained from `s` by deleting characters. */
  predicate IsSubsequence(t: string, s: string) {
    if |t| == 0 then true
    else if |s| == 0 then false
    else if t[0] == s[0] then IsSubsequence(t[1..], s[1..])
    else IsSubsequence(t, s[1..])
  }

  /** The characters of `s` that are on the whitelist, in order. */
  function KeepFilenameChars(s: string): (r: string)
    ensures IsSubsequence(r, s)
    ensures forall i :: 0 <= i < |r| ==> FilenameChar(r[i])
    ensures (forall i :: 0 <= i < |s| ==> FilenameChar(s[i])) ==> r == s
  {
    if |s| == 0 then ""
    else if FilenameChar(s[0]) then [s[0]] + KeepFilenameChars(s[1..])
    else
      var r := KeepFilenameChars(s[1..]);
      SubsequenceSkip(r, s);
      r
  }

  lemma {:induction false} SubsequenceSkip(t: string, s: string)
    requires |s| > 0 && IsSubsequence(t, s[1..])
    ensures IsSubsequence(t, s)
    decreases |s|, 1
  {
    if |t| > 0 && t[0] == s[0] {
      SubsequenceSkipHead(t, s);
    }
  }

  lemma {:induction false} SubsequenceSkipHead(t: string, s: string)
    requires |s| > 0 && |t| > 0 && IsSubsequence(t, s[1..])
    ensures IsSubsequence(t[1..], s[1..])
    decreases |s|, 0
  {
    var s' := s[1..];
    if |s'| > 0 {
      if t[0] == s'[0] {
        SubsequenceSkip(t[1..], s');
      } else {
        SubsequenceSkipHead(t, s');
        SubsequenceSkip(t[1..], s');
      }
    }
  }

  /** `format_filename(s, keep_spaces)`: only whitelisted characters of `s`
      survive, in order; spaces become `_` unless `keep_spaces`. */
  function FormatFilename(s: string, keepSpaces: bool): (r: string)
    ensures forall i :: 0 <= i < |r| ==> FilenameChar(r[i])
    ensures keepSpaces ==> IsSubsequence(r, s)
    ensures !keepSpaces ==> ' ' !in r && |r| == |KeepFilenameChars(s)|
    ensures keepSpaces ==> r == KeepFilenameChars(s)
    ensures !keepSpaces ==> forall i :: 0 <= i < |r| ==>
      r[i] == (if KeepFilenameChars(s)[i] == ' ' then '_' else KeepFilenameChars(s)[i])
    ensures (forall i :: 0 <= i < |s| ==> FilenameChar(s[i]) && (!keepSpaces ==> s[i] != ' ')) ==> r == s
  {
    var kept := KeepFilenameChars(s);
    if keepSpaces then kept
    else
      var r := ReplaceChar(kept, ' ', '_');
      assert forall i :: 0 <= i < |r| ==> r[i] != ' ';
      if (forall i :: 0 <= i < |s| ==> FilenameChar(s[i]) && s[i] != ' ') then
        assert kept == s;
        assert r == s;
        r
      else r
  }

  /** Replacing spaces before filtering gives the same name: `_` is
      whitelisted just as the space is. */
  lemma {:induction false} ReplaceThenFilter(s: string)
    ensures FormatFilename(s, false) == KeepFilenameChars(ReplaceChar(s, ' ', '_'))
    decreases |s|
  {
    if |s| > 0 {
      ReplaceThenFilter(s[1..]);
      assert ReplaceChar(s, ' ', '_')[1..] == ReplaceChar(s[1..], ' ', '_');
    }
  }

  /** Sanitising twice is the same as sanitising once. */
  lemma FormatFilenameIdempotent(s: string, keepSpaces: bool)
    ensures FormatFilename(FormatFilename(s, keepSpaces), keepSpaces) == FormatFilename(s, keepSpaces)
  {
    var r := FormatFilename(s, keepSpaces);
    assert forall i :: 0 <= i < |r| ==> FilenameChar(r[i]) && (!keepSpaces ==> r[i] != ' ');
  }

  const FractionSlash: char := 0x2044 as char

  /** `format_filename_lean`: every `/` becomes U+2044 FRACTION SLASH; all
      other characters stay where they are. */
  function FormatFilenameLean(s: string): (r: string)
    ensures |r| == |s|
    ensures '/' !in r
    ensures forall i :: 0 <= i < |s| && s[i] != '/' ==> r[i] == s[i]
  {
    ReplaceChar(s, '/', FractionSlash)
  }

  /** Replacing the fraction slashes back restores a name that had none. */
  lemma FormatFilenameLeanInvertible(s: string)
    requires FractionSlash !in s
    ensures ReplaceChar(FormatFilenameLean(s), FractionSlash, '/') == s
  {
  }

  // ---------------------------------------------------------------------
  // YouTube ids

  /** `id` starts at index `start` of `url` and runs up to the end of the
      URL or to an `&`. */
  predicate RunsTo(url: string, start: nat, id: string) {
    var e := start + |id|;
    e <= |url| && url[start..e] == id && (e == |url| || url[e] == '&')
  }

  /** The id after the `v=` at index `p`: up to the first `&` searched for
      from `p`, or to the end. */
  function IdAfter(url: string, p: nat): (id: string)
    requires p + 2 <= |url| && url[p] == 'v' && url[p + 1] == '='
    ensures '&' !in id && RunsTo(url, p + 2, id)
  {
    var amp := FindCharFrom(url, '&', p);
    if amp.None? then url[p + 2..] else url[p + 2..amp.value]
  }

  /** `get_id_from_ytb_url`: the text after the first `v=`, up to the first
      `&` after it or the end of the URL; an error when there is no `v=`. */
  function GetIdFromYtbUrl(url: string): (r: Result<string>)
    ensures r.Err? <==> FindSub(url, "v=").None?
    ensures r.Ok? ==> '&' !in r.value && RunsTo(url, FindSub(url, "v=").value + 2, r.value)
  {
    var found := FindSub(url, "v=");
    if found.None? then Err("Unable to find ID from Youtube URL")
    else
      assert url[found.value..found.value + 2] == "v=";
      Ok(IdAfter(url, found.value))
  }

  /** The id is determined: a URL whose first `v=` is followed by `id` and
      then by `&...` or nothing yields `id`. */
  lemma GetIdOfBuiltUrl(before: string, id: string, rest: string)
    requires FindSub(before + "v=", "v=") == Some(|before|)
    requires '&' !in id
    requires rest == "" || rest[0] == '&'
    ensures GetIdFromYtbUrl(before + "v=" + id + rest) == Ok(id)
  {
    GetIdOfUrl(before + "v=" + id + rest, before, id, rest);
  }

  lemma GetIdOfUrl(url: string, before: string, id: string, rest: string)
    requires url == before + "v=" + id + rest
    requires FindSub(before + "v=", "v=") == Some(|before|)
    requires '&' !in id
    requires rest == "" || rest[0] == '&'
    ensures GetIdFromYtbUrl(url) == Ok(id)
  {
    BuiltUrlFacts(before, id, rest);
    GetIdDetermined(url, |before|, id);
  }

  lemma BuiltUrlFacts(before: string, id: string, rest: string)
    requires FindSub(before + "v=", "v=") == Some(|before|)
    requires rest == "" || rest[0] == '&'
    ensures FindSub(before + "v=" + id + rest, "v=") == Some(|before|)
    ensures RunsTo(before + "v=" + id + rest, |before| + 2, id)
  {
    BuiltUrlFirstV(before, id, rest);
    BuiltUrlRunsTo(before, id, rest);
  }

  lemma BuiltUrlFirstV(before: string, id: string, rest: string)
    requires FindSub(before + "v=", "v=") == Some(|before|)
    ensures FindSub(before + "v=" + id + rest, "v=") == Some(|before|)
  {
    var head := before + "v=";
    var more := id + rest;
    FirstOccurrenceExtends(head, more, "v=", |before|);
    assert before + "v=" + id + rest == head + more;
  }

  lemma GetIdDetermined(url: string, p: nat, id: string)
    requires FindSub(url, "v=") == Some(p)
    requires '&' !in id && RunsTo(url, p + 2, id)
    ensures GetIdFromYtbUrl(url) == Ok(id)
  {
    var r := GetIdFromYtbUrl(url);
    assert r.Ok?;
    RunsToUnique(url, p + 2, r.value, id);
  }

  lemma BuiltUrlRunsTo(before: string, id: string, rest: string)
    requires rest == "" || rest[0] == '&'
    ensures RunsTo(before + "v=" + id + rest, |before| + 2, id)
  {
    var url := before + "v=" + id + rest;
    var e := |before| + 2 + |id|;
    assert url[|before| + 2..e] == id;
    assert e == |url| || url[e] == '&' by {
      if rest != "" {
        assert url[e] == rest[0];
      }
    }
  }

  /** Two `&`-free runs from the same index, each ending at `&` or the end,
      are equal. */
  lemma RunsToUnique(url: string, start: nat, a: string, b: string)
    requires '&' !in a && '&' !in b
    requires RunsTo(url, start, a) && RunsTo(url, start, b)
    ensures a == b
  {
    assert forall k :: 0 <= k < |a| ==> url[start + k] == a[k];
    assert forall k :: 0 <= k < |b| ==> url[start + k] == b[k];
    assert |a| == |b|;
  }

  lemma FirstOccurrenceExtends(head: string, more: string, sub: string, p: nat)
    requires FindSub(head, sub) == Some(p)
    ensures FindSub(head + more, sub) == Some(p)
  {
    var s := head + more;
    assert OccursAt(s, sub, p) by {
      assert s[p..p + |sub|] == head[p..p + |sub|];
    }
    forall j: nat | j < p
      ensures !OccursAt(s, sub, j)
    {
      assert !OccursAt(head, sub, j);
      assert head[j..j + |sub|] == s[j..j + |sub|];
    }
    FindSubIs(s, sub, p);
  }
}

=== FILE: numbers.dfy ===
/** Decimal integers and decimal fractions as the scripts read and print them:
    Python `int(s)`, `float(s)`, `str(n)`, the `02` format spec, and C++/Ruby
    integer printing. Only plain decimal literals are modelled; the lenient
    extras of Python's parsers (surrounding blanks, `_` separators, exponents,
    `inf`/`nan`) are not. Seconds are exact `real`s, not IEEE doubles. */
module Numbers {
  import opened Wrappers

  predicate IsDigit(c: char) {
    '0' <= c <= '9'
  }

  predicate AllDigits(s: string) {
    forall i :: 0 <= i < |s| ==> IsDigit(s[i])
  }

  function DigitValue(c: char): nat
    requires IsDigit(c)
  {
    c as int - '0' as int
  }

  function DigitChar(d: nat): (c: char)
    requires d < 10
    ensures IsDigit(c) && DigitValue(c) == d
  {
    ('0' as int + d) as char
  }

  /** Value of a string of decimal digits, most significant first. */
  function DigitsValue(s: string): nat
    requires AllDigits(s)
  {
    if |s| == 0 then 0 else DigitsValue(s[..|s| - 1]) * 10 + DigitValue(s[|s| - 1])
  }

  function Pow10(k: nat): (p: nat)
    ensures p >= 1
  {
    if k == 0 then 1 else 10 * Pow10(k - 1)
  }

  /** Python `str(n)` for a non-negative integer: shortest decimal text. */
  function NatToString(n: nat): (s: string)
    ensures |s| >= 1 && AllDigits(s)
    ensures |s| > 1 ==> s[0] != '0'
  {
    if n < 10 then [DigitChar(n)] else NatToString(n / 10) + [DigitChar(n % 10)]
  }

  /** Printing then reading a natural number gives it back. */
  lemma {:induction false} NatToStringValue(n: nat)
    ensures DigitsValue(NatToString(n)) == n
  {
    if n >= 10 {
      var s := NatToString(n);
      assert s[..|s| - 1] == NatToString(n / 10);
      NatToStringValue(n / 10);
    }
  }

  /** A leading zero does not change the value of a digit string. */
  lemma {:induction false} LeadingZeroValue(s: string)
    requires AllDigits(s)
    ensures AllDigits("0" + s) && DigitsValue("0" + s) == DigitsValue(s)
  {
    if |s| > 0 {
      assert ("0" + s)[..|"0" + s| - 1] == "0" + s[..|s| - 1];
      LeadingZeroValue(s[..|s| - 1]);
    }
  }

  /** Python `f"{n:02}"`: decimal text zero-padded to at least two characters. */
  function Pad2(n: nat): (s: string)
    ensures |s| >= 2 && AllDigits(s)
    ensures DigitsValue(s) == n
  {
    NatToStringValue(n);
    if n < 10 then LeadingZeroValue(NatToString(n)); "0" + NatToString(n) else NatToString(n)
  }

  /** Decimal text of an integer, with a leading `-` when negative
      (Python `str(i)`, C++ `operator<<` on `int`). */
  function IntToString(i: int): (s: string)
    ensures |s| >= 1
    ensures i >= 0 ==> s == NatToString(i)
    ensures i < 0 ==> s == "-" + NatToString(-i)
  {
    if i < 0 then "-" + NatToString(-i) else NatToString(i)
  }

  /** Splits an optional leading `+` or `-` off a literal. */
  function SignOf(s: string): (r: (int, string))
    ensures r.0 == 1 || r.0 == -1
    ensures |s| > 0 && s[0] == '-' ==> r == (-1, s[1..])
    ensures |s| > 0 && s[0] == '+' ==> r == (1, s[1..])
    ensures (|s| == 0 || (s[0] != '-' && s[0] != '+')) ==> r == (1, s)
  {
    if |s| > 0 && s[0] == '-' then (-1, s[1..])
    else if |s| > 0 && s[0] == '+' then (1, s[1..])
    else (1, s)
  }

  /** Python `int(s)` on a plain literal: an optional sign and one or more
      decimal digits (leading zeros allowed); anything else fails. */
  function ParseInt(s: string): (r: Option<int>)
    ensures r.Some? <==> |SignOf(s).1| >= 1 && AllDigits(SignOf(s).1)
  {
    var (sign, body) := SignOf(s);
    if |body| >= 1 && AllDigits(body) then Some(sign * DigitsValue(body)) else None
  }

  /** Python `float(s)` on a plain literal: an optional sign, digits, and an
      optional `.` with more digits; at least one digit overall. */
  function ParseDecimal(s: string): (r: Option<real>)
    ensures ParseInt(s).Some? ==> r == Some(ParseInt(s).value as real)
  {
    var (sign, body) := SignOf(s);
    var dot := FindDot(body);
    if dot == |body| then
      if |body| >= 1 && AllDigits(body) then Some((sign * DigitsValue(body)) as real) else None
    else
      var ip := body[..dot];
      var fp := body[dot + 1..];
      if AllDigits(ip) && AllDigits(fp) && |ip| + |fp| >= 1 then
        Some(sign as real * (DigitsValue(ip) as real + DigitsValue(fp) as real / Pow10(|fp|) as real))
      else None
  }

  /** Index of the first `.` in `s`, or `|s|` when there is none. */
  function FindDot(s: string): (i: nat)
    ensures i <= |s|
    ensures i < |s| ==> s[i] == '.'
    ensures forall k :: 0 <= k < i ==> s[k] != '.'
  {
    if |s| == 0 then 0 else if s[0] == '.' then 0 else 1 + FindDot(s[1..])
  }

  lemma AllDigitsHasNoDot(s: string)
    requires AllDigits(s)
    ensures FindDot(s) == |s|
  {
  }

  /** `int(str(n)) == n`. */
  lemma ParseNatToString(n: nat)
    ensures ParseInt(NatToString(n)) == Some(n)
  {
    NatToStringValue(n);
  }

  /** `int(f"{n:02}") == n`, the zero padding is read back. */
  lemma ParsePad2(n: nat)
    ensures ParseInt(Pad2(n)) == Some(n)
    ensures ParseDecimal(Pad2(n)) == Some(n as real)
  {
  }

  /** `int(str(i)) == i` for any integer, negative ones included. */
  lemma ParseIntToString(i: int)
    ensures ParseInt(IntToString(i)) == Some(i)
  {
    if i < 0 {
      NatToStringValue(-i);
      assert SignOf(IntToString(i)).1 == NatToString(-i);
    } else {
      NatToStringValue(i);
    }
  }

  lemma MulAtLeast(d: int, k: int)
    requires d > 0 && k >= 1
    ensures d * k >= d
  {
  }

  lemma MulBoundedIsZero(d: int, k: int)
    requires d > 0 && -d < d * k < d
    ensures k == 0
  {
    if k >= 1 { MulAtLeast(d, k); } else if k <= -1 { MulAtLeast(d, -k); }
  }

  /** Quotient and remainder are determined by `x == d * q + r, 0 <= r < d`. */
  lemma DivModUnique(x: int, d: int, q: int, r: int)
    requires d > 0 && x == d * q + r && 0 <= r < d
    ensures x / d == q && x % d == r
  {
    var q', r' := x / d, x % d;
    assert d * (q - q') == r' - r;
    MulBoundedIsZero(d, q - q');
  }
}

=== FILE: rational.dfy ===
/** `struct Real` of `math/lu_factorization.cpp`: a fraction `num/denom` whose
    operators all end in `simplify`, which divides out the gcd and moves the
    sign to the numerator. Integers are unbounded here. */
module Rational {
  import opened Wrappers
  import opened BinaryGcd
  import Numbers
  import Text

  datatype Real = Real(num: int, denom: int)

  const Zero := Real(0, 1)
  const One := Real(1, 1)

  /** The number a fraction with a non-zero denominator stands for. */
  function Value(x: Real): real
    requires x.denom != 0
  {
    x.num as real / x.denom as real
  }

  /** The normal form: positive denominator and no common factor. */
  predicate Simplified(x: Real) {
    x.denom > 0 && Gcd(Abs(x.num), x.denom) == 1
  }

  /** C++ `n / g`, which truncates toward zero. */
  function CDiv(n: int, g: nat): int
    requires g > 0
  {
    if n >= 0 then n / g else -((-n) / g)
  }

  lemma CDivExact(n: int, g: nat)
    requires Divides(g, Abs(n))
    ensures n == g * CDiv(n, g)
    ensures Abs(n) == g * Abs(CDiv(n, g))
  {
    DividesQuot(g, Abs(n));
    if n < 0 {
      assert CDiv(n, g) == -((-n) / g);
    }
  }

  lemma CastMul(x: int, y: int)
    ensures (x * y) as real == x as real * y as real
  {
  }

  /** Multiplying numerator and denominator by the same number keeps the value. */
  lemma ValueScale(n: int, d: int, g: int)
    requires d != 0 && g != 0
    ensures Value(Real(g * n, g * d)) == Value(Real(n, d))
  {
    CastMul(g, n);
    CastMul(g, d);
  }

  lemma GcdWithOne(a: nat)
    ensures Gcd(a, 1) == 1
  {
    GcdDivides(a, 1);
    DividesLe(Gcd(a, 1), 1);
  }

  /** What dividing by the gcd leaves: no common factor, and zero numerator
      and denominator only together. */
  lemma DivideOutGcd(x: Real, g: nat, n: int, d: int)
    requires x.num != 0 || x.denom != 0
    requires g == Gcd(Abs(x.num), Abs(x.denom)) && g > 0
    requires n == CDiv(x.num, g) && d == CDiv(x.denom, g)
    ensures x.num == g * n && x.denom == g * d
    ensures Gcd(Abs(n), Abs(d)) == 1
  {
    GcdDivides(Abs(x.num), Abs(x.denom));
    CDivExact(x.num, g);
    CDivExact(x.denom, g);
    var an, ad := Abs(n), Abs(d);
    var h := Gcd(an, ad);
    assert Gcd(g * an, g * ad) == g * h by {
      GcdScale(g, an, ad);
    }
    assert h * g == 1 * g;
    Cancel(h, 1, g);
  }

  lemma Cancel(x: int, y: int, d: int)
    requires d > 0 && x * d == y * d
    ensures x == y
  {
    assert d * (x - y) == 0;
    Numbers.MulBoundedIsZero(d, x - y);
  }

  /** `simplify`. With a zero denominator only the sign of the numerator is
      left; `0/0` divides by a zero gcd, which C++ leaves undefined. */
  function Simplify(x: Real): (r: Real)
    requires x.num != 0 || x.denom != 0
    ensures x.denom != 0 ==> Simplified(r)
    ensures x.denom == 0 ==> r == Real(if x.num > 0 then 1 else -1, 0)
  {
    var g := Gcd(Abs(x.num), Abs(x.denom));
    GcdDivides(Abs(x.num), Abs(x.denom));
    var n, d := CDiv(x.num, g), CDiv(x.denom, g);
    DivideOutGcd(x, g, n, d);
    if d < 0 then Real(-n, -d) else Real(n, d)
  }

  /** `simplify` keeps the value of a fraction. */
  lemma SimplifyValue(x: Real)
    requires x.denom != 0
    ensures Value(Simplify(x)) == Value(x)
  {
    var g := Gcd(Abs(x.num), Abs(x.denom));
    GcdDivides(Abs(x.num), Abs(x.denom));
    var n, d := CDiv(x.num, g), CDiv(x.denom, g);
    DivideOutGcd(x, g, n, d);
    ValueScale(n, d, g);
    if d < 0 {
      ValueScale(-n, -d, -1);
    }
  }

  /** Which operands an operator can simplify: anything but `0/0`. */
  predicate Defined(num: int, denom: int) {
    num != 0 || denom != 0
  }

  /** `+`: the cross-multiplied sum, simplified. */
  function Add(a: Real, b: Real): (r: Real)
    requires Defined(a.num * b.denom + b.num * a.denom, a.denom * b.denom)
    ensures a.denom != 0 && b.denom != 0 ==> Simplified(r)
  {
    var x := Real(a.num * b.denom + b.num * a.denom, a.denom * b.denom);
    if a.denom != 0 && b.denom != 0 then
      AddValue(a, b);
      Simplify(x)
    else
      Simplify(x)
  }

  lemma AddValue(a: Real, b: Real)
    requires a.denom != 0 && b.denom != 0
    ensures a.denom * b.denom != 0
    ensures Value(Real(a.num * b.denom + b.num * a.denom, a.denom * b.denom)) == Value(a) + Value(b)
  {
    CastMul(a.num, b.denom);
    CastMul(b.num, a.denom);
    CastMul(a.denom, b.denom);
  }

  /** `+` is the exact sum. */
  lemma AddExact(a: Real, b: Real)
    requires a.denom != 0 && b.denom != 0
    ensures Defined(a.num * b.denom + b.num * a.denom, a.denom * b.denom)
    ensures Value(Add(a, b)) == Value(a) + Value(b)
  {
    AddValue(a, b);
    SimplifyValue(Real(a.num * b.denom + b.num * a.denom, a.denom * b.denom));
  }

  /** `-`: the cross-multiplied difference, simplified. */
  function Sub(a: Real, b: Real): (r: Real)
    requires Defined(a.num * b.denom - b.num * a.denom, a.denom * b.denom)
    ensures a.denom != 0 && b.denom != 0 ==> Simplified(r)
  {
    var x := Real(a.num * b.denom - b.num * a.denom, a.denom * b.denom);
    if a.denom != 0 && b.denom != 0 then
      SubValue(a, b);
      Simplify(x)
    else
      Simplify(x)
  }

  lemma SubValue(a: Real, b: Real)
    requires a.denom != 0 && b.denom != 0
    ensures a.denom * b.denom != 0
    ensures Value(Real(a.num * b.denom - b.num * a.denom, a.denom * b.denom)) == Value(a) - Value(b)
  {
    CastMul(a.num, b.denom);
    CastMul(b.num, a.denom);
    CastMul(a.denom, b.denom);
  }

  /** `-` is the exact difference. */
  lemma SubExact(a: Real, b: Real)
    requires a.denom != 0 && b.denom != 0
    ensures Defined(a.num * b.denom - b.num * a.denom, a.denom * b.denom)
    ensures Value(Sub(a, b)) == Value(a) - Value(b)
  {
    SubValue(a, b);
    SimplifyValue(Real(a.num * b.denom - b.num * a.denom, a.denom * b.denom));
  }

  /** `*`: the product of numerators over the product of denominators,
      simplified. */
  function Mul(a: Real, b: Real): (r: Real)
    requires Defined(a.num * b.num, a.denom * b.denom)
    ensures a.denom != 0 && b.denom != 0 ==> Simplified(r)
  {
    var x := Real(a.num * b.num, a.denom * b.denom);
    if a.denom != 0 && b.denom != 0 then
      MulValue(a, b);
      Simplify(x)
    else
      Simplify(x)
  }

  lemma MulValue(a: Real, b: Real)
    requires a.denom != 0 && b.denom != 0
    ensures a.denom * b.denom != 0
    ensures Value(Real(a.num * b.num, a.denom * b.denom)) == Value(a) * Value(b)
  {
    CastMul(a.num, b.num);
    CastMul(a.denom, b.denom);
  }

  /** `*` is the exact product. */
  lemma MulExact(a: Real, b: Real)
    requires a.denom != 0 && b.denom != 0
    ensures Defined(a.num * b.num, a.denom * b.denom)
    ensures Value(Mul(a, b)) == Value(a) * Value(b)
  {
    MulValue(a, b);
    SimplifyValue(Real(a.num * b.num, a.denom * b.denom));
  }

  /** `/`: cross-multiplied, simplified; dividing a non-zero number by zero
      leaves a zero denominator. */
  function Div(a: Real, b: Real): (r: Real)
    requires Defined(a.num * b.denom, a.denom * b.num)
    ensures a.denom != 0 && b.denom != 0 && b.num != 0 ==> Simplified(r)
    ensures a.denom != 0 && b.num == 0 ==> r.denom == 0
  {
    var x := Real(a.num * b.denom, a.denom * b.num);
    if a.denom != 0 && b.denom != 0 && b.num != 0 then
      DivValue(a, b);
      Simplify(x)
    else
      Simplify(x)
  }

  lemma DivValue(a: Real, b: Real)
    requires a.denom != 0 && b.denom != 0 && b.num != 0
    ensures a.denom * b.num != 0 && Value(b) != 0.0
    ensures Value(Real(a.num * b.denom, a.denom * b.num)) == Value(a) / Value(b)
  {
    CastMul(a.num, b.denom);
    CastMul(a.denom, b.num);
  }

  /** `/` is the exact quotient when the divisor is not zero. */
  lemma DivExact(a: Real, b: Real)
    requires a.denom != 0 && b.denom != 0 && b.num != 0
    ensures Defined(a.num * b.denom, a.denom * b.num) && Value(b) != 0.0
    ensures Value(Div(a, b)) == Value(a) / Value(b)
  {
    DivValue(a, b);
    SimplifyValue(Real(a.num * b.denom, a.denom * b.num));
  }

  // ---------------------------------------------------------------------
  // Comparison and printing

  /** Coprime to `a`, `d` divides `a * m` only by dividing `m`. */
  lemma CoprimeDivides(d: nat, a: nat, m: nat)
    requires Gcd(a, d) == 1 && Divides(d, a * m) && m > 0
    ensures Divides(d, m)
  {
    var p, q := a * m, d * m;
    assert Gcd(p, q) == m by {
      GcdScale(m, a, d);
      MulComm(m, a);
      MulComm(m, d);
    }
    DividesMul(d, m);
    GcdGreatest(p, q, d);
  }

  lemma MulComm(x: int, y: int)
    ensures x * y == y * x
  {
  }

  lemma CrossMul(a: Real, b: Real)
    requires a.denom != 0 && b.denom != 0 && Value(a) == Value(b)
    ensures a.num * b.denom == b.num * a.denom
  {
    CastMul(a.num, b.denom);
    CastMul(b.num, a.denom);
  }

  /** With equal values, each denominator divides the other. */
  lemma DenomDivides(a: Real, b: Real)
    requires Simplified(a) && Simplified(b) && a.num * b.denom == b.num * a.denom
    ensures Divides(a.denom, b.denom)
  {
    var an, bn := Abs(a.num), Abs(b.num);
    assert an * b.denom == bn * a.denom;
    assert bn * a.denom == a.denom * bn;
    DividesMul(a.denom, bn);
    CoprimeDivides(a.denom, an, b.denom);
  }

  /** Two simplified fractions with the same value are the same fraction. */
  lemma Canonical(a: Real, b: Real)
    requires Simplified(a) && Simplified(b) && Value(a) == Value(b)
    ensures a == b
  {
    CrossMul(a, b);
    DenomDivides(a, b);
    DenomDivides(b, a);
    DividesAntisym(a.denom, b.denom);
    Cancel(a.num, b.num, a.denom);
  }

  /** `a == b`: compares the fields, which on simplified operands is
      comparing values. */
  function Eq(a: Real, b: Real): (r: bool)
    ensures r ==> a.denom == 0 || b.denom == 0 || Value(a) == Value(b)
    ensures Simplified(a) && Simplified(b) ==> (r <==> Value(a) == Value(b))
  {
    SameValueSame(a, b);
    a.num == b.num && a.denom == b.denom
  }

  lemma SameValueSame(a: Real, b: Real)
    ensures Simplified(a) && Simplified(b) && Value(a) == Value(b) ==> a == b
  {
    if Simplified(a) && Simplified(b) && Value(a) == Value(b) {
      Canonical(a, b);
    }
  }

  /** `a == n`: only a denominator of 1 can equal an integer, which on a
      simplified operand is comparing values. */
  function EqInt(a: Real, n: int): (r: bool)
    ensures r ==> a.denom == 1 && Value(a) == n as real
    ensures Simplified(a) ==> (r <==> Value(a) == n as real)
  {
    IntegerValue(a, n);
    a.denom == 1 && a.num == n
  }

  lemma IntegerValue(a: Real, n: int)
    ensures Simplified(a) && Value(a) == n as real ==> a == Real(n, 1)
  {
    if Simplified(a) && Value(a) == n as real {
      GcdWithOne(Abs(n));
      Canonical(a, Real(n, 1));
    }
  }

  /** A simplified fraction is zero exactly when it is `0/1`, and otherwise
      its numerator is not zero. */
  lemma ZeroForm(a: Real)
    requires Simplified(a)
    ensures EqInt(a, 0) <==> a == Zero
    ensures a.num == 0 <==> a == Zero
  {
    if a.num == 0 {
      assert Gcd(0, a.denom) == a.denom;
    }
  }

  /** `operator<<`: the numerator alone when the denominator is 1. */
  function Show(x: Real): (s: string)
    ensures '/' in s <==> x.denom != 1
  {
    NoSlash(x.num);
    NoSlash(x.denom);
    if x.denom == 1 then Numbers.IntToString(x.num)
    else Numbers.IntToString(x.num) + "/" + Numbers.IntToString(x.denom)
  }

  lemma NoSlash(i: int)
    ensures '/' !in Numbers.IntToString(i)
  {
    var s := Numbers.IntToString(i);
    if i >= 0 {
      assert forall k :: 0 <= k < |s| ==> Numbers.IsDigit(s[k]);
    } else {
      var t := Numbers.NatToString(-i);
      assert s == "-" + t;
      assert forall k :: 1 <= k < |s| ==> s[k] == t[k - 1] && Numbers.IsDigit(t[k - 1]);
    }
    assert forall k :: 0 <= k < |s| ==> s[k] != '/';
  }

  /** Reads back what `Show` prints: `n` or `n/d`. */
  function Parse(s: string): (r: Option<Real>)
    ensures r.Some? && '/' !in s ==> r.value.denom == 1
  {
    var (before, after) := Text.Partition(s, '/');
    if '/' in s then
      var n :- Numbers.ParseInt(before);
      var d :- Numbers.ParseInt(after);
      Some(Real(n, d))
    else
      var n :- Numbers.ParseInt(s);
      Some(Real(n, 1))
  }

  lemma ShowParse(x: Real)
    ensures Parse(Show(x)) == Some(x)
  {
    NoSlash(x.num);
    Numbers.ParseIntToString(x.num);
    if x.denom != 1 {
      var s := Show(x);
      assert s == Numbers.IntToString(x.num) + ['/'] + Numbers.IntToString(x.denom);
      NoSlash(x.denom);
      Numbers.ParseIntToString(x.denom);
      var (before, after) := Text.Partition(s, '/');
      PartitionAt(Numbers.IntToString(x.num), Numbers.IntToString(x.denom));
    }
  }

  /** Splitting at the only separator gives back the two halves. */
  lemma PartitionAt(a: string, b: string)
    requires '/' !in a
    ensures Text.Partition(a + ['/'] + b, '/') == (a, b)
  {
    var s := a + ['/'] + b;
    var (x, y) := Text.Partition(s, '/');
    assert s == x + ['/'] + y;
    assert forall k :: 0 <= k < |x| ==> s[k] == x[k] && s[k] != '/';
    assert forall k :: 0 <= k < |a| ==> s[k] == a[k] && s[k] != '/';
    assert s[|a|] == '/' && s[|x|] == '/';
    assert |x| == |a|;
    assert x == s[..|x|] == a;
    assert y == s[|x| + 1..] == b;
  }
}

=== FILE: ris2bib.dfy ===
/** `cite/ris2bib.py`: reads the tagged lines of a RIS citation record and
    writes a BibTeX `@article` entry. The script's module-level loop is the
    fold `ParseRis`; its output section is `BibLines`. */
module Ris2Bib {
  import opened Wrappers
  import opened Text

  /** The script's single-valued accumulators (`title`, `journal`, ...). */
  datatype Slot = Title | Journal | Volume | Year | StartPage | EndPage | Doi | Url | Publisher

  /** What a RIS tag does: append to the authors, overwrite a slot, or
      nothing. */
  datatype TagAction = AddAuthor | SetSlot(slot: Slot) | Ignore

  /** The script's accumulators: the author list, and the last value stored
      in each slot (absent until a line sets it, the script's `None`). */
  datatype Entry = Entry(authors: seq<string>, slots: map<Slot, string>)

  const Empty := Entry([], map[])

  function Get(e: Entry, s: Slot): Option<string> {
    if s in e.slots then Some(e.slots[s]) else None
  }

  /** The tag comparisons of the reading loop. */
  function Classify(field: string): TagAction {
    if field == "AU" then AddAuthor
    else if field == "TI" then SetSlot(Title)
    else if field == "JA" || field == "JO" then SetSlot(Journal)
    else if field == "VL" then SetSlot(Volume)
    else if field == "PY" then SetSlot(Year)
    else if field == "SP" then SetSlot(StartPage)
    else if field == "EP" then SetSlot(EndPage)
    else if field == "L3" || field == "DO" then SetSlot(Doi)
    else if field == "UR" then SetSlot(Url)
    else if field == "PB" then SetSlot(Publisher)
    else Ignore
  }

  /** A RIS line as tag and value: split at the first `-`; the tag is stripped
      of spaces, the value of spaces, then line feeds, then carriage returns.
      A line without `-` carries nothing. */
  function TagValue(line: string): (r: Option<(string, string)>)
    ensures r.None? <==> '-' !in line
    ensures r.Some? ==> FindChar(line, '-').Some?
    ensures r.Some? ==> var i := FindChar(line, '-').value;
      r.value == (StripChar(line[..i], ' '), StripChar(StripChar(StripChar(line[i + 1..], ' '), '\n'), '\r'))
  {
    var parts := SplitMax(line, '-', 1);
    if |parts| == 1 then None
    else Some((StripChar(parts[0], ' '), StripChar(StripChar(StripChar(parts[1], ' '), '\n'), '\r')))
  }

  /** What the line does to the accumulators. */
  function ActionOf(line: string): TagAction {
    match TagValue(line)
    case None => Ignore
    case Some((field, _)) => Classify(field)
  }

  /** The text before the first `/` (Python `value.rsplit('/')[0]`). */
  function BeforeSlash(s: string): (r: string)
    ensures r <= s && '/' !in r
    ensures '/' in s ==> s[|r|] == '/'
  {
    var p := Partition(s, '/');
    if '/' in s then
      assert s == p.0 + ['/'] + p.1;
      p.0
    else p.0
  }

  /** What is stored for a value: the year keeps only the text before `/`. */
  function Stored(s: Slot, value: string): string {
    if s == Year then BeforeSlash(value) else value
  }

  /** One iteration of the reading loop, once the line's tag is known to
      mean `a` and its value is `value`: an `AU` line appends the value to
      the authors; a line with another recognised tag overwrites that tag's
      slot; nothing else changes. */
  function Apply(e: Entry, a: TagAction, value: string): (r: Entry)
    ensures a == Ignore ==> r == e
    ensures r.authors == e.authors + (if a == AddAuthor then [value] else [])
    ensures forall s: Slot :: Get(r, s) == if a == SetSlot(s) then Some(Stored(s, value)) else Get(e, s)
  {
    match a
    case AddAuthor => e.(authors := e.authors + [value])
    case SetSlot(s) => e.(slots := e.slots[s := Stored(s, value)])
    case Ignore => e
  }

  /** One iteration of the reading loop over a raw line; a line without a
      tag changes nothing. */
  function Step(e: Entry, line: string): Entry {
    match TagValue(line)
    case None => e
    case Some((field, value)) => Apply(e, Classify(field), value)
  }

  /** The reading loop over the file's lines, starting from `e`. */
  function ParseFrom(e: Entry, lines: seq<string>): Entry
    decreases |lines|
  {
    if |lines| == 0 then e else ParseFrom(Step(e, lines[0]), lines[1..])
  }

  /** The reading loop from the script's initial values: the authors are the
      `AU` values in file order, and every slot holds the value of the last
      line carrying one of its tags. */
  function ParseRis(lines: seq<string>): (r: Entry)
    ensures r.authors == Authors(lines)
    ensures forall s: Slot :: Get(r, s) == MapStored(s, LastFor(lines, s))
  {
    AuthorsReference(Empty, lines);
    forall s: Slot
      ensures Get(ParseFrom(Empty, lines), s) == MapStored(s, LastFor(lines, s))
    {
      SlotReference(Empty, lines, s);
    }
    ParseFrom(Empty, lines)
  }

  // ---------------------------------------------------------------------
  // Reference: what each accumulator holds

  /** The values of all `AU` lines, in file order. */
  function Authors(lines: seq<string>): seq<string> {
    if |lines| == 0 then []
    else (if ActionOf(lines[0]) == AddAuthor then [TagValue(lines[0]).value.1] else []) + Authors(lines[1..])
  }

  /** The raw value of the last line whose tag sets slot `s`. */
  function LastFor(lines: seq<string>, s: Slot): Option<string> {
    if |lines| == 0 then None
    else match LastFor(lines[1..], s)
      case Some(v) => Some(v)
      case None => if ActionOf(lines[0]) == SetSlot(s) then Some(TagValue(lines[0]).value.1) else None
  }

  function MapStored(s: Slot, v: Option<string>): Option<string> {
    match v
    case None => None
    case Some(x) => Some(Stored(s, x))
  }

  lemma {:induction false} AuthorsReference(e: Entry, lines: seq<string>)
    ensures ParseFrom(e, lines).authors == e.authors + Authors(lines)
    decreases |lines|
  {
    if |lines| > 0 {
      var e' := Step(e, lines[0]);
      var added := if ActionOf(lines[0]) == AddAuthor then [TagValue(lines[0]).value.1] else [];
      assert e'.authors == e.authors + added;
      assert Authors(lines) == added + Authors(lines[1..]);
      AuthorsReference(e', lines[1..]);
      assert ParseFrom(e, lines) == ParseFrom(e', lines[1..]);
      AppendAssoc(e.authors, added, Authors(lines[1..]));
    }
  }

  lemma AppendAssoc<T>(a: seq<T>, b: seq<T>, c: seq<T>)
    ensures a + b + c == a + (b + c)
  {
  }

  /** Last write wins: a slot ends with the value of the last line carrying
      one of its tags, or keeps its starting value. */
  lemma {:induction false} SlotReference(e: Entry, lines: seq<string>, s: Slot)
    ensures Get(ParseFrom(e, lines), s) ==
      (if LastFor(lines, s).Some? then MapStored(s, LastFor(lines, s)) else Get(e, s))
    decreases |lines|
  {
    if |lines| > 0 {
      SlotReference(Step(e, lines[0]), lines[1..], s);
    }
  }

  // ---------------------------------------------------------------------
  // Output

  /** The optional BibTeX fields, in output order. */
  datatype Field = FTitle | FJournal | FVolume | FPages | FYear | FDoi | FUrl | FPublisher

  function Name(f: Field): string {
    match f
    case FTitle => "title"
    case FJournal => "journal"
    case FVolume => "volume"
    case FPages => "pages"
    case FYear => "year"
    case FDoi => "doi"
    case FUrl => "url"
    case FPublisher => "publisher"
  }

  /** Position of a field in the output order. */
  function Rank(f: Field): nat {
    match f
    case FTitle => 0
    case FJournal => 1
    case FVolume => 2
    case FPages => 3
    case FYear => 4
    case FDoi => 5
    case FUrl => 6
    case FPublisher => 7
  }

  /** The value printed for a field, if its line is printed; `pages` needs
      both the start and the end page. */
  function Printed(e: Entry, f: Field): Option<string> {
    match f
    case FTitle => Get(e, Title)
    case FJournal => Get(e, Journal)
    case FVolume => Get(e, Volume)
    case FPages =>
      if Get(e, StartPage).Some? && Get(e, EndPage).Some?
      then Some(Get(e, StartPage).value + "--" + Get(e, EndPage).value) else None
    case FYear => Get(e, Year)
    case FDoi => Get(e, Doi)
    case FUrl => Get(e, Url)
    case FPublisher => Get(e, Publisher)
  }

  /** The optional fields in output order. */
  const FieldOrder: seq<Field> := [FTitle, FJournal, FVolume, FPages, FYear, FDoi, FUrl, FPublisher]

  /** The fields of `fs` that have a printed value, with that value, in the
      order of `fs`. */
  function PrintedAmong(e: Entry, fs: seq<Field>): (r: seq<(Field, string)>)
    requires forall i, j :: 0 <= i < j < |fs| ==> Rank(fs[i]) < Rank(fs[j])
    ensures forall f, v :: (f, v) in r <==> f in fs && Printed(e, f) == Some(v)
    ensures forall i :: 0 <= i < |r| ==> r[i].0 in fs
    ensures forall i, j :: 0 <= i < j < |r| ==> Rank(r[i].0) < Rank(r[j].0)
  {
    if |fs| == 0 then []
    else
      var rest := PrintedAmong(e, fs[1..]);
      assert forall i :: 0 <= i < |rest| ==> Rank(fs[0]) < Rank(rest[i].0);
      match Printed(e, fs[0])
      case None => rest
      case Some(v) => [(fs[0], v)] + rest
  }

  /** The optional fields that are printed, with their values, in output
      order: a field appears exactly when it has a printed value. */
  function PrintedFields(e: Entry): (r: seq<(Field, string)>)
    ensures forall f, v :: (f, v) in r <==> Printed(e, f) == Some(v)
    ensures forall i, j :: 0 <= i < j < |r| ==> Rank(r[i].0) < Rank(r[j].0)
  {
    forall f: Field
      ensures f in FieldOrder
    {
      assert FieldOrder[Rank(f)] == f;
    }
    PrintedAmong(e, FieldOrder)
  }

  /** An indented `name={value},` line. */
  function FieldLine(f: Field, value: string): string {
    "    " + Name(f) + "={" + value + "},"
  }

  function FieldLines(fields: seq<(Field, string)>): (r: seq<string>)
    ensures |r| == |fields|
    ensures forall i :: 0 <= i < |fields| ==> r[i] == FieldLine(fields[i].0, fields[i].1)
  {
    if |fields| == 0 then [] else [FieldLine(fields[0].0, fields[0].1)] + FieldLines(fields[1..])
  }

  /** The citation key: the first author's text before the first comma,
      stripped of spaces and lower-cased, then the year. */
  function CiteKey(firstAuthor: string, year: string): string {
    Lower(StripChar(Split(firstAuthor, ',')[0], ' ')) + year
  }

  /** The output lines of the script. It fails when there is no author
      (`author_list[0]`) or no year (concatenating `None`). */
  function BibLines(e: Entry): (r: Result<seq<string>>)
    ensures r.Ok? <==> |e.authors| > 0 && Get(e, Year).Some?
    ensures r.Ok? ==> |r.value| == |PrintedFields(e)| + 3
    ensures r.Ok? ==> r.value[0] == "@article{" + CiteKey(e.authors[0], Get(e, Year).value) + ","
    ensures r.Ok? ==> r.value[1] == "    author={" + Join(e.authors, " and ") + "},"
    ensures r.Ok? ==> forall i :: 0 <= i < |PrintedFields(e)| ==>
      r.value[i + 2] == FieldLine(PrintedFields(e)[i].0, PrintedFields(e)[i].1)
    ensures r.Ok? ==> r.value[|r.value| - 1] == "}\n"
  {
    if |e.authors| == 0 then Err("list index out of range")
    else if Get(e, Year).None? then Err("can only concatenate str (not \"NoneType\") to str")
    else
      var header := "@article{" + CiteKey(e.authors[0], Get(e, Year).value) + ",";
      var authorLine := "    author={" + Join(e.authors, " and ") + "},";
      Ok([header, authorLine] + FieldLines(PrintedFields(e)) + ["}\n"])
  }

  /** The text the script writes: the lines joined by `\n`. It fails exactly
      when the record has no `AU` line or no `PY` line. */
  function RisToBib(lines: seq<string>): (r: Result<string>)
    ensures r.Ok? <==> Authors(lines) != [] && LastFor(lines, Year).Some?
    ensures r.Ok? ==> r.value == Join(BibLines(ParseRis(lines)).value, "\n")
  {
    var e := ParseRis(lines);
    assert Get(e, Year) == MapStored(Year, LastFor(lines, Year));
    var out :- BibLines(e);
    Ok(Join(out, "\n"))
  }
}

=== FILE: roman.dfy ===
/** Roman numerals of `my_util.py`: the greedy ASCII encoder and the lookup
    into the twelve Unicode numerals U+2160..U+216B. */
module Roman {
  import opened Wrappers
  import opened Text

  /** The encoder's table: values and spellings, largest first. */
  const Table: seq<(nat, string)> := [
    (1000, "M"), (900, "CM"), (500, "D"), (400, "CD"), (100, "C"), (90, "XC"),
    (50, "L"), (40, "XL"), (10, "X"), (9, "IX"), (5, "V"), (4, "IV"), (1, "I")
  ]

  /** The value of a single numeral letter; 0 for anything else. */
  function LetterValue(c: char): nat {
    match c
    case 'I' => 1
    case 'V' => 5
    case 'X' => 10
    case 'L' => 50
    case 'C' => 100
    case 'D' => 500
    case 'M' => 1000
    case _ => 0
  }

  /** Reads a numeral with the subtractive rule: a letter worth less than the
      one after it counts negatively. */
  function Decode(s: string): int {
    if |s| == 0 then 0
    else if |s| >= 2 && LetterValue(s[0]) < LetterValue(s[1]) then Decode(s[1..]) - LetterValue(s[0])
    else Decode(s[1..]) + LetterValue(s[0])
  }

  /** Greedy encoding from table row `k` on: Python's `divmod` takes as many
      copies of the row's spelling as fit and hands the remainder on. A
      negative count repeats nothing; with a positive divisor Dafny's `/` and
      `%` round like Python's. */
  function EncodeFrom(k: nat, n: int): string
    requires k <= |Table|
    decreases |Table| - k
  {
    if k == |Table| then ""
    else Repeat(Table[k].1, n / Table[k].0) + EncodeFrom(k + 1, n % Table[k].0)
  }

  /** `int_to_roman_ascii`: for a non-negative number, a numeral that reads
      back as that number. */
  function IntToRomanAscii(n: int): (r: string)
    ensures n >= 0 ==> Decode(r) == n
  {
    EncodeCorrect(0, n);
    EncodeFrom(0, n)
  }

  /** A negative number is first reduced modulo 1000 by the `M` row (floor
      division gives a negative count of `M`s, i.e. none), so it spells the
      numeral of `n % 1000`. */
  lemma NegativeEncodesModulo(n: int)
    requires n < 0
    ensures IntToRomanAscii(n) == IntToRomanAscii(n % 1000)
    ensures Decode(IntToRomanAscii(n)) == n % 1000
  {
    var m := n % 1000;
    assert m / 1000 == 0 && m % 1000 == m;
    assert IntToRomanAscii(m) == Repeat("M", 0) + EncodeFrom(1, m);
  }

  /** Zero is the empty numeral: every row's count is zero. */
  lemma ZeroIsEmpty()
    ensures IntToRomanAscii(0) == ""
  {
    assert forall k :: 0 <= k < |Table| ==> 0 / Table[k].0 == 0 && 0 % Table[k].0 == 0;
    ZeroFrom(0);
  }

  lemma {:induction false} ZeroFrom(k: nat)
    requires k <= |Table|
    ensures EncodeFrom(k, 0) == ""
    decreases |Table| - k
  {
    if k < |Table| {
      ZeroFrom(k + 1);
      assert Repeat(Table[k].1, 0) == "";
    }
  }

  lemma {:induction false} DecodeAppend(a: string, b: string)
    requires a == "" || b == "" || LetterValue(a[|a| - 1]) >= LetterValue(b[0])
    ensures Decode(a + b) == Decode(a) + Decode(b)
    decreases |a|
  {
    if |a| == 0 {
      assert a + b == b;
    } else if |b| == 0 {
      assert a + b == a;
    } else {
      var ab := a + b;
      assert ab[1..] == a[1..] + b;
      if |a| == 1 {
        assert ab[1..] == b && ab[1] == b[0];
      } else {
        assert ab[1] == a[1];
        DecodeAppend(a[1..], b);
      }
    }
  }

  /** Every spelling in the table reads back as its value and does not end in
      a letter worth less than the one it starts with. */
  lemma TableSpellings(k: nat)
    requires k < |Table|
    ensures |Table[k].1| >= 1
    ensures Decode(Table[k].1) == Table[k].0
    ensures LetterValue(Table[k].1[0]) <= Table[k].0
    ensures LetterValue(Table[k].1[|Table[k].1| - 1]) >= Table[k].0
    ensures Table[k].0 >= 1
  {
    var s := Table[k].1;
    if |s| == 2 {
      assert Decode(s[1..]) == LetterValue(s[1]) by {
        assert s[1..][1..] == "";
      }
    } else {
      assert s[1..] == "";
    }
  }

  lemma {:induction false} RepeatLast(s: string, f: int)
    requires |s| >= 1 && f >= 1
    ensures |Repeat(s, f)| >= 1
    ensures Repeat(s, f)[0] == s[0]
    ensures Repeat(s, f)[|Repeat(s, f)| - 1] == s[|s| - 1]
    decreases f
  {
    if f > 1 {
      RepeatLast(s, f - 1);
    } else {
      assert Repeat(s, f) == s + "";
    }
  }

  /** `f` copies of a spelling that does not end below its start read back
      as `f` times its value. */
  lemma {:induction false} RepeatDecode(s: string, f: int)
    requires |s| >= 1 && LetterValue(s[|s| - 1]) >= LetterValue(s[0])
    requires f >= 0
    ensures Decode(Repeat(s, f)) == f * Decode(s)
    decreases f
  {
    if f > 0 {
      var rest := Repeat(s, f - 1);
      assert Repeat(s, f) == s + rest;
      RepeatDecode(s, f - 1);
      if f > 1 {
        RepeatLast(s, f - 1);
      }
      DecodeAppend(s, rest);
      assert Decode(s) + (f - 1) * Decode(s) == f * Decode(s);
    }
  }

  /** One greedy step: as many copies of a spelling worth `v` as fit in `n`,
      then the encoding `tail` of the remainder. */
  lemma EncodeStep(s: string, v: nat, n: int, tail: string)
    requires |s| >= 1 && Decode(s) == v && v >= 1
    requires LetterValue(s[0]) <= v <= LetterValue(s[|s| - 1])
    requires n >= 0
    requires Decode(tail) == n % v && (tail == "" || LetterValue(tail[0]) <= n % v)
    ensures Decode(Repeat(s, n / v) + tail) == n
    ensures Repeat(s, n / v) + tail != "" ==> LetterValue((Repeat(s, n / v) + tail)[0]) <= n
  {
    var f, m := n / v, n % v;
    assert n == f * v + m && 0 <= m < v;
    DivNonNegative(n, v);
    var head := Repeat(s, f);
    RepeatDecode(s, f);
    if f >= 1 {
      RepeatLast(s, f);
      MulMonotone(f, v);
    } else {
      assert head == "";
      assert head + tail == tail;
    }
    DecodeAppend(head, tail);
  }

  /** The greedy encoding from row `k`, for a number below the previous
      row's value, reads back as that number and starts with a letter worth
      at most the number. */
  lemma {:induction false} EncodeCorrect(k: nat, n: int)
    requires k <= |Table|
    requires k > 0 ==> 0 <= n < Table[k - 1].0
    ensures n >= 0 ==> Decode(EncodeFrom(k, n)) == n
    ensures n >= 0 && EncodeFrom(k, n) != "" ==> LetterValue(EncodeFrom(k, n)[0]) <= n
    decreases |Table| - k
  {
    if k == |Table| {
      assert n < 1;
    } else {
      var (v, spelling) := Table[k];
      TableSpellings(k);
      EncodeCorrect(k + 1, n % v);
      var tail := EncodeFrom(k + 1, n % v);
      assert EncodeFrom(k, n) == Repeat(spelling, n / v) + tail;
      if n >= 0 {
        EncodeStep(spelling, v, n, tail);
      }
    }
  }

  lemma DivNonNegative(n: int, v: int)
    requires n >= 0 && v > 0
    ensures n / v >= 0
  {
  }

  lemma MulMonotone(f: int, v: int)
    requires f >= 1 && v >= 0
    ensures f * v >= v
  {
  }

  // ---------------------------------------------------------------------
  // Unicode numerals

  /** Code point of U+2160 ROMAN NUMERAL ONE, less one. */
  const UnicodeBase: int := 0x215F

  /** `int_to_roman_unicode`: index `n - 1` into the twelve numerals. Python
      list indexing also accepts negative indexes from the end, so `n` in
      -11..0 selects numeral `n + 12`; anything else raises `IndexError`. */
  function IntToRomanUnicode(n: int): (r: Result<string>)
    ensures r.Ok? <==> -11 <= n <= 12
    ensures 1 <= n <= 12 ==> r == Ok([(UnicodeBase + n) as char])
    ensures -11 <= n <= 0 ==> r == Ok([(UnicodeBase + n + 12) as char])
  {
    var i := n - 1;
    if 0 <= i < 12 then Ok([(UnicodeBase + 1 + i) as char])
    else if -12 <= i < 0 then Ok([(UnicodeBase + 1 + (12 + i)) as char])
    else Err("list index out of range")
  }

  /** The number a Unicode numeral stands for, if it is one of the twelve. */
  function UnicodeValue(s: string): (r: Option<int>)
  {
    if |s| == 1 && UnicodeBase + 1 <= s[0] as int <= UnicodeBase + 12
    then Some(s[0] as int - UnicodeBase) else None
  }

  /** For 1..12 the Unicode numeral reads back as the number. */
  lemma UnicodeRoundTrip(n: int)
    requires 1 <= n <= 12
    ensures IntToRomanUnicode(n).Ok? && UnicodeValue(IntToRomanUnicode(n).value) == Some(n)
  {
  }
}

=== FILE: ruby_dump.dfy ===
/** Ruby's `String#dump` for UTF-8 strings, which `dump_as_lua` uses for
    string values: the text in double quotes, with `"` and `\` escaped, the
    named control escapes, `\xHH` for other control characters, `\#` before
    `{`, `$` or `@`, and `\uXXXX` / `\u{X...}` for non-ASCII characters. Its
    partner is `ReadQuoted`, a reader of the escaped text in the manner of
    `String#undump`. */
module RubyDump {
  import opened Wrappers

  // ---------------------------------------------------------------------
  // Upper-case hexadecimal

  const HexChars: string := "0123456789ABCDEF"

  predicate IsHexDigit(c: char) {
    '0' <= c <= '9' || 'A' <= c <= 'F' || 'a' <= c <= 'f'
  }

  predicate AllHex(s: string) {
    forall i :: 0 <= i < |s| ==> IsHexDigit(s[i])
  }

  function HexDigitValue(c: char): nat
    requires IsHexDigit(c)
  {
    if '0' <= c <= '9' then c as int - '0' as int
    else if 'A' <= c <= 'F' then c as int - 'A' as int + 10
    else c as int - 'a' as int + 10
  }

  /** Value of hexadecimal digits, most significant first. */
  function HexValue(s: string): nat
    requires AllHex(s)
  {
    if |s| == 0 then 0 else HexValue(s[..|s| - 1]) * 16 + HexDigitValue(s[|s| - 1])
  }

  function Pow16(w: nat): (p: nat)
    ensures p >= 1
  {
    if w == 0 then 1 else 16 * Pow16(w - 1)
  }

  /** `n` in exactly `w` upper-case hexadecimal digits (C's `%0wX`). */
  function HexFixed(n: nat, w: nat): (s: string)
    ensures |s| == w
  {
    if w == 0 then "" else HexFixed(n / 16, w - 1) + [HexChars[n % 16]]
  }

  /** Reading the `w` digits back gives `n` whenever `n` fits in them. */
  lemma {:induction false} HexFixedValue(n: nat, w: nat)
    requires n < Pow16(w)
    ensures AllHex(HexFixed(n, w)) && HexValue(HexFixed(n, w)) == n
  {
    if w > 0 {
      var s := HexFixed(n, w);
      var k := n % 16;
      assert s[..|s| - 1] == HexFixed(n / 16, w - 1);
      HexFixedValue(n / 16, w - 1);
      HexCharValue(k);
      assert s[|s| - 1] == HexChars[k];
    }
  }

  /** Every upper-case digit reads back as its own value. */
  lemma HexCharValue(k: nat)
    requires k < 16
    ensures IsHexDigit(HexChars[k]) && HexDigitValue(HexChars[k]) == k
  {
    if k < 10 {
      assert HexChars[k] == ('0' as int + k) as char;
    } else {
      assert HexChars[k] == ('A' as int + k - 10) as char;
    }
  }

  // ---------------------------------------------------------------------
  // Escaping

  const Escape: char := 27 as char

  /** The characters `String#dump` spells with a one-letter escape, and the
      letter. */
  function NamedEscape(c: char): Option<char> {
    if c == '"' then Some('"')
    else if c == '\\' then Some('\\')
    else if c == '\n' then Some('n')
    else if c == '\r' then Some('r')
    else if c == '\t' then Some('t')
    else if c == 12 as char then Some('f')
    else if c == 11 as char then Some('v')
    else if c == 8 as char then Some('b')
    else if c == 7 as char then Some('a')
    else if c == Escape then Some('e')
    else None
  }

  /** The inverse of `NamedEscape`, extended by `\#`. */
  function NamedUnescape(letter: char): (r: Option<char>)
    ensures r.Some? && r.value != '#' ==> NamedEscape(r.value) == Some(letter)
  {
    if letter == '"' then Some('"')
    else if letter == '\\' then Some('\\')
    else if letter == 'n' then Some('\n')
    else if letter == 'r' then Some('\r')
    else if letter == 't' then Some('\t')
    else if letter == 'f' then Some(12 as char)
    else if letter == 'v' then Some(11 as char)
    else if letter == 'b' then Some(8 as char)
    else if letter == 'a' then Some(7 as char)
    else if letter == 'e' then Some(Escape)
    else if letter == '#' then Some('#')
    else None
  }

  /** Whether `#` followed by `next` would start an interpolation. */
  predicate StartsInterpolation(next: Option<char>) {
    next == Some('{') || next == Some('$') || next == Some('@')
  }

  /** How `String#dump` writes character `c` when `next` follows it. */
  function EscapeChar(c: char, next: Option<char>): (r: string)
    ensures |r| >= 1
  {
    if NamedEscape(c).Some? then ['\\', NamedEscape(c).value]
    else if c == '#' then (if StartsInterpolation(next) then "\\#" else "#")
    else if 0x20 <= c as int < 0x7F then [c]
    else if c as int < 0x80 then "\\x" + HexFixed(c as int, 2)
    else if c as int <= 0xFFFF then "\\u" + HexFixed(c as int, 4)
    else "\\u{" + HexFixed(c as int, if c as int < 0x100000 then 5 else 6) + "}"
  }

  /** The escaped text between the quotes. */
  function Escaped(s: string): string {
    if |s| == 0 then ""
    else EscapeChar(s[0], if |s| > 1 then Some(s[1]) else None) + Escaped(s[1..])
  }

  /** `String#dump`: the escaped text in double quotes. */
  function Dump(s: string): (r: string)
    ensures |r| >= 2 && r[0] == '"' && r[|r| - 1] == '"'
  {
    "\"" + Escaped(s) + "\""
  }

  // ---------------------------------------------------------------------
  // Reading back

  predicate IsScalarValue(n: int) {
    0 <= n < 0xD800 || 0xE000 <= n < 0x110000
  }

  function CharOf(n: int): Option<char> {
    if IsScalarValue(n) then Some(n as char) else None
  }

  /** Decodes the escape sequence at the start of `t` (which starts with a
      backslash): the character and the length of the sequence. */
  function Unescape(t: string): (r: Option<(char, nat)>)
    requires |t| >= 2 && t[0] == '\\'
    ensures r.Some? ==> 2 <= r.value.1 <= |t|
  {
    if NamedUnescape(t[1]).Some? then Some((NamedUnescape(t[1]).value, 2))
    else if t[1] == 'x' then
      if |t| >= 4 && AllHex(t[2..4]) then
        var c :- CharOf(HexValue(t[2..4]));
        Some((c, 4))
      else None
    else if t[1] == 'u' then
      if |t| >= 3 && t[2] == '{' then
        var j :- FindClose(t, 3);
        if j > 3 && AllHex(t[3..j]) then
          var c :- CharOf(HexValue(t[3..j]));
          Some((c, j + 1))
        else None
      else if |t| >= 6 && AllHex(t[2..6]) then
        var c :- CharOf(HexValue(t[2..6]));
        Some((c, 6))
      else None
    else None
  }

  /** Index of the first `}` at or after `start`. */
  function FindClose(t: string, start: nat): (r: Option<nat>)
    requires start <= |t|
    ensures r.Some? ==> start <= r.value < |t| && t[r.value] == '}'
    ensures r.Some? ==> forall k :: start <= k < r.value ==> t[k] != '}'
    decreases |t| - start
  {
    if start == |t| then None
    else if t[start] == '}' then Some(start)
    else FindClose(t, start + 1)
  }

  /** Reads escaped text up to the closing quote: the decoded string and what
      follows the quote. */
  function ReadQuoted(t: string): (r: Option<(string, string)>)
    ensures r.Some? ==> |r.value.1| < |t|
    decreases |t|
  {
    if |t| == 0 then None
    else if t[0] == '"' then Some(("", t[1..]))
    else if t[0] == '\\' then
      if |t| < 2 then None
      else
        var (c, k) :- Unescape(t);
        var (body, rest) :- ReadQuoted(t[k..]);
        Some(([c] + body, rest))
    else
      var (body, rest) :- ReadQuoted(t[1..]);
      Some(([t[0]] + body, rest))
  }

  /** Reads a dumped string: a quote, then escaped text up to the closing
      quote. */
  function Undump(t: string): (r: Option<(string, string)>)
    ensures r.Some? ==> |r.value.1| < |t|
  {
    if |t| == 0 || t[0] != '"' then None else ReadQuoted(t[1..])
  }

  // ---------------------------------------------------------------------
  // Round trip

  /** Reading a dumped string gives the string back, and leaves whatever
      followed the closing quote. */
  lemma DumpRoundTrip(s: string, rest: string)
    ensures Undump(Dump(s) + rest) == Some((s, rest))
  {
    var t := Dump(s) + rest;
    assert t[1..] == Escaped(s) + "\"" + rest;
    EscapedReads(s, rest);
  }

  lemma {:induction false} EscapedReads(s: string, rest: string)
    ensures ReadQuoted(Escaped(s) + "\"" + rest) == Some((s, rest))
    decreases |s|
  {
    if |s| == 0 {
      assert Escaped(s) + "\"" + rest == "\"" + rest;
    } else {
      var next := if |s| > 1 then Some(s[1]) else None;
      var e := EscapeChar(s[0], next);
      var u := Escaped(s[1..]) + "\"" + rest;
      assert Escaped(s) + "\"" + rest == e + u;
      EscapedReads(s[1..], rest);
      EscapeCharReads(s[0], next, u);
      if e[0] == '\\' {
        assert (e + u)[|e|..] == u;
      } else {
        assert (e + u)[1..] == u;
      }
      assert [s[0]] + s[1..] == s;
    }
  }

  /** One escaped character is read back as that character: either it is
      written as itself (and is neither a quote nor a backslash), or the
      escape sequence decodes to it and has exactly its length. */
  lemma EscapeCharReads(c: char, next: Option<char>, u: string)
    ensures var e := EscapeChar(c, next);
      (e[0] != '\\' ==> e == [c] && c != '"' && c != '\\')
      && (e[0] == '\\' ==> |e + u| >= 2 && Unescape(e + u) == Some((c, |e|)))
  {
    if NamedEscape(c).Some? {
      NamedReads(c, u);
    } else if c == '#' {
    } else if 0x20 <= c as int < 0x7F {
    } else if c as int < 0x80 {
      HexReads(c, u);
    } else if c as int <= 0xFFFF {
      ShortUnicodeReads(c, u);
    } else {
      LongUnicodeReads(c, u);
    }
  }

  lemma NamedReads(c: char, u: string)
    requires NamedEscape(c).Some?
    ensures Unescape(['\\', NamedEscape(c).value] + u) == Some((c, 2))
  {
    var t := ['\\', NamedEscape(c).value] + u;
    assert t[1] == NamedEscape(c).value;
    assert NamedUnescape(NamedEscape(c).value) == Some(c);
  }

  lemma HexReads(c: char, u: string)
    requires NamedEscape(c).None? && c != '#' && !(0x20 <= c as int < 0x7F) && c as int < 0x80
    ensures Unescape("\\x" + HexFixed(c as int, 2) + u) == Some((c, 4))
  {
    var t := "\\x" + HexFixed(c as int, 2) + u;
    assert Pow16(2) == 0x100;
    HexFixedValue(c as int, 2);
    assert t[2..4] == HexFixed(c as int, 2);
    assert NamedUnescape('x').None?;
  }

  lemma ShortUnicodeReads(c: char, u: string)
    requires 0x80 <= c as int <= 0xFFFF
    ensures Unescape("\\u" + HexFixed(c as int, 4) + u) == Some((c, 6))
  {
    var t := "\\u" + HexFixed(c as int, 4) + u;
    assert Pow16(4) == 0x10000;
    HexFixedValue(c as int, 4);
    assert t[2..6] == HexFixed(c as int, 4);
    assert t[2] != '{' by {
      assert t[2] == HexFixed(c as int, 4)[0];
    }
    assert NamedUnescape('u').None?;
  }

  lemma LongUnicodeReads(c: char, u: string)
    requires c as int > 0xFFFF
    ensures var w := if c as int < 0x100000 then 5 else 6;
      Unescape("\\u{" + HexFixed(c as int, w) + "}" + u) == Some((c, w + 4))
  {
    var w := if c as int < 0x100000 then 5 else 6;
    var h := HexFixed(c as int, w);
    var t := "\\u{" + h + "}" + u;
    assert Pow16(5) == 0x100000 && Pow16(6) == 0x1000000;
    HexFixedValue(c as int, w);
    assert t[3..3 + w] == h;
    assert forall k :: 3 <= k < 3 + w ==> t[k] == h[k - 3];
    assert t[3 + w] == '}';
    FindCloseIs(t, 3, 3 + w);
    assert NamedUnescape('u').None?;
  }

  lemma {:induction false} FindCloseIs(t: string, start: nat, j: nat)
    requires start <= j < |t| && t[j] == '}'
    requires forall k :: start <= k < j ==> t[k] != '}'
    ensures FindClose(t, start) == Some(j)
    decreases j - start
  {
    if start < j {
      FindCloseIs(t, start + 1, j);
    }
  }

  /** Dumping is injective: different strings never dump alike. */
  lemma DumpInjective(a: string, b: string)
    requires Dump(a) == Dump(b)
    ensures a == b
  {
    DumpRoundTrip(a, "");
    DumpRoundTrip(b, "");
    assert Dump(a) + "" == Dump(b) + "";
  }
}

=== FILE: split_audio.dfy ===
/** The time-listing reader of `music/split_audio_by_timestamps.py`: each
    line is `start end [name]`, and becomes a record of start, duration and
    output file name. */
module SplitAudio {
  import opened Wrappers
  import opened Text
  import opened Numbers
  import MyUtil

  /** `make_time`: like `strparse_hms_to_seconds`, except that in the
      two-field form both fields are read with `int`. */
  function MakeTime(elem: string): (r: Result<real>)
    ensures |Split(elem, ':')| > 3 ==> r.Err?
    ensures |Split(elem, ':')| == 2 && r.Ok? ==> r.value == r.value.Floor as real
  {
    var t := Split(elem, ':');
    if |t| == 3 then
      var h :- ParseInt(t[0]).ToResult("hours");
      var m :- ParseInt(t[1]).ToResult("minutes");
      var sec :- ParseDecimal(t[2]).ToResult("seconds");
      Ok((h * 3600 + m * 60) as real + sec)
    else if |t| == 2 then
      var m :- ParseInt(t[0]).ToResult("minutes");
      var sec :- ParseInt(t[1]).ToResult("seconds");
      Ok((m * 60 + sec) as real)
    else if |t| == 1 then
      ParseDecimal(t[0]).ToResult("seconds")
    else
      Err("Unknown time format")
  }

  /** Wherever `make_time` succeeds it agrees with `strparse_hms_to_seconds`,
      and outside the two-field form the two are the same function. */
  lemma MakeTimeRefinesHms(elem: string)
    ensures MakeTime(elem).Ok? ==> MyUtil.StrParseHms(elem) == MakeTime(elem)
    ensures |Split(elem, ':')| != 2 ==> MakeTime(elem) == MyUtil.StrParseHms(elem)
  {
  }

  /** The two readers part ways on fractional seconds in the `M:S` form:
      `0:1.5` is 1.5 seconds to `strparse_hms_to_seconds` but an error here. */
  lemma FractionalMinuteSecondsRejected(elem: string)
    requires elem == "0:1.5"
    ensures MakeTime(elem).Err?
    ensures MyUtil.StrParseHms(elem) == Ok(1.5)
  {
    MinuteSecondFields(elem);
    MinuteSecondNumbers();
    TwoFieldReaders(elem, "0", "1.5", 0, 1.5);
  }

  /** On a two-field time, `make_time` needs an integer second and
      `strparse_hms_to_seconds` a decimal one. */
  lemma TwoFieldReaders(elem: string, a: string, b: string, m: int, sec: real)
    requires Split(elem, ':') == [a, b]
    requires ParseInt(a) == Some(m) && ParseInt(b).None? && ParseDecimal(b) == Some(sec)
    ensures MakeTime(elem).Err?
    ensures MyUtil.StrParseHms(elem) == Ok((m * 60) as real + sec)
  {
    assert MyUtil.StrParseHms(elem) == MyUtil.HmsOfFields([a, b]);
  }

  /** On a two-field time with a whole second both readers give
      `M * 60 + S`. */
  lemma MakeTimeTwo(elem: string, a: string, b: string, m: int, n: int)
    requires Split(elem, ':') == [a, b]
    requires ParseInt(a) == Some(m) && ParseInt(b) == Some(n)
    ensures MakeTime(elem) == Ok((m * 60 + n) as real)
    ensures MyUtil.StrParseHms(elem) == MakeTime(elem)
  {
  }

  lemma MinuteSecondFields(elem: string)
    requires elem == "0:1.5"
    ensures Split(elem, ':') == ["0", "1.5"]
  {
    assert "0:1.5" == Join(["0", "1.5"], [':']);
    SplitJoin(["0", "1.5"], ':');
  }

  lemma MinuteSecondNumbers()
    ensures ParseInt("0") == Some(0)
    ensures ParseInt("1.5").None? && ParseDecimal("1.5") == Some(1.5)
  {
    assert ParseInt("1.5").None? by {
      assert !IsDigit('.');
      assert SignOf("1.5").1 == "1.5";
    }
    assert ParseInt("0") == Some(0);
    assert ParseDecimal("1.5") == Some(1.5) by {
      assert SignOf("1.5").1 == "1.5";
      assert FindDot("1.5") == 1;
      assert "1.5"[..1] == "1" && "1.5"[2..] == "5";
    }
  }

  /** One parsed line of the listing. */
  datatype Record = Record(beginTime: real, duration: real, outFilename: string)

  /** The fields of a listing line: the stripped line split on single spaces
      at most twice, so the third field keeps its spaces. */
  function Fields(line: string): (r: seq<string>)
    ensures 1 <= |r| <= 3
    ensures |r| >= 2 ==> ' ' !in r[0] && ' ' !in r[1]
  {
    SplitMax(Strip(line), ' ', 2)
  }

  /** The record of line number `l` (0-based): fewer than two fields is an
      error, the duration is end minus start, and a missing name defaults to
      `<l>.wav`. */
  function LineRecord(l: nat, line: string): (r: Result<Record>)
    ensures |Fields(line)| < 2 ==> r.Err?
    ensures r.Ok? <==> |Fields(line)| >= 2 && MakeTime(Fields(line)[0]).Ok? && MakeTime(Fields(line)[1]).Ok?
    ensures r.Ok? ==> r.value.beginTime == MakeTime(Fields(line)[0]).value
    ensures r.Ok? ==> r.value.duration == MakeTime(Fields(line)[1]).value - r.value.beginTime
    ensures r.Ok? ==> r.value.outFilename == if |Fields(line)| == 3 then Fields(line)[2] else NatToString(l) + ".wav"
  {
    var tp := Fields(line);
    if |tp| < 2 then Err("list index out of range")
    else
      var begin :- MakeTime(tp[0]);
      var end :- MakeTime(tp[1]);
      var name := if |tp| < 3 then NatToString(l) + ".wav" else tp[2];
      Ok(Record(begin, end - begin, name))
  }

  /** `collect_from_file`: one record per line, in order; the first failing
      line aborts the whole listing. */
  function CollectFromFile(lines: seq<string>): (r: Result<seq<Record>>)
    ensures r.Ok? <==> forall l :: 0 <= l < |lines| ==> LineRecord(l, lines[l]).Ok?
    ensures r.Ok? ==> |r.value| == |lines|
    ensures r.Ok? ==> forall l :: 0 <= l < |lines| ==> r.value[l] == LineRecord(l, lines[l]).value
  {
    var rs := seq(|lines|, l requires 0 <= l < |lines| => LineRecord(l, lines[l]));
    assert forall l :: 0 <= l < |lines| ==> rs[l] == LineRecord(l, lines[l]);
    Collect(rs)
  }

  /** A line written as `begin end name`, with no spaces inside the two times
      and nothing to strip at either end, is read back field by field. */
  lemma LineRecordOfFields(l: nat, b: string, e: string, name: string)
    requires b != "" && e != "" && name != ""
    requires ' ' !in b && ' ' !in e
    requires !IsSpace(b[0]) && !IsSpace(name[|name| - 1])
    requires MakeTime(b).Ok? && MakeTime(e).Ok?
    ensures LineRecord(l, b + " " + e + " " + name)
      == Ok(Record(MakeTime(b).value, MakeTime(e).value - MakeTime(b).value, name))
  {
    var line := b + " " + e + " " + name;
    FieldsOfLine(b, e, name);
    assert Fields(line) == [b, e, name];
    var r := LineRecord(l, line);
    assert r.Ok?;
    assert r.value.beginTime == MakeTime(b).value;
    assert r.value.duration == MakeTime(e).value - MakeTime(b).value;
    assert r.value.outFilename == name;
  }

  lemma FieldsOfLine(b: string, e: string, name: string)
    requires b != "" && name != ""
    requires ' ' !in b && ' ' !in e
    requires !IsSpace(b[0]) && !IsSpace(name[|name| - 1])
    ensures Fields(b + " " + e + " " + name) == [b, e, name]
  {
    var line := b + " " + e + " " + name;
    assert line[0] == b[0] && line[|line| - 1] == name[|name| - 1];
    TrimByNoop(line, IsSpace);
    SplitMaxJoin3(b, e, name);
  }

  lemma SplitMaxJoin3(b: string, e: string, name: string)
    requires ' ' !in b && ' ' !in e
    ensures SplitMax(b + " " + e + " " + name, ' ', 2) == [b, e, name]
  {
    var s := b + " " + e + " " + name;
    var s1 := e + " " + name;
    assert s == b + " " + s1;
    assert s[..|b|] == b;
    FindCharIs(s, ' ', |b|);
    assert s[|b| + 1..] == s1;
    assert s1[..|e|] == e;
    FindCharIs(s1, ' ', |e|);
    assert s1[|e| + 1..] == name;
    assert SplitMax(name, ' ', 0) == [name];
  }
}

=== FILE: text.dfy ===
/** String primitives of the Python and Ruby standard libraries that the
    scripts rely on, stated over `seq<char>`. Each one follows the library's
    documented behaviour for the arguments the scripts pass. */
module Text {
  import opened Wrappers

  /** Characters Python's `str.strip()` removes: the code points for which
      `str.isspace()` holds. */
  predicate IsSpace(c: char) {
    var n := c as int;
    n == 0x20 || (0x09 <= n <= 0x0d) || (0x1c <= n <= 0x1f)
    || n == 0x85 || n == 0xa0 || n == 0x1680
    || (0x2000 <= n <= 0x200a) || n == 0x2028 || n == 0x2029
    || n == 0x202f || n == 0x205f || n == 0x3000
  }

  /** Characters at which Python's `str.splitlines()` breaks a line. */
  predicate IsLineBreak(c: char) {
    var n := c as int;
    (0x0a <= n <= 0x0d) || (0x1c <= n <= 0x1e)
    || n == 0x85 || n == 0x2028 || n == 0x2029
  }

  /** Number of leading characters of `s` that satisfy `f`. */
  function LeadCount(s: string, f: char -> bool): (n: nat)
    ensures n <= |s|
    ensures forall i :: 0 <= i < n ==> f(s[i])
    ensures n == |s| || !f(s[n])
  {
    if |s| > 0 && f(s[0]) then 1 + LeadCount(s[1..], f) else 0
  }

  /** Number of trailing characters of `s` that satisfy `f`. */
  function TrailCount(s: string, f: char -> bool): (n: nat)
    ensures n <= |s|
    ensures forall i :: |s| - n <= i < |s| ==> f(s[i])
    ensures n == |s| || !f(s[|s| - n - 1])
  {
    if |s| > 0 && f(s[|s| - 1]) then 1 + TrailCount(s[..|s| - 1], f) else 0
  }

  /** Removes every leading and trailing character satisfying `f`
      (Python `str.strip(chars)`, Ruby `String#strip`). */
  function TrimBy(s: string, f: char -> bool): (r: string)
    ensures |r| + LeadCount(s, f) <= |s|
    ensures r == "" || (!f(r[0]) && !f(r[|r| - 1]))
    ensures forall i :: 0 <= i < |r| ==> r[i] == s[LeadCount(s, f) + i]
    ensures r == "" <==> forall i :: 0 <= i < |s| ==> f(s[i])
  {
    var a := LeadCount(s, f);
    var b := TrailCount(s[a..], f);
    TrimEmpty(s, f, a, b);
    s[a..][..|s[a..]| - b]
  }

  /** Trimming leaves nothing exactly when every character is trimmed: the
      trailing run can only swallow the rest when the leading run did. */
  lemma TrimEmpty(s: string, f: char -> bool, a: nat, b: nat)
    requires a == LeadCount(s, f) && b == TrailCount(s[a..], f)
    ensures b == |s| - a <==> forall i :: 0 <= i < |s| ==> f(s[i])
  {
  }

  /** Python `str.strip()`. */
  function Strip(s: string): (r: string)
    ensures r == "" || (!IsSpace(r[0]) && !IsSpace(r[|r| - 1]))
    ensures r == "" <==> forall i :: 0 <= i < |s| ==> IsSpace(s[i])
  {
    TrimBy(s, IsSpace)
  }

  /** Python `str.strip(c)` for a single character `c`. */
  function StripChar(s: string, c: char): (r: string)
    ensures r == "" || (r[0] != c && r[|r| - 1] != c)
    ensures r == "" <==> forall i :: 0 <= i < |s| ==> s[i] == c
  {
    TrimBy(s, x => x == c)
  }

  /** Trimming leaves a string that has nothing to trim unchanged. */
  lemma TrimByNoop(s: string, f: char -> bool)
    requires s == "" || (!f(s[0]) && !f(s[|s| - 1]))
    ensures TrimBy(s, f) == s
  {
    assert LeadCount(s, f) == 0;
    assert TrailCount(s, f) == 0;
  }

  /** Python `str.removeprefix`. */
  function RemovePrefix(s: string, p: string): (r: string)
    ensures p <= s ==> p + r == s
    ensures !(p <= s) ==> r == s
  {
    if p <= s then s[|p|..] else s
  }

  /** Index of the first occurrence of `c` in `s`. */
  function FindChar(s: string, c: char): (r: Option<nat>)
    ensures r.Some? ==> r.value < |s| && s[r.value] == c && c !in s[..r.value]
    ensures r.None? ==> c !in s
  {
    if |s| == 0 then None
    else if s[0] == c then Some(0)
    else match FindChar(s[1..], c)
      case None => None
      case Some(i) => Some(i + 1)
  }

  /** The first occurrence of `c` is at `i` when `c` is there and not before. */
  lemma FindCharIs(s: string, c: char, i: nat)
    requires i < |s| && s[i] == c && c !in s[..i]
    ensures FindChar(s, c) == Some(i)
  {
    assert s[..i + 1][i] == c;
  }

  /** Index of the last occurrence of `c` in `s` (Python `str.rfind`). */
  function FindLastChar(s: string, c: char): (r: Option<nat>)
    ensures r.Some? ==> r.value < |s| && s[r.value] == c && c !in s[r.value + 1..]
    ensures r.None? <==> c !in s
  {
    if |s| == 0 then None
    else if s[|s| - 1] == c then Some(|s| - 1)
    else match FindLastChar(s[..|s| - 1], c)
      case None => None
      case Some(i) =>
        assert s[i + 1..] == s[..|s| - 1][i + 1..] + [s[|s| - 1]];
        Some(i)
  }

  /** Index of the first occurrence of `c` at or after `start`
      (Python `str.find(c, start)`). */
  function FindCharFrom(s: string, c: char, start: nat): (r: Option<nat>)
    requires start <= |s|
    ensures r.Some? ==> start <= r.value < |s| && s[r.value] == c && c !in s[start..r.value]
    ensures r.None? <==> c !in s[start..]
  {
    match FindChar(s[start..], c)
    case None => None
    case Some(i) => Some(start + i)
  }

  /** `sub` occurs in `s` starting at index `j`. */
  predicate OccursAt(s: string, sub: string, j: nat) {
    j + |sub| <= |s| && s[j..j + |sub|] == sub
  }

  lemma SliceOfTail(s: string, a: nat, b: nat)
    requires a <= b < |s|
    ensures s[1..][a..b] == s[a + 1..b + 1]
  {
  }

  lemma SplitAround(s: string, i: nat)
    requires i < |s|
    ensures s == s[..i] + [s[i]] + s[i + 1..]
  {
  }

  lemma OccursShift(s: string, sub: string, j: nat)
    requires 1 <= j && |s| >= 1
    ensures OccursAt(s, sub, j) == OccursAt(s[1..], sub, j - 1)
  {
    if j + |sub| <= |s| {
      SliceOfTail(s, j - 1, j - 1 + |sub|);
    }
  }

  /** Index of the first occurrence of `sub` in `s` (Python `str.find`). */
  function FindSub(s: string, sub: string): (r: Option<nat>)
    ensures r.Some? ==> OccursAt(s, sub, r.value)
    ensures r.Some? ==> forall j: nat :: j < r.value ==> !OccursAt(s, sub, j)
    ensures r.None? ==> forall j: nat :: !OccursAt(s, sub, j)
    decreases |s|
  {
    if |s| < |sub| then None
    else if s[..|sub|] == sub then Some(0)
    else
      var r := FindSub(s[1..], sub);
      assert forall j: nat :: 1 <= j ==> OccursAt(s, sub, j) == OccursAt(s[1..], sub, j - 1) by {
        forall j: nat | 1 <= j {
          OccursShift(s, sub, j);
        }
      }
      match r
      case None => None
      case Some(i) => Some(i + 1)
  }

  /** The first occurrence of `sub` is at `p` when it occurs there and nowhere
      before. */
  lemma FindSubIs(s: string, sub: string, p: nat)
    requires OccursAt(s, sub, p)
    requires forall j: nat :: j < p ==> !OccursAt(s, sub, j)
    ensures FindSub(s, sub) == Some(p)
  {
  }

  /** Python `sep.join(parts)` / Ruby `parts.join(sep)`. */
  function Join(parts: seq<string>, sep: string): (r: string)
    ensures |parts| == 1 ==> r == parts[0]
    decreases |parts|
  {
    if |parts| == 0 then ""
    else if |parts| == 1 then parts[0]
    else parts[0] + sep + Join(parts[1..], sep)
  }

  lemma JoinCons(p: string, rest: seq<string>, sep: string)
    requires |rest| > 0
    ensures Join([p] + rest, sep) == p + sep + Join(rest, sep)
  {
    assert ([p] + rest)[1..] == rest;
  }

  /** Python `s.split(c)`: the pieces between occurrences of `c`. */
  function Split(s: string, c: char): (r: seq<string>)
    ensures |r| >= 1
    ensures forall i :: 0 <= i < |r| ==> c !in r[i]
    ensures Join(r, [c]) == s
    decreases |s|
  {
    match FindChar(s, c)
    case None => [s]
    case Some(i) =>
      var rest := Split(s[i + 1..], c);
      JoinCons(s[..i], rest, [c]);
      assert s == s[..i] + [c] + s[i + 1..];
      [s[..i]] + rest
  }

  /** `Split` undoes `Join` when no piece contains the separator. */
  lemma {:induction false} SplitJoin(parts: seq<string>, c: char)
    requires |parts| >= 1
    requires forall i :: 0 <= i < |parts| ==> c !in parts[i]
    ensures Split(Join(parts, [c]), c) == parts
    decreases |parts|
  {
    if |parts| == 1 {
      assert FindChar(parts[0], c).None?;
    } else {
      var tail := Join(parts[1..], [c]);
      assert Join(parts, [c]) == parts[0] + [c] + tail;
      SplitOfCons(parts[0], c, tail);
      SplitJoin(parts[1..], c);
      assert parts == [parts[0]] + parts[1..];
    }
  }

  /** A separator-free first piece is split off at the first separator. */
  lemma SplitOfCons(p: string, c: char, tail: string)
    requires c !in p
    ensures Split(p + [c] + tail, c) == [p] + Split(tail, c)
  {
    var s := p + [c] + tail;
    assert s[..|p|] == p;
    FindCharIs(s, c, |p|);
    assert s[|p| + 1..] == tail;
  }

  /** Python `s.split(c, n)`: at most `n` splits, the remainder kept whole. */
  function SplitMax(s: string, c: char, n: nat): (r: seq<string>)
    ensures 1 <= |r| <= n + 1
    ensures forall i :: 0 <= i < |r| - 1 ==> c !in r[i]
    ensures Join(r, [c]) == s
    decreases n
  {
    if n == 0 then [s]
    else match FindChar(s, c)
      case None => [s]
      case Some(i) =>
        var rest := SplitMax(s[i + 1..], c, n - 1);
        SplitCons(s, c, i, rest);
        [s[..i]] + rest
  }

  /** Putting the text before the first `c` in front of the pieces of the
      text after it gives the pieces of the whole text. */
  lemma SplitCons(s: string, c: char, i: nat, rest: seq<string>)
    requires i < |s| && s[i] == c && c !in s[..i]
    requires |rest| >= 1 && Join(rest, [c]) == s[i + 1..]
    requires forall k :: 0 <= k < |rest| - 1 ==> c !in rest[k]
    ensures Join([s[..i]] + rest, [c]) == s
    ensures forall k :: 0 <= k < |rest| ==> c !in ([s[..i]] + rest)[k]
  {
    var r := [s[..i]] + rest;
    JoinCons(s[..i], rest, [c]);
    SplitAround(s, i);
    assert forall k :: 1 <= k <= |rest| ==> r[k] == rest[k - 1];
  }

  /** Python `s.partition(c)`: text before the first `c` and text after it;
      `(s, "")` when there is none. */
  function Partition(s: string, c: char): (r: (string, string))
    ensures c !in r.0
    ensures c in s ==> s == r.0 + [c] + r.1
    ensures c !in s ==> r == (s, "")
  {
    match FindChar(s, c)
    case None => (s, "")
    case Some(i) =>
      assert s == s[..i] + [c] + s[i + 1..];
      (s[..i], s[i + 1..])
  }

  /** Python `s.replace(a, b)` for single characters. */
  function ReplaceChar(s: string, a: char, b: char): (r: string)
    ensures |r| == |s|
    ensures forall i :: 0 <= i < |s| ==> r[i] == (if s[i] == a then b else s[i])
  {
    if |s| == 0 then "" else [if s[0] == a then b else s[0]] + ReplaceChar(s[1..], a, b)
  }

  /** The one-to-one part of Python `str.lower()` for the Basic Latin,
      Latin-1, Latin Extended-A and basic Cyrillic capitals. U+0130, which
      lowers to two characters, and every other script are kept as they are. */
  function LowerChar(c: char): (r: char)
    ensures 'A' <= c <= 'Z' ==> r as int == c as int + 32
    ensures 'a' <= c <= 'z' ==> r == c
  {
    var n := c as int;
    if 'A' <= c <= 'Z' || (0xC0 <= n <= 0xDE && n != 0xD7) || 0x410 <= n <= 0x42F then (n + 32) as char
    else if 0x400 <= n <= 0x40F then (n + 80) as char
    else if n == 0x178 then 0xFF as char
    else if (0x100 <= n <= 0x12F || 0x132 <= n <= 0x137 || 0x14A <= n <= 0x177) && n % 2 == 0 then (n + 1) as char
    else if (0x139 <= n <= 0x148 || 0x179 <= n <= 0x17E) && n % 2 == 1 then (n + 1) as char
    else c
  }

  function Lower(s: string): (r: string)
    ensures |r| == |s|
    ensures forall i :: 0 <= i < |s| ==> r[i] == LowerChar(s[i])
  {
    if |s| == 0 then "" else [LowerChar(s[0])] + Lower(s[1..])
  }

  /** Python `s * k`: `k` copies of `s`, the empty string when `k <= 0`. */
  function Repeat(s: string, k: int): (r: string)
    ensures k <= 0 ==> r == ""
    ensures k > 0 ==> |r| == |s| * k
    decreases if k > 0 then k else 0
  {
    if k <= 0 then "" else s + Repeat(s, k - 1)
  }
}

=== FILE: vipe.dfy ===
/** The tab-separated table text of `my_vipe.py`: `format_table_data` writes
    a `# `-prefixed header line and one tab-joined line per row;
    `parse_table_data` reads the rows back. */
module Vipe {
  import opened Wrappers
  import opened Text

  /** Python `str.splitlines()`: lines split at any line-break character,
      `\r\n` counting as one break; a final break does not start an empty
      line, and the empty string has no lines. */
  function SplitLines(s: string): (r: seq<string>)
    ensures forall i :: 0 <= i < |r| ==> forall k :: 0 <= k < |r[i]| ==> !IsLineBreak(r[i][k])
    decreases |s|
  {
    if |s| == 0 then []
    else match FirstBreak(s)
      case None => [s]
      case Some(i) =>
        var skip := if s[i] == '\r' && i + 1 < |s| && s[i + 1] == '\n' then 2 else 1;
        [s[..i]] + SplitLines(s[i + skip..])
  }

  /** Index of the first line-break character of `s`. */
  function FirstBreak(s: string): (r: Option<nat>)
    ensures r.Some? ==> r.value < |s| && IsLineBreak(s[r.value])
                        && forall k :: 0 <= k < r.value ==> !IsLineBreak(s[k])
    ensures r.None? ==> forall k :: 0 <= k < |s| ==> !IsLineBreak(s[k])
  {
    if |s| == 0 then None
    else if IsLineBreak(s[0]) then Some(0)
    else match FirstBreak(s[1..])
      case None => None
      case Some(i) => Some(i + 1)
  }

  /** Index just past the run of tabs that starts at `i`. */
  function TabRunEnd(s: string, i: nat): (j: nat)
    requires i <= |s|
    ensures i <= j <= |s|
    ensures forall k :: i <= k < j ==> s[k] == '\t'
    ensures j == |s| || s[j] != '\t'
    decreases |s| - i
  {
    if i < |s| && s[i] == '\t' then TabRunEnd(s, i + 1) else i
  }

  /** Python `re.split(r'\t+', s)`: the pieces between maximal runs of tabs.
      Only a leading or trailing run yields an empty piece. */
  function SplitTabRuns(s: string): (r: seq<string>)
    ensures |r| >= 1
    ensures forall i :: 0 <= i < |r| ==> '\t' !in r[i]
    ensures forall i :: 0 < i < |r| - 1 ==> r[i] != ""
    ensures r[0] <= s
    decreases |s|
  {
    match FindChar(s, '\t')
    case None => [s]
    case Some(i) =>
      var j := TabRunEnd(s, i);
      var rest := SplitTabRuns(s[j..]);
      [s[..i]] + rest
  }

  /** The lines `format_table_data` writes before joining them. */
  function TableLines(headers: seq<string>, rows: seq<seq<string>>): (r: seq<string>)
    ensures |r| == |rows| + 1
    ensures r[0] == "# " + Join(headers, "\t")
    ensures forall i :: 0 <= i < |rows| ==> r[i + 1] == Join(rows[i], "\t")
  {
    if |rows| == 0 then ["# " + Join(headers, "\t")]
    else TableLines(headers, rows[..|rows| - 1]) + [Join(rows[|rows| - 1], "\t")]
  }

  /** `format_table_data`: the header line, then one line per row, joined by
      `\n` with no newline at the end. */
  function FormatTableData(headers: seq<string>, rows: seq<seq<string>>): (r: string)
    ensures "# " + Join(headers, "\t") <= r
  {
    var lines := TableLines(headers, rows);
    JoinStartsWithFirst(lines, "\n");
    Join(lines, "\n")
  }

  /** The lines `parse_table_data` keeps: not empty, not starting with `#`. */
  function DataLines(lines: seq<string>): (r: seq<string>)
    ensures forall i :: 0 <= i < |r| ==> r[i] != "" && r[i][0] != '#'
    ensures forall l :: l in r <==> l in lines && l != "" && l[0] != '#'
    ensures |r| <= |lines|
  {
    if |lines| == 0 then []
    else if lines[0] == "" || lines[0][0] == '#' then DataLines(lines[1..])
    else [lines[0]] + DataLines(lines[1..])
  }

  function SplitEach(lines: seq<string>): (r: seq<seq<string>>)
    ensures |r| == |lines|
    ensures forall i :: 0 <= i < |lines| ==> r[i] == SplitTabRuns(lines[i])
  {
    if |lines| == 0 then [] else [SplitTabRuns(lines[0])] + SplitEach(lines[1..])
  }

  /** `parse_table_data`: the rows of the kept lines, each split at runs of
      tabs. */
  function ParseTableData(content: string): (r: seq<seq<string>>)
    ensures forall i :: 0 <= i < |r| ==> |r[i]| >= 1
    ensures forall i, k :: 0 <= i < |r| && 0 <= k < |r[i]| ==> '\t' !in r[i][k]
    ensures forall i :: 0 <= i < |r| ==> r[i][0] == "" || r[i][0][0] != '#'
    ensures forall l :: l in SplitLines(content) && l != "" && l[0] != '#' ==> SplitTabRuns(l) in r
    ensures |r| <= |SplitLines(content)|
  {
    var kept := DataLines(SplitLines(content));
    var r := SplitEach(kept);
    assert forall i :: 0 <= i < |r| ==> r[i][0] <= kept[i];
    forall l | l in SplitLines(content) && l != "" && l[0] != '#'
      ensures SplitTabRuns(l) in r
    {
      var i :| 0 <= i < |kept| && kept[i] == l;
      assert r[i] == SplitTabRuns(l);
    }
    r
  }

  /** The kept lines of a concatenation are the kept lines of each part, in
      order. */
  lemma {:induction false} DataLinesAppend(a: seq<string>, b: seq<string>)
    ensures DataLines(a + b) == DataLines(a) + DataLines(b)
    decreases |a|
  {
    if |a| == 0 {
      assert a + b == b;
    } else {
      assert (a + b)[0] == a[0] && (a + b)[1..] == a[1..] + b;
      DataLinesAppend(a[1..], b);
    }
  }

  /** Reading on by one line adds exactly that line's row when it is neither
      empty nor a comment, and nothing otherwise. */
  lemma DataLinesSnoc(lines: seq<string>, l: string)
    ensures DataLines(lines + [l]) == DataLines(lines) + (if l != "" && l[0] != '#' then [l] else [])
  {
    DataLinesAppend(lines, [l]);
    assert [l][1..] == [];
  }

  /** The rows are the kept lines, in order, each split at runs of tabs. */
  lemma ParseTableDataRows(content: string)
    ensures ParseTableData(content) == SplitEach(DataLines(SplitLines(content)))
  {
  }

  // ---------------------------------------------------------------------
  // Round trip

  /** A cell the round trip preserves: non-empty, no tab, no line break. */
  predicate GoodCell(c: string) {
    c != "" && '\t' !in c && forall k :: 0 <= k < |c| ==> !IsLineBreak(c[k])
  }

  /** A row the round trip preserves: at least one cell, all good, and the
      first not starting with `#`. */
  predicate GoodRow(row: seq<string>) {
    |row| >= 1 && (forall k :: 0 <= k < |row| ==> GoodCell(row[k])) && row[0][0] != '#'
  }

  predicate NoBreaks(s: string) {
    forall k :: 0 <= k < |s| ==> !IsLineBreak(s[k])
  }

  lemma JoinStartsWithFirst(parts: seq<string>, sep: string)
    requires |parts| >= 1
    ensures parts[0] <= Join(parts, sep)
  {
    if |parts| > 1 {
      JoinCons(parts[0], parts[1..], sep);
      assert parts == [parts[0]] + parts[1..];
    }
  }

  lemma FirstPieceStarts(parts: seq<string>, sep: string)
    requires |parts| >= 1 && parts[0] != ""
    ensures Join(parts, sep) != "" && Join(parts, sep)[0] == parts[0][0]
  {
    if |parts| > 1 {
      JoinCons(parts[0], parts[1..], sep);
      assert parts == [parts[0]] + parts[1..];
    }
  }

  lemma {:induction false} JoinNoBreaks(parts: seq<string>, sep: string)
    requires NoBreaks(sep)
    requires forall i :: 0 <= i < |parts| ==> NoBreaks(parts[i])
    ensures NoBreaks(Join(parts, sep))
    decreases |parts|
  {
    if |parts| > 1 {
      JoinNoBreaks(parts[1..], sep);
      var t := Join(parts[1..], sep);
      assert Join(parts, sep) == parts[0] + sep + t;
      NoBreaksConcat(parts[0], sep);
      NoBreaksConcat(parts[0] + sep, t);
    }
  }

  /** `re.split` on runs of tabs undoes a tab-join of tab-free, non-empty
      cells. */
  lemma {:induction false} SplitTabRunsJoin(cells: seq<string>)
    requires |cells| >= 1
    requires forall k :: 0 <= k < |cells| ==> cells[k] != "" && '\t' !in cells[k]
    ensures SplitTabRuns(Join(cells, "\t")) == cells
    decreases |cells|
  {
    var s := Join(cells, "\t");
    if |cells| == 1 {
      assert FindChar(s, '\t').None?;
    } else {
      var tail := Join(cells[1..], "\t");
      JoinCons(cells[0], cells[1..], "\t");
      assert cells == [cells[0]] + cells[1..];
      var i := |cells[0]|;
      assert s == cells[0] + "\t" + tail;
      assert s[i] == '\t' && s[..i] == cells[0];
      assert FindChar(s, '\t') == Some(i);
      FirstPieceStarts(cells[1..], "\t");
      assert s[i + 1..] == tail;
      assert TabRunEnd(s, i + 1) == i + 1;
      assert TabRunEnd(s, i) == i + 1;
      SplitTabRunsJoin(cells[1..]);
    }
  }

  /** `splitlines` undoes a `\n`-join of non-empty lines without breaks. */
  lemma {:induction false} SplitLinesJoin(lines: seq<string>)
    requires forall i :: 0 <= i < |lines| ==> lines[i] != "" && NoBreaks(lines[i])
    ensures SplitLines(Join(lines, "\n")) == lines
    decreases |lines|
  {
    var s := Join(lines, "\n");
    if |lines| == 0 {
    } else if |lines| == 1 {
      assert FirstBreak(s).None?;
    } else {
      var tail := Join(lines[1..], "\n");
      JoinCons(lines[0], lines[1..], "\n");
      assert lines == [lines[0]] + lines[1..];
      var i := |lines[0]|;
      assert s == lines[0] + "\n" + tail;
      assert IsLineBreak(s[i]) && s[..i] == lines[0];
      assert FirstBreak(s) == Some(i);
      assert s[i + 1..] == tail;
      SplitLinesJoin(lines[1..]);
    }
  }

  lemma {:induction false} DataLinesOfRows(headers: seq<string>, rows: seq<seq<string>>)
    requires forall i :: 0 <= i < |rows| ==> GoodRow(rows[i])
    ensures DataLines(TableLines(headers, rows)) == SplitRowsBack(rows)
    decreases |rows|
  {
    var lines := TableLines(headers, rows);
    assert DataLines(lines) == DataLines(lines[1..]);
    DataLinesTail(rows, lines[1..]);
  }

  /** The tab-joined lines of the rows. */
  function SplitRowsBack(rows: seq<seq<string>>): (r: seq<string>)
    ensures |r| == |rows|
    ensures forall i :: 0 <= i < |rows| ==> r[i] == Join(rows[i], "\t")
  {
    if |rows| == 0 then [] else [Join(rows[0], "\t")] + SplitRowsBack(rows[1..])
  }

  lemma {:induction false} DataLinesTail(rows: seq<seq<string>>, lines: seq<string>)
    requires forall i :: 0 <= i < |rows| ==> GoodRow(rows[i])
    requires |lines| == |rows|
    requires forall i :: 0 <= i < |rows| ==> lines[i] == Join(rows[i], "\t")
    ensures DataLines(lines) == SplitRowsBack(rows)
    decreases |rows|
  {
    if |rows| > 0 {
      FirstPieceStarts(rows[0], "\t");
      DataLinesTail(rows[1..], lines[1..]);
    }
  }

  lemma HeaderLineGood(headers: seq<string>)
    requires forall i :: 0 <= i < |headers| ==> NoBreaks(headers[i])
    ensures NoBreaks("# " + Join(headers, "\t"))
  {
    JoinNoBreaks(headers, "\t");
    assert NoBreaks("# ");
    NoBreaksConcat("# ", Join(headers, "\t"));
  }

  lemma NoBreaksConcat(a: string, b: string)
    requires NoBreaks(a) && NoBreaks(b)
    ensures NoBreaks(a + b)
  {
    forall k | 0 <= k < |a + b|
      ensures !IsLineBreak((a + b)[k])
    {
      if k >= |a| {
        assert (a + b)[k] == b[k - |a|];
      }
    }
  }

  lemma RowLineGood(row: seq<string>)
    requires GoodRow(row)
    ensures Join(row, "\t") != "" && NoBreaks(Join(row, "\t"))
  {
    FirstPieceStarts(row, "\t");
    assert forall k :: 0 <= k < |row| ==> GoodCell(row[k]);
    JoinNoBreaks(row, "\t");
  }

  lemma TableLinesGood(headers: seq<string>, rows: seq<seq<string>>)
    requires forall i :: 0 <= i < |headers| ==> NoBreaks(headers[i])
    requires forall i :: 0 <= i < |rows| ==> GoodRow(rows[i])
    ensures forall i :: 0 <= i < |rows| + 1 ==>
      TableLines(headers, rows)[i] != "" && NoBreaks(TableLines(headers, rows)[i])
  {
    var lines := TableLines(headers, rows);
    HeaderLineGood(headers);
    forall i | 0 <= i < |lines|
      ensures lines[i] != "" && NoBreaks(lines[i])
    {
      if i > 0 {
        assert lines[i] == Join(rows[i - 1], "\t");
        RowLineGood(rows[i - 1]);
      }
    }
  }

  lemma {:induction false} SplitEachRowsBack(rows: seq<seq<string>>)
    requires forall i :: 0 <= i < |rows| ==> GoodRow(rows[i])
    ensures SplitEach(SplitRowsBack(rows)) == rows
  {
    var r := SplitEach(SplitRowsBack(rows));
    forall i | 0 <= i < |rows|
      ensures r[i] == rows[i]
    {
      SplitTabRunsJoin(rows[i]);
    }
  }

  /** Formatting then parsing gives back the rows, for good rows and a header
      without line breaks. */
  lemma ParseFormatRoundTrip(headers: seq<string>, rows: seq<seq<string>>)
    requires forall i :: 0 <= i < |headers| ==> NoBreaks(headers[i])
    requires forall i :: 0 <= i < |rows| ==> GoodRow(rows[i])
    ensures ParseTableData(FormatTableData(headers, rows)) == rows
  {
    TableLinesGood(headers, rows);
    SplitLinesJoin(TableLines(headers, rows));
    DataLinesOfRows(headers, rows);
    SplitEachRowsBack(rows);
  }
}

=== FILE: wrappers.dfy ===
/** Failure-carrying datatypes shared by every module of the model.

    The scripts being modelled report failure by raising an exception (Python)
    or `raise RuntimeError` (Ruby) and abort. The model returns `Err` with a
    short description instead; only the fact that the run aborts matters, so
    callers never inspect the message. */
module Wrappers {

  datatype Option<+T> = None | Some(value: T) {
    predicate IsFailure() {
      None?
    }

    function PropagateFailure<U>(): Option<U>
      requires None?
    {
      None
    }

    function Extract(): T
      requires Some?
    {
      value
    }

    function GetOr(default: T): T {
      match this
      case Some(v) => v
      case None => default
    }

    function ToResult(msg: string): Result<T> {
      match this
      case Some(v) => Ok(v)
      case None => Err(msg)
    }
  }

  datatype Result<+T> = Ok(value: T) | Err(msg: string) {
    predicate IsFailure() {
      Err?
    }

    function PropagateFailure<U>(): Result<U>
      requires Err?
    {
      Err(msg)
    }

    function Extract(): T
      requires Ok?
    {
      value
    }
  }

  /** `Ok(())` when `cond` holds, otherwise the given failure. */
  function Need(cond: bool, msg: string): Result<()> {
    if cond then Ok(()) else Err(msg)
  }

  /** Runs a sequence of steps in order: all their values when every step
      succeeds, otherwise the failure of the first step that failed. */
  function Collect<T>(rs: seq<Result<T>>): (r: Result<seq<T>>)
    ensures r.Ok? <==> forall k :: 0 <= k < |rs| ==> rs[k].Ok?
    ensures r.Ok? ==> |r.value| == |rs| && forall k :: 0 <= k < |rs| ==> r.value[k] == rs[k].value
  {
    if |rs| == 0 then Ok([])
    else if rs[0].Err? then Err(rs[0].msg)
    else match Collect(rs[1..])
      case Err(m) => Err(m)
      case Ok(vs) => Ok([rs[0].value] + vs)
  }
}
